=== FILE: README.md ===
# NA.Framework.Core in Dafny

A model of the core of NA.Framework.Core, a .NET helper library for ASP.NET
Core applications on Entity Framework Core. It covers:

- **Data access.** The generic `BaseRepository` (CRUD with soft delete, audit
  timestamps and an `autoSave` switch over an EF Core context) and the
  `BaseService` facade above it. The `WhereBuilder` predicate builder and the
  `Inclusion` eager-load list feed these queries.
- **Helpers.** The string validators of `StringExtension`, the argument guards
  and data path of the AES/DES helpers, and the DER parsers for RSA keys in
  `EncryptHelper`. Also the MD5 renderings of `HashHelper`, the content-root
  logic of `PathHelper`, and the two `HttpContext` extensions. Finally the
  timestamp conversions of `TimeHelper`, the China-zone shift of
  `DateTimeExtension`, and the workbook layout of `NPOIHelper`.

## How it is modelled

**Values, not objects.** Everything is an immutable value with pure
functions. A repository is `Repo(table, staged)`:

- `table` holds the committed rows, which every query reads;
- `staged` holds the commands on the change tracker.

`Save` flushes the staged commands in order, all or nothing:

- an insert of an existing key fails as `DbUpdate`;
- an update or delete of a missing key fails as `DbUpdateConcurrency`.

Staging can fail too. EF's change tracker refuses to track a second instance
with a key it already tracks. So a call that hands it two entities with one
key (`AddRange`, `UpdateRange`, `Update(where, handle)`, `Delete(where)`)
fails as `InvalidOperation` before anything is staged or flushed.

**Exceptions and null.** A .NET exception is `Result.Throw` with an
`Exception` value naming its kind and, for argument exceptions, the parameter.
A null reference is `Option.None`.

**Parameters for what is not modelled.** The following are parameters:

- the clock, as a `now` tick count;
- the machine's UTC offset and local Unix epoch;
- Dynamic LINQ ordering;
- the MD5, AES and DES transforms;
- UTF-8 and Base64;
- the JSON serializer;
- the date formatter;
- NPOI's sheet-name check.

Where a law connects such parameters (decryption undoes encryption), it is a
hypothesis of the lemma that needs it (`EncryptHelper.Lawful`).

**Integer widths.** Integers are unbounded. The source's 32-bit arithmetic is
written out where it matters: the BKDR hash wraps, and `long.Parse`
overflows. The paging offset `(nowPage - 1) * pageSize` wraps too:
`GetPageList` uses the wrapped offset as the code computes it, and
`GetPageListIntended` the true product.

**Characters.** A Dafny `char` is a Unicode scalar value, not a UTF-16 code
unit. Where the source counts `Length` or iterates over `char`s, the model
counts and iterates over the UTF-16 units of `Clr.Utf16`. A character
outside the Basic Multilingual Plane is then two units, as in .NET.

**Null entities.** An entity argument that may be null is an `Option`.
Dereferencing a null one raises `NullReferenceException` (`Clr.Need`).

The files follow the source: one module per class.

| file | models |
|---|---|
| `clr.dfy` | `Option`, `Result`, .NET exceptions, 32-bit wrap-around, UTF-16 units, `DateTime` ticks, white space, decimal digits, `Split`/`Join` |
| `base_entity.dfy` | `BaseEntity` |
| `inclusion.dfy` | `Inclusion` |
| `where_builder.dfy` | `WhereBuilder` |
| `base_repository.dfy` | `BaseRepository`, `QueryExtension.OrderBy` |
| `repository_laws.dfy` | laws relating several repository operations |
| `base_service.dfy` | `BaseService` |
| `string_extension.dfy` | `StringExtension` validators, BKDR hash, subnet matching |
| `encrypt_helper.dfy` | AES/DES entry points of `EncryptHelper` |
| `der.dfy` | the DER key parsers of `EncryptHelper` |
| `der_encoding.dfy` | DER encoder used as the reference the parsers are proved against |
| `hash_helper.dfy` | `HashHelper` |
| `path_helper.dfy` | `PathHelper` and `System.IO.Path` on .NET Core |
| `http_context_extension.dfy` | `HttpContextExtension` |
| `time_helper.dfy` | `TimeHelper` and `long.Parse` |
| `date_time_extension.dfy` | `DateTimeExtension` |
| `npoi_helper.dfy` | `NPOIHelper` |

### Where the code and its description differ

In each case below the model follows the code.

- `Update(where, handle)` applies `handle` and stages the rows. It does **not**
  refresh `UpdateTime`, unlike `Update(entity)` and `UpdateRange`.
- A soft `Delete(where)` goes through `UpdateRange` with its default
  `autoSave = true`. So it refreshes `UpdateTime` and flushes to the database
  even when the caller passed `autoSave = false` (`RepositoryLaws.SoftDeleteWhereFlushes`).
- A soft `Delete(entity)` and `DeleteById` raise `IsDeleted` but leave
  `UpdateTime` alone.
- `DeleteById` of a missing key fails: with a null dereference (soft) or in
  `Remove(null)` (hard).
- A null entity is not rejected up front. `Add` and a hard `Delete` pass it
  to EF, which throws `ArgumentNullException`. `Update`, `AddOrUpdate` and a
  soft `Delete` dereference it first and throw `NullReferenceException`.
- `PathHelper.IsAbsolute` tests the position of the *first* occurrence of the
  volume separator. On Unix, where that separator is '/', it tests the first
  backslash instead.

## Model

| member | source | states |
|---|---|---|
| `Entities.NewEntity` | NA.Framework.Core/Models/BaseEntity.cs:13-28 | a new entity is live; both audit timestamps are the clock reading given and so never out of order |
| `Inclusions.AddInclude` | NA.Framework.Core/Models/Inclusion.cs:14-18 | the typed list grows by exactly the given accessor at its end; the named list is unchanged |
| `Inclusions.AddIncludeString` | NA.Framework.Core/Models/Inclusion.cs:20-24 | the named list grows by exactly the given path at its end; the typed list is unchanged |
| `Inclusions.ChainCollects` | NA.Framework.Core/Models/Inclusion.cs:10-24 | any interleaving of the two overloads leaves each list equal to its own directives in call order, appended, none dropped or merged |
| `Inclusions.NoDeduplication` | NA.Framework.Core/Models/Inclusion.cs:14-18 | adding the same accessor twice appends both copies at the end of the typed list and leaves the named list alone |
| `WhereBuilders.Base` | NA.Framework.Core/Models/WhereBuilder.cs:16-24 | the base builder accepts every entity |
| `WhereBuilders.CreateBase` | NA.Framework.Core/Models/WhereBuilder.cs:26-30 | the builder's predicate agrees with the given base expression on every entity |
| `WhereBuilders.IfAnd` | NA.Framework.Core/Models/WhereBuilder.cs:32-40 | a false condition leaves the builder unchanged; otherwise the new predicate is the old one AND the expression |
| `WhereBuilders.IfElseAnd` | NA.Framework.Core/Models/WhereBuilder.cs:42-47 | the new predicate is the old one AND whichever branch the condition selects |
| `WhereBuilders.IfOr` | NA.Framework.Core/Models/WhereBuilder.cs:49-57 | a false condition leaves the builder unchanged; otherwise the new predicate is the old one OR the expression |
| `WhereBuilders.IfElseOr` | NA.Framework.Core/Models/WhereBuilder.cs:59-64 | the new predicate is the old one OR whichever branch the condition selects |
| `WhereBuilders.Build` | NA.Framework.Core/Models/WhereBuilder.cs:66-70 | the built function evaluates exactly as the accumulated expression |
| `WhereBuilders.ChainMeansFold` | NA.Framework.Core/Models/WhereBuilder.cs:32-70 | any chain of steps builds a predicate equal, on every entity, to a left-to-right boolean fold of the steps in call order |
| `WhereBuilders.FalseStepsAreInert` | NA.Framework.Core/Models/WhereBuilder.cs:32-57 | a chain of conditional steps whose conditions are all false changes nothing |
| `WhereBuilders.BaseIfAndIsBranch` | NA.Framework.Core/Models/WhereBuilder.cs:16-40 | `Base.IfAnd(true, p)` builds a predicate equal to `p` |
| `WhereBuilders.LeftNested` | NA.Framework.Core/Models/WhereBuilder.cs:32-57 | `IfAnd` then `IfOr` nests to the left: `(true AND p) OR q` |
| `BaseRepository.Where` | NA.Framework.Core/EFCore/DAL/BaseRepository.cs:85-115 | the filtered rows all satisfy the filter and are no more than the input |
| `BaseRepository.WhereMembers` | NA.Framework.Core/EFCore/DAL/BaseRepository.cs:85-115 | a row is in the filtered result exactly when it is in the table and satisfies the filter |
| `BaseRepository.WhereIsSubsequence` | NA.Framework.Core/EFCore/DAL/BaseRepository.cs:85-115 | the filtered rows are the input's rows at strictly increasing positions, and a position is among them exactly when its row satisfies the filter, so order is kept |
| `BaseRepository.WhereCount` | NA.Framework.Core/EFCore/DAL/BaseRepository.cs:149 | `rowCount` is the number of positions whose row satisfies the filter |
| `BaseRepository.Find` | NA.Framework.Core/EFCore/DAL/BaseRepository.cs:46-64 | none exactly when no row has the key; otherwise the first row, in table order, with that key |
| `BaseRepository.OrderBy` | NA.Framework.Core/Extensions/QueryExtension.cs:11-14 | a null or blank ordering keeps the order; anything else goes to Dynamic LINQ |
| `BaseRepository.Skip` | NA.Framework.Core/EFCore/DAL/BaseRepository.cs:153 | a non-positive count skips nothing, a count past the end leaves nothing, else the suffix |
| `BaseRepository.Take` | NA.Framework.Core/EFCore/DAL/BaseRepository.cs:154 | a non-positive count takes nothing, a count past the end takes all, else the prefix |
| `BaseRepository.Apply` | NA.Framework.Core/EFCore/DAL/BaseRepository.cs:39-42 | one flushed command succeeds exactly when its key is absent (insert) or present (update, delete), with the table it leaves |
| `BaseRepository.ApplyKeepsUnique` | NA.Framework.Core/EFCore/DAL/BaseRepository.cs:39-42 | a successful command keeps keys unique |
| `BaseRepository.ApplyAll` | NA.Framework.Core/EFCore/DAL/BaseRepository.cs:39-42 | flushing a batch keeps keys unique |
| `BaseRepository.Save` | NA.Framework.Core/EFCore/DAL/BaseRepository.cs:39-42 | `SaveChanges` succeeds exactly when every staged command applies in order; it then empties the staging list, and is a no-op when nothing is staged |
| `BaseRepository.GetById` | NA.Framework.Core/EFCore/DAL/BaseRepository.cs:46-64 | null exactly when no row has the key; otherwise the first row with that key |
| `BaseRepository.GetList` | NA.Framework.Core/EFCore/DAL/BaseRepository.cs:85-115 | filter, then project, then order: with a blank ordering, row `i` is the projection of the `i`th matching row |
| `BaseRepository.GetListDefaults` | NA.Framework.Core/EFCore/DAL/BaseRepository.cs:85-115 | no filter, no projection and a blank ordering give the whole table in table order |
| `BaseRepository.SkipCount` | NA.Framework.Core/EFCore/DAL/BaseRepository.cs:153 | the intended page offset is never negative and is zero exactly on page 1 or for size 0 |
| `BaseRepository.SkipCountAsWritten` | NA.Framework.Core/EFCore/DAL/BaseRepository.cs:153 | the offset as the code computes it is congruent to the true offset modulo 2^32, and equal to it whenever the true offset fits in an `int` |
| `BaseRepository.Window` | NA.Framework.Core/EFCore/DAL/BaseRepository.cs:153-154 | `Skip(first).Take(size)` has the expected length and holds the rows from `first` on |
| `BaseRepository.GetPageList` | NA.Framework.Core/EFCore/DAL/BaseRepository.cs:117-158 | page and size are normalised; `rowCount` counts the filtered rows (overflow past `int.MaxValue`); the rows are the window at the wrapped 32-bit offset (nothing skipped when it wraps negative), which is the true offset whenever that fits in an `int` |
| `BaseRepository.GetPageListIntended` | NA.Framework.Core/EFCore/DAL/BaseRepository.cs:117-158 | the paging with the true offset fails exactly when `GetPageList` does, with the same `rowCount`; it agrees with `GetPageList` while the offset fits; its rows are the window at the true offset, empty once that is past the last row |
| `BaseRepository.PageNormalisation` | NA.Framework.Core/EFCore/DAL/BaseRepository.cs:120-121 | a page number up to 0 behaves as page 1 and a negative size as size 0 |
| `BaseRepository.Any` | NA.Framework.Core/EFCore/DAL/BaseRepository.cs:180-192 | with no filter, whether the table has a row; otherwise whether some row satisfies the filter |
| `BaseRepository.Add` | NA.Framework.Core/EFCore/DAL/BaseRepository.cs:198-206 | a null entity throws `ArgumentNullException`; otherwise returns the entity; without `autoSave` it only stages an insert; with it, on a clean context, succeeds exactly when the key is new and appends the row, else fails as `DbUpdate` |
| `BaseRepository.AddRange` | NA.Framework.Core/EFCore/DAL/BaseRepository.cs:223-230 | a null collection throws; two entities with one key throw `InvalidOperation`; otherwise one insert per entity is staged in order |
| `BaseRepository.Update` | NA.Framework.Core/EFCore/DAL/BaseRepository.cs:321-331 | a null entity is a null dereference; otherwise `UpdateTime` is refreshed and the refreshed entity returned; with `autoSave` on a clean context it succeeds exactly when the key exists, the key then reads back the refreshed row, and a missing key fails as `DbUpdateConcurrency` |
| `BaseRepository.FindAfterReplace` | NA.Framework.Core/EFCore/DAL/BaseRepository.cs:46-64 | after a row is replaced, its key finds the new row and every other key finds what it found before |
| `BaseRepository.UpdateRange` | NA.Framework.Core/EFCore/DAL/BaseRepository.cs:333-346 | a null collection throws; otherwise nulls are dropped, two kept entities with one key throw `InvalidOperation`, and else one refreshed update per kept entity is staged |
| `BaseRepository.NonNull` | NA.Framework.Core/EFCore/DAL/BaseRepository.cs:335 | exactly the rows `Where(e => e != null)` keeps: the non-null entries, in order and with their repeats |
| `BaseRepository.UpdateWhere` | NA.Framework.Core/EFCore/DAL/BaseRepository.cs:301-319 | null filter or handler throws; two handled rows with one key throw `InvalidOperation`; otherwise each matching row, passed through the handler, is staged as an update, without refreshing `UpdateTime` |
| `BaseRepository.AddOrUpdate` | NA.Framework.Core/EFCore/DAL/BaseRepository.cs:208-221 | a null entity is a null dereference; otherwise the update path exactly when a row with the key exists, the add path otherwise |
| `BaseRepository.Delete` | NA.Framework.Core/EFCore/DAL/BaseRepository.cs:236-252 | a null entity is a null dereference when soft and a null argument when hard; a soft delete stages the row with `IsDeleted = 1`, a hard one a removal; with `autoSave` on a clean context it succeeds exactly when the key exists, else fails as `DbUpdateConcurrency` |
| `BaseRepository.DeleteById` | NA.Framework.Core/EFCore/DAL/BaseRepository.cs:278-295 | a missing key fails (null dereference when soft, null argument when hard); otherwise it deletes the row the key finds |
| `BaseRepository.DeleteWhere` | NA.Framework.Core/EFCore/DAL/BaseRepository.cs:254-276 | a null filter throws; a soft delete always flushes; a hard delete of two matching rows with one key throws `InvalidOperation`, and otherwise without `autoSave` stages one removal per matching row |
| `RepositoryLaws.WhereWhere` | NA.Framework.Core/EFCore/DAL/BaseRepository.cs:85-115 | filtering twice is filtering once by the conjunction |
| `RepositoryLaws.RemovalsLand` | NA.Framework.Core/EFCore/DAL/BaseRepository.cs:254-276 | flushing one removal per distinct-key row of the table succeeds and leaves exactly the rows with none of those keys, in order |
| `RepositoryLaws.HardDeleteWhereRemovesMatches` | NA.Framework.Core/EFCore/DAL/BaseRepository.cs:254-276 | a flushed hard `Delete(where)` leaves exactly the non-matching rows, in order, nothing staged |
| `RepositoryLaws.UpdatesLand` | NA.Framework.Core/EFCore/DAL/BaseRepository.cs:333-346 | flushing updates to existing keys succeeds; every row becomes the last update with its key and keeps its position |
| `RepositoryLaws.UpdateRangeFlushes` | NA.Framework.Core/EFCore/DAL/BaseRepository.cs:333-346 | `UpdateRange` with `autoSave` lands one refreshed update per entity when the keys are distinct, and throws `InvalidOperation` when two share one |
| `RepositoryLaws.UpdatesFail` | NA.Framework.Core/EFCore/DAL/BaseRepository.cs:39-42 | flushing updates fails as `DbUpdateConcurrency` as soon as one of them names a missing key |
| `RepositoryLaws.MatchedRow` | NA.Framework.Core/EFCore/DAL/BaseRepository.cs:301-319 | after flushing the handled matches of a filter with a key-keeping handler, a matching row becomes its handled value in place |
| `RepositoryLaws.UpdateWhereLands` | NA.Framework.Core/EFCore/DAL/BaseRepository.cs:301-319 | a flushed `Update(where, handle)` succeeds exactly when the handled matches have distinct keys that are all in the table, even if the handler changes keys; a shared key fails as `InvalidOperation`, a missing one as `DbUpdateConcurrency`; on success rows no handled value is keyed like are unchanged |
| `RepositoryLaws.UpdateWhereInPlace` | NA.Framework.Core/EFCore/DAL/BaseRepository.cs:301-319 | with unique keys and a key-keeping handler, a flushed `Update(where, handle)` replaces each matching row by its handled value in place and leaves the rest alone |
| `RepositoryLaws.AddsLand` | NA.Framework.Core/EFCore/DAL/BaseRepository.cs:39-42 | flushing inserts succeeds exactly when the table and the new rows together have unique keys, and then appends them; otherwise it fails as `DbUpdate` |
| `RepositoryLaws.AddRangeLands` | NA.Framework.Core/EFCore/DAL/BaseRepository.cs:223-230 | a flushed `AddRange` succeeds exactly when the new rows have distinct keys none of which is in the table; the rows are then appended in order; a shared key among them fails as `InvalidOperation`, a key already in the table as `DbUpdate` |
| `RepositoryLaws.SoftDeleteWhereFlushes` | NA.Framework.Core/EFCore/DAL/BaseRepository.cs:254-276 | a soft `Delete(where)` flushes even with `autoSave` false, unless two matching rows share a key, which fails as `InvalidOperation` |
| `RepositoryLaws.SoftDeleteWhereMarksMatches` | NA.Framework.Core/EFCore/DAL/BaseRepository.cs:254-276 | after a soft `Delete(where)` every row keeps its place; matching rows have `IsDeleted = 1` and the new `UpdateTime`, the rest are untouched |
| `RepositoryLaws.AddThenGetById` | NA.Framework.Core/EFCore/DAL/BaseRepository.cs:46-64 | reading a key back after a flushed `Add` gives the added entity |
| `RepositoryLaws.UpdateThenGetById` | NA.Framework.Core/EFCore/DAL/BaseRepository.cs:321-331 | reading a key back after a flushed `Update` gives the refreshed entity; other keys read as before |
| `RepositoryLaws.StagingIsInvisible` | NA.Framework.Core/EFCore/DAL/BaseRepository.cs:198-206 | commands staged without `autoSave` are not seen by `GetById` |
| `RepositoryLaws.PagesTile` | NA.Framework.Core/EFCore/DAL/BaseRepository.cs:153-154 | at the true offset, page `p + 1` continues exactly where page `p` stops |
| `RepositoryLaws.NextOffset` | NA.Framework.Core/EFCore/DAL/BaseRepository.cs:153 | the true offset of page `p + 1` is that of page `p` plus the page size |
| `RepositoryLaws.AdjacentWindows` | NA.Framework.Core/EFCore/DAL/BaseRepository.cs:153-154 | two adjacent windows of one size make up the window of twice that size |
| `RepositoryLaws.WrappedPageRepeatsFirst` | NA.Framework.Core/EFCore/DAL/BaseRepository.cs:153 | page 65537 of size 65536 wraps to offset 0 and `GetPageList` returns the first page, where `GetPageListIntended` returns an empty page |
| `BaseService.Add` | NA.Framework.Core/EFCore/BLL/BaseService.cs:16-22 | null in, null out, repository untouched; otherwise the repository's `Add` |
| `BaseService.AddOrUpdate` | NA.Framework.Core/EFCore/BLL/BaseService.cs:24-30 | null in, null out; otherwise the repository's `AddOrUpdate` |
| `BaseService.AddRange` | NA.Framework.Core/EFCore/BLL/BaseService.cs:32-38 | a null or empty collection is a no-op; otherwise forwarded |
| `BaseService.Any` | NA.Framework.Core/EFCore/BLL/BaseService.cs:40-43 | forwarded; with no filter, whether the table has a row |
| `BaseService.Delete` | NA.Framework.Core/EFCore/BLL/BaseService.cs:45-51 | a null entity is a no-op; otherwise forwarded |
| `BaseService.DeleteWhere` | NA.Framework.Core/EFCore/BLL/BaseService.cs:53-56 | forwarded, so a null filter still throws |
| `BaseService.DeleteById` | NA.Framework.Core/EFCore/BLL/BaseService.cs:58-61 | forwarded, so a missing key still fails |
| `BaseService.GetById` | NA.Framework.Core/EFCore/BLL/BaseService.cs:63-66 | forwarded; null exactly when the key is absent |
| `BaseService.GetList` | NA.Framework.Core/EFCore/BLL/BaseService.cs:68-71 | forwarded unchanged |
| `BaseService.GetPageList` | NA.Framework.Core/EFCore/BLL/BaseService.cs:73-76 | forwarded, `rowCount` included |
| `BaseService.Save` | NA.Framework.Core/EFCore/BLL/BaseService.cs:78-81 | forwarded; a successful save leaves nothing staged |
| `BaseService.Update` | NA.Framework.Core/EFCore/BLL/BaseService.cs:83-89 | null in, null out; otherwise the refreshed entity |
| `BaseService.UpdateRange` | NA.Framework.Core/EFCore/BLL/BaseService.cs:91-97 | a null or empty collection is a no-op; otherwise forwarded |
| `BaseService.UpdateWhere` | NA.Framework.Core/EFCore/BLL/BaseService.cs:109-112 | forwarded, so a null filter or handler still throws |
| `StringExtension.ToCapitalize` | NA.Framework.Core/Extensions/StringExtension.cs:18-26 | null stays null and the length is kept; the first character is upper-cased and the rest kept |
| `StringExtension.CapitalizeIdempotent` | NA.Framework.Core/Extensions/StringExtension.cs:18-26 | capitalising twice is capitalising once |
| `StringExtension.ToBKDRHash` | NA.Framework.Core/Extensions/StringExtension.cs:36-51 | 0 for null or blank; otherwise the base-131 polynomial of the string's UTF-16 units reduced modulo 2^31, despite the 32-bit wrap-around in the loop |
| `StringExtension.SupplementaryHash` | NA.Framework.Core/Extensions/StringExtension.cs:36-51 | a character outside the Basic Multilingual Plane is hashed as its two surrogate units: U+1F600 hashes to 7308599 |
| `StringExtension.IsIdCardNo` | NA.Framework.Core/Extensions/StringExtension.cs:155-161 | an accepted ID number is non-null, 15 or 18 characters long, and all digits but possibly the last |
| `StringExtension.IdCardShape` | NA.Framework.Core/Extensions/StringExtension.cs:155-161 | an ID number is exactly 15 digits, or 17 digits then a digit or an X in either case |
| `StringExtension.OctetPatternIsByte` | NA.Framework.Core/Extensions/StringExtension.cs:168-171 | one octet of the IP pattern is exactly a 1-3 digit number up to 255 |
| `StringExtension.IsIP` | NA.Framework.Core/Extensions/StringExtension.cs:168-171 | an address is accepted exactly when it matches the pattern: the blank test in front adds nothing |
| `StringExtension.PatternNotBlank` | NA.Framework.Core/Extensions/StringExtension.cs:168-171 | an address the pattern accepts starts with a digit, so it is not blank |
| `StringExtension.IsSubnetMask` | NA.Framework.Core/Extensions/StringExtension.cs:173-176 | a mask is accepted exactly when it is an address `IsIP` accepts, one '/', and a prefix length the prefix pattern accepts |
| `StringExtension.PrefixPatternIsCanonical` | NA.Framework.Core/Extensions/StringExtension.cs:173-176 | the prefix part of a mask accepts only canonical decimal forms of 0..32 |
| `StringExtension.CanonicalPrefixMatches` | NA.Framework.Core/Extensions/StringExtension.cs:173-176 | every canonical decimal form of 0..32 is accepted as a prefix |
| `StringExtension.FormatIpRoundTrip` | NA.Framework.Core/Extensions/StringExtension.cs:168-171 | dotted-decimal text of any four octets passes `IsIP`, and reading its octets gives them back |
| `StringExtension.ToBinaryValue` | NA.Framework.Core/Extensions/StringExtension.cs:219 | `Convert.ToString(n, 2)` denotes `n` |
| `StringExtension.PadLeft` | NA.Framework.Core/Extensions/StringExtension.cs:219 | pads on the left to the width with the given character, never truncating |
| `StringExtension.Octet8` | NA.Framework.Core/Extensions/StringExtension.cs:217-220 | each octet becomes exactly eight binary digits denoting it |
| `StringExtension.ConvertIp2Binary` | NA.Framework.Core/Extensions/StringExtension.cs:212-225 | 35 characters: four blocks of eight binary digits, separated by dots at positions 8, 17 and 26, each denoting its octet |
| `StringExtension.BinaryForm` | NA.Framework.Core/Extensions/StringExtension.cs:212-225 | without its dots, the binary form of an address is its 32-bit value in 32 binary digits |
| `StringExtension.AddressBits` | NA.Framework.Core/Extensions/StringExtension.cs:205-208 | the dot-free binary form of a well-formed address has 32 binary digits whose value is the address's 32-bit value |
| `StringExtension.IsMatchSubnetMask` | NA.Framework.Core/Extensions/StringExtension.cs:193-210 | a bad address throws for `ip`, then a bad mask throws for `subnetMask`; otherwise the call succeeds |
| `StringExtension.MatchIsPrefixEquality` | NA.Framework.Core/Extensions/StringExtension.cs:193-210 | an address matches a mask of prefix length n exactly when the address and the subnet agree in their top n bits |
| `StringExtension.SlashZeroMatchesAll` | NA.Framework.Core/Extensions/StringExtension.cs:193-210 | a /0 mask matches every address |
| `StringExtension.Slash32IsEquality` | NA.Framework.Core/Extensions/StringExtension.cs:193-210 | a /32 mask matches only the subnet address itself |
| `StringExtension.ContainsChinese` | NA.Framework.Core/Extensions/StringExtension.cs:178-191 | true exactly when the string is non-null and some character lies in U+4E00..U+9FA5 |
| `EncryptHelper.AesEncrypt` | NA.Framework.Core/Tools/EncryptHelper.cs:19-41 | a key that is null or not 32 UTF-16 units throws for `key`, before the text is looked at; a null text then gives null |
| `EncryptHelper.AesDecrypt` | NA.Framework.Core/Tools/EncryptHelper.cs:49-75 | the same guards, in the same order, as `AesEncrypt` |
| `EncryptHelper.AesDecryptBase64` | NA.Framework.Core/Tools/EncryptHelper.cs:49-75 | the decryptor corrected to decode Base64 keeps the guards of `AesDecrypt` |
| `EncryptHelper.DesGuard` | NA.Framework.Core/Tools/EncryptHelper.cs:90-95 | the key (8 UTF-16 units) is checked first, then the IV (8 units), then a null text gives null; the call proceeds only when all three pass |
| `EncryptHelper.DesEncrypt` | NA.Framework.Core/Tools/EncryptHelper.cs:88-113 | the guards decide failures; past them the result is a non-null string |
| `EncryptHelper.DesDecrypt` | NA.Framework.Core/Tools/EncryptHelper.cs:122-147 | the same guards as `DesEncrypt`; past them a non-null string |
| `EncryptHelper.DesDecryptBase64` | NA.Framework.Core/Tools/EncryptHelper.cs:122-147 | the decryptor corrected to decode Base64 and UTF-8 keeps the guards of `DesDecrypt` |
| `EncryptHelper.GuardsIgnoreText` | NA.Framework.Core/Tools/EncryptHelper.cs:21-24 | whether a call throws depends on the key (and IV) only, and is the same for encryption and decryption |
| `EncryptHelper.AesRoundTrip` | NA.Framework.Core/Tools/EncryptHelper.cs:19-75 | over a lawful library, the corrected decryptor gives back any text `AesEncrypt` encrypted |
| `EncryptHelper.DesRoundTrip` | NA.Framework.Core/Tools/EncryptHelper.cs:88-147 | over a lawful library, the corrected decryptor gives back any text `DesEncrypt` encrypted |
| `EncryptHelper.AesDecryptDoesNotInvert` | NA.Framework.Core/Tools/EncryptHelper.cs:56 | there is a lawful library on which `AesDecrypt` as written does not give back what `AesEncrypt` encrypted |
| `EncryptHelper.DesDecryptDoesNotInvert` | NA.Framework.Core/Tools/EncryptHelper.cs:135-143 | there is a lawful library on which `DesDecrypt` as written does not give back what `DesEncrypt` encrypted |
| `Der.ReadBytes` | NA.Framework.Core/Tools/EncryptHelper.cs:298-303 | `ReadBytes(count)` throws on a negative count; otherwise it splits the stream, returning fewer bytes at the end |
| `Der.CompareByteArrays` | NA.Framework.Core/Tools/EncryptHelper.cs:358-371 | true exactly when the two arrays are equal |
| `Der.SkipLongHeader` | NA.Framework.Core/Tools/EncryptHelper.cs:243-249 | a header `tag 81 n` or `tag 82 hi lo` is skipped; any other tag or length form rejects the key |
| `Der.SkipZeros` | NA.Framework.Core/Tools/EncryptHelper.cs:396-400 | leading zero bytes are skipped, one off the count each, and the first non-zero byte is left unread; an all-zero stream ends early |
| `Der.GetIntegerSize` | NA.Framework.Core/Tools/EncryptHelper.cs:373-402 | a non-INTEGER tag gives 0; an INTEGER gives its length less its leading zero bytes, leaving a non-zero byte next |
| `Der.CreateRsaFromPublicKey` | NA.Framework.Core/Tools/EncryptHelper.cs:229-315 | a stream shorter than two bytes throws; an outer header that is not a long-form SEQUENCE gives null |
| `Der.CreateRsaFromPrivateKey` | NA.Framework.Core/Tools/EncryptHelper.cs:317-356 | a stream shorter than two bytes throws, and every framing error is an exception rather than null |
| `DerEncoding.PublicKeyRoundTrip` | NA.Framework.Core/Tools/EncryptHelper.cs:229-315 | parsing the DER encoding of a SubjectPublicKeyInfo gives back its modulus and exponent |
| `DerEncoding.OtherAlgorithmRejected` | NA.Framework.Core/Tools/EncryptHelper.cs:251-253 | a key whose algorithm identifier is not rsaEncryption gives null |
| `DerEncoding.ShortFormRejected` | NA.Framework.Core/Tools/EncryptHelper.cs:243-249 | a key with a short-form outer length gives null even if it is otherwise well formed |
| `DerEncoding.IntegerSizeOf` | NA.Framework.Core/Tools/EncryptHelper.cs:373-402 | on an encoded INTEGER, `GetIntegerSize` gives the magnitude's length and stops at its first byte |
| `DerEncoding.PrivateKeyRoundTrip` | NA.Framework.Core/Tools/EncryptHelper.cs:317-356 | parsing the DER encoding of an RSAPrivateKey gives back its eight fields in order |
| `DerEncoding.PrivateShortFormThrows` | NA.Framework.Core/Tools/EncryptHelper.cs:328-334 | a private key with a short-form outer length is an exception |
| `HashHelper.Hex` | NA.Framework.Core/Tools/HashHelper.cs:20-26 | two lowercase hex digits per byte, high nibble first, in byte order |
| `HashHelper.HexRoundTrip` | NA.Framework.Core/Tools/HashHelper.cs:20-26 | reading the hex text back gives the bytes |
| `HashHelper.GetMD5_32` | NA.Framework.Core/Tools/HashHelper.cs:16-27 | null throws; otherwise 32 lowercase hex digits that read back as the MD5 of the UTF-8 bytes |
| `HashHelper.DashedHexLowered` | NA.Framework.Core/Tools/HashHelper.cs:38-39 | `BitConverter.ToString`, with its dashes removed and lower-cased, is the `x2` rendering |
| `HashHelper.DashedHex` | NA.Framework.Core/Tools/HashHelper.cs:38 | `BitConverter.ToString` gives three characters per byte less one, with a dash exactly at every third position |
| `HashHelper.GetMD5_16` | NA.Framework.Core/Tools/HashHelper.cs:34-41 | null throws; otherwise 16 hex digits reading back as digest bytes 4..11, the middle of the 32-digit form |
| `HashHelper.GetObjectMD5_32` | NA.Framework.Core/Tools/HashHelper.cs:43-48 | 32 hex digits reading back as the MD5 of the object's JSON text |
| `PathHelper.Combine` | NA.Framework.Core/Tools/PathHelper.cs:70 | an empty side or a rooted second path gives that path; otherwise the first path, one separator if needed, and the second |
| `PathHelper.CombineChecked` | NA.Framework.Core/Tools/PathHelper.cs:70 | null first or second argument throws for `path1` or `path2` |
| `PathHelper.Init` | NA.Framework.Core/Tools/PathHelper.cs:25-33 | a blank root is refused; otherwise it becomes the root |
| `PathHelper.ContentRootPath` | NA.Framework.Core/Tools/PathHelper.cs:12-22 | throws exactly while the root is blank, else returns it |
| `PathHelper.InitThenContentRoot` | NA.Framework.Core/Tools/PathHelper.cs:12-33 | the getter throws before `Init`, and after a successful `Init` returns the root given |
| `PathHelper.IsAbsoluteMeans` | NA.Framework.Core/Tools/PathHelper.cs:74-78 | a path is absolute exactly when the marker occurs in it but not as its first character |
| `PathHelper.IsAbsolute` | NA.Framework.Core/Tools/PathHelper.cs:74-78 | an absolute path has at least two characters and does not start with the marker |
| `PathHelper.IsPathRooted` | NA.Framework.Core/Tools/PathHelper.cs:64 | on Unix a path is rooted exactly when it starts with '/'; on Windows a leading `/` or `\` suffices; an empty path is never rooted |
| `PathHelper.RootedPrefix` | NA.Framework.Core/Tools/PathHelper.cs:64 | rootedness is decided by the first two characters, so any extension of a rooted path is rooted |
| `PathHelper.Resolve` | NA.Framework.Core/Tools/PathHelper.cs:64 | no '/' survives on Windows; unless the trimmed path is itself rooted, the result extends the root |
| `PathHelper.MapPath` | NA.Framework.Core/Tools/PathHelper.cs:59-66 | null stays null; a rooted or absolute path is returned as given; otherwise it throws before `Init` or resolves against the root |
| `PathHelper.MapPathIn` | NA.Framework.Core/Tools/PathHelper.cs:68-72 | null arguments throw as `Path.Combine` does; otherwise the combined path is mapped, giving a path or the not-initialised error |
| `PathHelper.MapPathIdempotent` | NA.Framework.Core/Tools/PathHelper.cs:59-78 | with a rooted content root, mapping a mapped path changes nothing |
| `PathHelper.UnixBackslashKept` | NA.Framework.Core/Tools/PathHelper.cs:74-78 | on Unix "a\b" counts as absolute and is returned even before `Init` |
| `PathHelper.WindowsTildeBackslashDropsRoot` | NA.Framework.Core/Tools/PathHelper.cs:64 | on Windows "~\x" trims to the rooted "\x", which replaces the content root |
| `HttpContextExtension.FirstNonBlank` | NA.Framework.Core/Extensions/HttpContextExtension.cs:27 | null exactly when every entry is blank; otherwise the first non-blank entry |
| `HttpContextExtension.HeaderText` | NA.Framework.Core/Extensions/HttpContextExtension.cs:27 | `StringValues.ToString()`: a single value as it is; several start with the first and, when free of commas, split back into the values |
| `HttpContextExtension.GetRemoteIP` | NA.Framework.Core/Extensions/HttpContextExtension.cs:17-35 | a null context throws; a non-blank forwarded entry wins; else the connection address; a missing one is a null dereference |
| `HttpContextExtension.ForwardedEntries` | NA.Framework.Core/Extensions/HttpContextExtension.cs:25-28 | one joined header value or several values give the same first non-blank entry |
| `HttpContextExtension.ForwardedEntryUntrimmed` | NA.Framework.Core/Extensions/HttpContextExtension.cs:25-34 | entries are not trimmed: " ", "10.0.0.1 " yields "10.0.0.1 " |
| `HttpContextExtension.Domain` | NA.Framework.Core/Extensions/HttpContextExtension.cs:49-57 | a non-blank Host header wins; otherwise the host, followed by ":" and the port when there is one |
| `HttpContextExtension.GetLocalDomain` | NA.Framework.Core/Extensions/HttpContextExtension.cs:42-62 | a null context throws; otherwise the scheme, "://", then the domain |
| `HttpContextExtension.PortReadBack` | NA.Framework.Core/Extensions/HttpContextExtension.cs:42-62 | when the port is used, it reads back from the end of the origin |
| `TimeHelper.ParseLong` | NA.Framework.Core/Tools/TimeHelper.cs:17 | any result is a 64-bit value, any failure a format or overflow error; digits parse to their value or overflow |
| `TimeHelper.ForeignIsFormatError` | NA.Framework.Core/Tools/TimeHelper.cs:14-20 | a character that can be no part of a number makes the padded timestamp a format error |
| `TimeHelper.AppendZeros` | NA.Framework.Core/Tools/TimeHelper.cs:17 | appending zeros multiplies the value by a power of ten |
| `TimeHelper.TimeStamp2DateTime` | NA.Framework.Core/Tools/TimeHelper.cs:14-20 | null gives the epoch; digits add that many seconds or overflow; a foreign character is a format error |
| `TimeHelper.UnixTimeStamp2DateTime` | NA.Framework.Core/Tools/TimeHelper.cs:47-53 | the same conversion as `TimeStamp2DateTime` |
| `TimeHelper.MilliTimeStamp2DateTime` | NA.Framework.Core/Tools/TimeHelper.cs:60-66 | null gives the epoch; digits add that many milliseconds or overflow; a foreign character is a format error |
| `TimeHelper.MillisecondsAgree` | NA.Framework.Core/Tools/TimeHelper.cs:14-66 | a seconds timestamp and the same instant in milliseconds (three more zeros) convert alike |
| `TimeHelper.SecondsRoundTrip` | NA.Framework.Core/Tools/TimeHelper.cs:14-20 | the decimal text of n seconds converts to the epoch plus n seconds |
| `Clr.AddTicks` | NA.Framework.Core/Extensions/DateTimeExtension.cs:16-18 | succeeds exactly when the sum stays within the `DateTime` range, and then moves by exactly that many ticks |
| `DateTimeExtension.ToCNZone` | NA.Framework.Core/Extensions/DateTimeExtension.cs:14-19 | shifts by UTC+8 less the machine's offset when in range; on a UTC+8 machine it is the identity |
| `DateTimeExtension.ToCNZoneMonotone` | NA.Framework.Core/Extensions/DateTimeExtension.cs:14-19 | the shift keeps order and never merges two instants |
| `DateTimeExtension.ToCNZoneInverse` | NA.Framework.Core/Extensions/DateTimeExtension.cs:14-19 | shifting back by the opposite difference restores the input |
| `DateTimeExtension.ToString` | NA.Framework.Core/Extensions/DateTimeExtension.cs:21-27 | null exactly for a null time; otherwise the formatter's text or its error |
| `Clr.DecimalRoundTrip` | NA.Framework.Core/Extensions/HttpContextExtension.cs:55 | the decimal text of a number reads back as that number |
| `Clr.SplitPiecesFree` | NA.Framework.Core/Extensions/HttpContextExtension.cs:27 | no piece of a split contains the separator |
| `Clr.SplitJoin` | NA.Framework.Core/Extensions/HttpContextExtension.cs:27 | splitting entries joined by a separator they do not contain gives the entries back |
| `Clr.IsNullOrWhiteSpace` | NA.Framework.Core/Extensions/StringExtension.cs:53-56 | null and the empty string are blank, and a blank string holds no digit |
| `Clr.Wrap32` | NA.Framework.Core/EFCore/DAL/BaseRepository.cs:153 | the 32-bit result is congruent to the input modulo 2^32 and equal to it when it fits |
| `Clr.Utf16` | NA.Framework.Core/Extensions/StringExtension.cs:36-51 | the UTF-16 form is at least as long as the string, and exactly as long when every character is in the Basic Multilingual Plane |
| `Clr.Utf16RoundTrip` | NA.Framework.Core/Extensions/StringExtension.cs:36-51 | decoding the UTF-16 form gives the string back |
| `Clr.Need` | NA.Framework.Core/EFCore/DAL/BaseRepository.cs:321-331 | dereferencing a null entity raises the given exception; a non-null one yields its value |
| `NpoiHelper.TypeConverter` | NA.Framework.Core/Tools/NPOIHelper/NPOIHelper.cs:40-50 | string cell exactly for the string types; numeric for a numeric type that is not a string type; boolean likewise; else unknown |
| `NpoiHelper.TypeConverterClasses` | NA.Framework.Core/Tools/NPOIHelper/NPOIHelper.cs:31-50 | the nine numeric types and their nullable forms are numeric; bool and bool? boolean; DateTime and DateTime? string; string and char string, their nullable forms unknown; other types unknown |
| `NpoiHelper.PadSheetNames` | NA.Framework.Core/Tools/NPOIHelper/NPOIHelper.cs:54-61 | given names are kept in front and the missing ones are appended, numbered from 1 |
| `NpoiHelper.SheetNamesPadded` | NA.Framework.Core/Tools/NPOIHelper/NPOIHelper.cs:54-61 | sheet i is named by the i-th given name, or by its number among the untitled ones |
| `NpoiHelper.TitleRow` | NA.Framework.Core/Tools/NPOIHelper/NPOIHelper.cs:84-89 | one title cell per column |
| `NpoiHelper.CellFailure` | NA.Framework.Core/Tools/NPOIHelper/NPOIHelper.cs:49 | a cell fails exactly for a null column, or for a column of a type `TypeConverter` maps to `Unknown` when the library refuses such cells |
| `NpoiHelper.RowFailureIsFirst` | NA.Framework.Core/Tools/NPOIHelper/NPOIHelper.cs:95-98 | a row fails exactly when some cell fails, and with the failure of the leftmost failing cell |
| `NpoiHelper.DataRow` | NA.Framework.Core/Tools/NPOIHelper/NPOIHelper.cs:95-98 | one cell per column, typed by `TypeConverter` of the column's type and holding the row's value |
| `NpoiHelper.BuildSheet` | NA.Framework.Core/Tools/NPOIHelper/NPOIHelper.cs:81-99 | fails exactly when there is a row and some cell fails, with the leftmost failure; a null column fails, as does an `Unknown` one when the library refuses it; otherwise row 0 holds the titles and row j+1 the cells of data row j |
| `NpoiHelper.Sheets` | NA.Framework.Core/Tools/NPOIHelper/NPOIHelper.cs:78-100 | one sheet per table in order; a name the library refuses, or a null table, fails |
| `NpoiHelper.GetExcelStream` | NA.Framework.Core/Tools/NPOIHelper/NPOIHelper.cs:16-26 | null or no tables give null; any failure while building surfaces as the single "Excel生成失败" exception; an unknown workbook type with tables fails |
| `NpoiHelper.WorkbookKeepsData` | NA.Framework.Core/Tools/NPOIHelper/NPOIHelper.cs:92-99 | every data value reappears in its sheet at row j+1, column k, with the column's cell type |
| `NpoiHelper.UnknownColumnFails` | NA.Framework.Core/Tools/NPOIHelper/NPOIHelper.cs:49 | when the library refuses `Unknown` cells, a table with a row and a column of an unconverted type makes the whole call fail |

## Left out

- EF Core plumbing: the context, `DbSet`, change-tracking modes, `Include` (eager loading of navigation properties the model does not represent) and `AsNoTracking`. `GetDbContext`, `LastOrDefault` and `Max` are not modelled; they are thin LINQ passthroughs with no logic of their own.
- Dynamic LINQ ordering is a parameter, so its parse errors come from whatever the caller supplies. The `orderBy = "id asc"` default is the caller's argument.
- `BaseRepository.Save`: flushing is modelled as the ordered application of staged commands. Database constraints other than the primary key, and EF's reordering of commands by dependency, are not modelled.
- `BaseRepository.UpdateRange`: one `now` is used for every entity, where the source reads the clock once per entity.
- BaseRepository.UpdateRange: the source sets `UpdateTime` on the caller's objects before it saves, so they keep the new time even when the save fails. Values are immutable here, so the caller's copies are unchanged and only the returned or stored rows carry the change.
- BaseRepository.Delete: likewise, a soft delete sets `IsDeleted = 1` on the caller's object before the save, and it stays set if the save fails. The model does not mutate the argument.
- BaseRepository.DeleteWhere: a soft delete marks and stamps the rows it loaded itself (untracked copies) before `UpdateRange` saves them. Those objects are local to the call, so nothing the caller holds changes; the model keeps no such objects at all.
- BaseRepository.Apply: keys are assigned by the caller. EF's generation of `int`, `long` or `Guid` keys on insert is not modelled, so an insert with a default key is an ordinary key.
- BaseRepository.AddRange: null elements inside the collection are not modelled (EF throws for them); a null collection is.
- BaseRepository.GetPageList: when the wrapped offset is negative, `Skip` is modelled as LINQ to Objects does it, skipping nothing. SQL Server rejects a negative `OFFSET`, and that error is not modelled.
- Entities.NewEntity: one clock reading sets both timestamps. The source reads the clock once for each, so the two can differ by the time between the readings.
- BaseRepository.Add: its `autoSave` flush is stated only for a fresh context, with nothing staged and nothing tracked. With other commands pending, the outcome depends on those commands too, and only `Save`'s contract covers it. An instance with the same key still tracked from an earlier call, even one already saved, makes EF throw `InvalidOperationException`; the model keeps no record of tracked instances, so it does not raise that.
- BaseRepository.Update: likewise, its `autoSave` flush is stated only for a fresh context. An instance with the same key still tracked from an earlier call makes EF throw `InvalidOperationException`, which the model does not raise.
- BaseRepository.AddRange: the change tracker's identity conflict (BaseRepository.cs:225) is modelled within the one call only. An instance with one of the keys still tracked from an earlier call also makes EF throw, and the model does not raise that. The same instance passed twice is tracked once by EF without error; values carry no identity here, so the model counts it as two instances and throws.
- BaseRepository.UpdateRange: likewise, the conflict (BaseRepository.cs:341) is modelled within the one call only, and the same instance passed twice is counted as two instances.
- BaseRepository.UpdateWhere: likewise, the conflict (BaseRepository.cs:314) is modelled within the one call only. The rows it loads are fresh untracked instances, so within the call the model's check is exact.
- RepositoryLaws.UpdatesLand: it is a law of the model's `Save`. Two staged updates with one key, where the last one wins, are an outcome of the model only: EF's tracker refuses the second instance (BaseRepository.cs:314, :341), and the staging functions throw `InvalidOperation` for them within one call.
- RepositoryLaws.AddsLand: likewise a law of the model's `Save`. Its `DbUpdate` for two new rows with one key is an outcome of the model only; through EF the tracker throws at staging (BaseRepository.cs:225), as `AddRange` models.
- RepositoryLaws.UpdateRangeFlushes: a clean context here means nothing staged; an instance with one of the keys still tracked from an earlier call would make EF throw, which is not modelled.
- RepositoryLaws.AddRangeLands: likewise, nothing staged is assumed to mean nothing tracked.
- RepositoryLaws.UpdateWhereLands: likewise, nothing staged is assumed to mean nothing tracked.
- BaseRepository.Delete: the tracker's identity conflict is not modelled. An instance with the same key still tracked from an earlier call, for example one added and saved through this context, makes EF's `Update` or `Remove` (BaseRepository.cs:241, :245) throw `InvalidOperationException`, which the model does not raise. Its contract is stated as if nothing staged meant nothing tracked.
- BaseRepository.DeleteById: likewise. `GetById` loads a second, untracked instance (:280), so when the key is still tracked from an earlier call, for example after a saved `Add` or a tracking `GetById`, EF's `Update` or `Remove` (:284, :288) throws `InvalidOperationException`, which the model does not raise.
- BaseRepository.DeleteWhere: likewise. The rows it loads are untracked copies (:261), so a key still tracked from an earlier call makes `UpdateRange` or `RemoveRange` (:265, :269) throw `InvalidOperationException`; only the conflict among the loaded rows themselves is modelled.
- RepositoryLaws.HardDeleteWhereRemovesMatches: nothing staged is assumed to mean nothing tracked.
- RepositoryLaws.SoftDeleteWhereFlushes: likewise, nothing staged is assumed to mean nothing tracked.
- RepositoryLaws.SoftDeleteWhereMarksMatches: likewise, nothing staged is assumed to mean nothing tracked.
- RepositoryLaws.UpdateWhereInPlace: likewise, nothing staged is assumed to mean nothing tracked.
- BaseRepository.GetById: with `isTrack` true, EF's identity resolution returns the instance the context already tracks, as it stands in memory (staged values included); the model returns the stored row.
- BaseRepository.GetList: likewise, a tracking query returns already-tracked instances as they stand in memory, where the model returns the stored rows.
- BaseRepository.GetPageList: likewise for a tracking page query.
- BaseRepository.GetPageListIntended: likewise for a tracking page query.
- The AES, DES, RSA and MD5 transforms, UTF-8 and Base64 are parameters; their own exceptions (a key whose UTF-8 form is not 32 or 8 bytes, invalid padding, bad Base64) are not modelled.
- `Der.CreateRsaFromPublicKey`: `BinaryReader.PeekChar` is modelled as "the next byte is zero". The Base64 decoding of the key text and `RSA.ImportParameters` are not modelled. `RsaSign`, `RsaVerify`, `RsaEncrypt` and `RsaDecrypt` only call the library with those keys.
- `GetObjectMD5_16` is not modelled: it calls itself unconditionally (HashHelper.cs:53) and can only end in a stack overflow.
- `PathHelper.CreateDirectory` is left out, because it only touches the file system.
- `TimeHelper.DateTime2TimeStamp`, `GetNowTimeStamp`, `DateTime2UnixTimeStamp` and `GetNowUnixTimeStamp` are left out because they read the clock or convert through `TimeSpan.TotalMilliseconds`, a floating-point value. The local Unix epoch and `TimeZoneInfo.Local.BaseUtcOffset` are parameters.
- `TimeHelper.ParseLong`: the culture's sign symbols are taken as '+' and '-'. Parentheses, thousands separators and currency symbols are not accepted by `NumberStyles.Integer` anyway.
- `DateTimeExtension.ToString`: the .NET format mini-language is a parameter.
- `NpoiHelper.GetExcelStream`: the write of the workbook to a stream, `AutoSizeColumn` and NPOI's re-typing of a cell on `SetCellValue(string)` are not modelled. NPOI's rules for sheet names are the `canCreate` parameter. Whether NPOI accepts a cell of type `Unknown` is the `acceptsUnknown` parameter. A value's `ToString()` is given as text. `CreateWorkBook` pads the caller's own `sheetNames` list in place with "未命名页i" (NPOIHelper.cs:54-61), and `GetExcelStream` passes that list through when it is not null (:20). The model returns no names, so the caller's list is unchanged here.
- `HttpContextExtension`: header names are matched exactly, where ASP.NET Core matches them case-insensitively.
- Characters are Unicode scalar values; the UTF-16 units are counted through `Clr.Utf16` where the source counts `Length` or iterates `char`s. Lone surrogates, which a .NET string may hold, are not represented. `ToUpper`/`ToLower` are modelled on ASCII letters only. `\d` in the .NET regexes is taken as ASCII digits (.NET also accepts other Unicode decimal digits). The final newline .NET's `$` tolerates before the end of the input is not modelled.
- Logging, Redis, API, image, type, enum, object, JSON, URL and `DbContext` helpers are outside the modelled core.

## Findings

| source | as written | input that shows it | evidently intended | confidence | as-written member | corrected member |
|---|---|---|---|---|---|---|
| NA.Framework.Core/EFCore/DAL/BaseRepository.cs:153 | `Skip((nowPage - 1) * pageSize)` multiplies two `int`s without overflow checking, so the offset wraps modulo 2^32 | `nowPage = 65537`, `pageSize = 65536`: the offset wraps to 0 and the first page comes back | the offset is the true product; a page past the end is empty | not executed; high that it wraps, medium that it is reachable in practice | `RepositoryLaws.WrappedPageRepeatsFirst` | `BaseRepository.GetPageListIntended` |
| NA.Framework.Core/Tools/EncryptHelper.cs:56 | `AesDecrypt` decrypts the UTF-8 bytes of the Base64 text that `AesEncrypt` produced, instead of the bytes it encodes | `AesDecrypt(AesEncrypt("a", k), k)` with any 32-character `k` does not give "a" | decode the text with `Convert.FromBase64String` before decrypting, so that decryption inverts encryption | not executed; high | `EncryptHelper.AesDecryptDoesNotInvert` | `EncryptHelper.AesRoundTrip` |
| NA.Framework.Core/Tools/EncryptHelper.cs:135-143 | `DesDecrypt` decrypts the UTF-8 bytes of the Base64 text and returns the plaintext Base64-encoded | `DesDecrypt(DesEncrypt("a", k, iv), k, iv)` with 8-character `k`, `iv` does not give "a" | decode the input from Base64 and the output as UTF-8 | not executed; high | `EncryptHelper.DesDecryptDoesNotInvert` | `EncryptHelper.DesRoundTrip` |

=== FILE: base_entity.dfy ===
/** The record every persisted entity extends: a key, two audit timestamps
    and the soft-delete flag. Other columns of a concrete entity are the
    opaque `payload`. Timestamps are `DateTime` values counted in ticks. */
module Entities {

  datatype Entity<K, D> = Entity(
    id: K,
    createTime: int,
    updateTime: int,
    isDeleted: int,
    payload: D)

  /** A freshly constructed entity: both timestamps default to the
      China-zone clock reading `now`, and the row is live. */
  function NewEntity<K, D>(id: K, payload: D, now: int): (e: Entity<K, D>)
    ensures e.id == id && e.payload == payload
    ensures e.createTime == now && e.updateTime == now
    ensures e.isDeleted == 0
    ensures e.updateTime >= e.createTime
  {
    Entity(id, now, now, 0, payload)
  }

  /** The entity with its soft-delete flag raised (`IsDeleted = 1`). */
  function MarkDeleted<K, D>(e: Entity<K, D>): Entity<K, D> {
    e.(isDeleted := 1)
  }

  /** The entity with `UpdateTime` set to `now`. */
  function Touch<K, D>(e: Entity<K, D>, now: int): Entity<K, D> {
    e.(updateTime := now)
  }
}

=== FILE: base_repository.dfy ===
/** `BaseRepository`: generic CRUD over one entity set of an EF Core context.

    The context is modelled as a committed table (what queries see) plus the
    list of commands staged on the change tracker and not yet flushed.
    `Save` (`SaveChanges`) applies the staged commands in order, atomically.
    Every mutating operation stages its commands and, when `autoSave` is
    true, saves at once. Filters, projections and the Dynamic LINQ ordering
    are parameters; the clock reading `DateTime.Now.ToCNZone()` is the
    parameter `now`. Queries never look at `isDeleted`. */
module BaseRepository {
  import opened Clr
  import opened Entities
  import opened Inclusions

  /** A command staged on the change tracker. */
  datatype Op<K, D> =
    | Added(entity: Entity<K, D>)
    | Updated(entity: Entity<K, D>)
    | Removed(entity: Entity<K, D>)

  datatype Repo<K, D> = Repo(table: seq<Entity<K, D>>, staged: seq<Op<K, D>>)

  /** The result of `GetPageList`: the rows and the `out rowCount`. */
  datatype Page<K, D> = Page(rows: seq<Entity<K, D>>, rowCount: int)

  /** Dynamic LINQ's `OrderBy(string)`: reorders the rows by a non-blank
      ordering clause, or throws when the clause does not parse. */
  type Ordering<!K, !D> = (string, seq<Entity<K, D>>) -> Result<seq<Entity<K, D>>>

  // ---------------------------------------------------------------------
  // LINQ operators over sequences

  /** `Where`: the rows satisfying `f`, in their original order. */
  function Where<T>(s: seq<T>, f: T -> bool): (r: seq<T>)
    ensures |r| <= |s|
    ensures forall i :: 0 <= i < |r| ==> f(r[i])
    decreases |s|
  {
    if |s| == 0 then []
    else Where(s[..|s| - 1], f) + (if f(s[|s| - 1]) then [s[|s| - 1]] else [])
  }

  lemma {:induction false} WhereMembers<T>(s: seq<T>, f: T -> bool, x: T)
    ensures x in Where(s, f) <==> x in s && f(x)
    decreases |s|
  {
    if |s| > 0 {
      WhereMembers(s[..|s| - 1], f, x);
      assert s == s[..|s| - 1] + [s[|s| - 1]];
    }
  }

  /** The positions of `s` that `Where` keeps, in order. */
  function WhereIndices<T>(s: seq<T>, f: T -> bool): seq<int>
    decreases |s|
  {
    if |s| == 0 then []
    else WhereIndices(s[..|s| - 1], f) + (if f(s[|s| - 1]) then [|s| - 1] else [])
  }

  /** `Where` is the subsequence of `s` at strictly increasing positions,
      and those positions are exactly the ones whose element satisfies `f`. */
  lemma {:induction false} WhereIsSubsequence<T>(s: seq<T>, f: T -> bool)
    ensures var idx := WhereIndices(s, f);
      && |Where(s, f)| == |idx|
      && (forall k :: 0 <= k < |idx| ==> 0 <= idx[k] < |s| && Where(s, f)[k] == s[idx[k]])
      && (forall k, l :: 0 <= k < l < |idx| ==> idx[k] < idx[l])
      && (forall i :: 0 <= i < |s| ==> (i in idx <==> f(s[i])))
    decreases |s|
  {
    if |s| > 0 {
      var n := |s| - 1;
      var front := s[..n];
      WhereIsSubsequence(front, f);
      var idx0, idx := WhereIndices(front, f), WhereIndices(s, f);
      assert forall i :: 0 <= i < n ==> front[i] == s[i];
      IndicesStep(s, f, idx0);
      var w0, w := Where(front, f), Where(s, f);
      forall k | 0 <= k < |idx0| ensures 0 <= idx[k] < |s| && w[k] == s[idx[k]] {
        assert idx[k] == idx0[k] && w[k] == w0[k];
        assert s[idx0[k]] == front[idx0[k]];
      }
    }
  }

  /** One step of `WhereIndices`: the positions below the last are those of
      the front, and the last position joins exactly when its element passes. */
  lemma IndicesStep<T>(s: seq<T>, f: T -> bool, idx0: seq<int>)
    requires |s| > 0 && idx0 == WhereIndices(s[..|s| - 1], f)
    requires forall k :: 0 <= k < |idx0| ==> 0 <= idx0[k] < |s| - 1
    requires forall k, l :: 0 <= k < l < |idx0| ==> idx0[k] < idx0[l]
    requires forall i :: 0 <= i < |s| - 1 ==> (i in idx0 <==> f(s[i]))
    ensures var idx := WhereIndices(s, f);
      && (forall k, l :: 0 <= k < l < |idx| ==> idx[k] < idx[l])
      && (forall i :: 0 <= i < |s| ==> (i in idx <==> f(s[i])))
  {
    var n := |s| - 1;
    var idx := WhereIndices(s, f);
    assert n !in idx0;
    if f(s[n]) {
      assert idx == idx0 + [n];
      forall k, l | 0 <= k < l < |idx| ensures idx[k] < idx[l] {
        assert idx[k] == idx0[k];
      }
    } else {
      assert idx == idx0;
    }
  }

  /** The indices of `s` whose element satisfies `f`. */
  ghost function Matching<T>(s: seq<T>, f: T -> bool): set<int> {
    set i | 0 <= i < |s| && f(s[i])
  }

  /** `Where(f).Count()` is the number of positions whose row satisfies `f`. */
  lemma {:induction false} WhereCount<T>(s: seq<T>, f: T -> bool)
    ensures |Where(s, f)| == |Matching(s, f)|
    decreases |s|
  {
    if |s| > 0 {
      var n := |s| - 1;
      WhereCount(s[..n], f);
      assert Matching(s[..n], f) == set i | 0 <= i < n && f(s[i]);
      if f(s[n]) {
        assert Matching(s, f) == Matching(s[..n], f) + {n};
      } else {
        assert Matching(s, f) == Matching(s[..n], f);
      }
    }
  }

  /** `Select`. */
  function Select<T, U>(s: seq<T>, g: T -> U): (r: seq<U>)
    ensures |r| == |s|
    ensures forall i :: 0 <= i < |s| ==> r[i] == g(s[i])
  {
    seq(|s|, i requires 0 <= i < |s| => g(s[i]))
  }

  /** `Skip(n)`: a non-positive count skips nothing. */
  function Skip<T>(s: seq<T>, n: int): (r: seq<T>)
    ensures n <= 0 ==> r == s
    ensures 0 <= n <= |s| ==> r == s[n..]
    ensures n >= |s| ==> r == []
  {
    if n <= 0 then s else if n >= |s| then [] else s[n..]
  }

  /** `Take(n)`: a non-positive count takes nothing. */
  function Take<T>(s: seq<T>, n: int): (r: seq<T>)
    ensures n <= 0 ==> r == []
    ensures 0 <= n <= |s| ==> r == s[..n]
    ensures n >= |s| ==> r == s
  {
    if n <= 0 then [] else if n >= |s| then s else s[..n]
  }

  /** The extension `OrderBy(string)`: a null or blank clause leaves the
      order unchanged, anything else goes to Dynamic LINQ. */
  function OrderBy<K(==), D>(q: seq<Entity<K, D>>, ordering: Option<string>, dynamic: Ordering<K, D>)
    : (r: Result<seq<Entity<K, D>>>)
    ensures IsNullOrWhiteSpace(ordering) ==> r == Ok(q)
    ensures !IsNullOrWhiteSpace(ordering) ==> r == dynamic(ordering.value, q)
  {
    if IsNullOrWhiteSpace(ordering) then Ok(q) else dynamic(ordering.value, q)
  }

  /** A null filter stands for `e => true`. */
  function FilterOrAll<E>(where: Option<E -> bool>): (f: E -> bool)
    ensures where.Some? ==> f == where.value
  {
    if where.None? then (e: E) => true else where.value
  }

  /** A null projection stands for `e => e`. */
  function ProjectionOrIdentity<E>(select: Option<E -> E>): (g: E -> E)
    ensures select.Some? ==> g == select.value
  {
    if select.None? then (e: E) => e else select.value
  }

  // ---------------------------------------------------------------------
  // The committed table

  predicate HasId<K(==), D>(t: seq<Entity<K, D>>, id: K) {
    exists i :: 0 <= i < |t| && t[i].id == id
  }

  /** No two rows share a key: the table's primary key, and also what EF's
      change tracker demands of the instances one call hands it, since it
      refuses to track a second instance with a key it already tracks. */
  predicate UniqueIds<K(==), D>(t: seq<Entity<K, D>>) {
    forall i, j :: 0 <= i < j < |t| ==> t[i].id != t[j].id
  }

  /** The first row whose key is `id` (`Where(e => e.Id.Equals(id)).FirstOrDefault()`). */
  function Find<K(==), D>(t: seq<Entity<K, D>>, id: K): (r: Option<Entity<K, D>>)
    ensures r.None? <==> !HasId(t, id)
    ensures r.Some? ==> exists i :: 0 <= i < |t| && t[i] == r.value && t[i].id == id
                          && forall j :: 0 <= j < i ==> t[j].id != id
  {
    if |t| == 0 then None
    else if t[0].id == id then Some(t[0])
    else
      var r := Find(t[1..], id);
      assert HasId(t, id) ==> HasId(t[1..], id) by {
        if HasId(t, id) {
          var i :| 0 <= i < |t| && t[i].id == id;
          assert t[1..][i - 1].id == id;
        }
      }
      if r.Some? then
        ghost var i :| 0 <= i < |t[1..]| && t[1..][i] == r.value && t[1..][i].id == id
                       && forall j :: 0 <= j < i ==> t[1..][j].id != id;
        assert t[i + 1] == r.value && forall j :: 0 <= j < i + 1 ==> t[j].id != id by {
          forall j | 0 <= j < i + 1 ensures t[j].id != id {
            if j > 0 { assert t[j] == t[1..][j - 1]; }
          }
        }
        r
      else r
  }

  /** The table after an `UPDATE` of every row keyed `e.id` to `e`. */
  function Replace<K(==), D>(t: seq<Entity<K, D>>, e: Entity<K, D>): (r: seq<Entity<K, D>>)
    ensures |r| == |t|
    ensures forall i :: 0 <= i < |t| ==> r[i] == (if t[i].id == e.id then e else t[i])
  {
    seq(|t|, i requires 0 <= i < |t| => if t[i].id == e.id then e else t[i])
  }

  /** The table after a `DELETE` of every row keyed `id`. */
  function Without<K(==), D>(t: seq<Entity<K, D>>, id: K): (r: seq<Entity<K, D>>)
    ensures forall i :: 0 <= i < |r| ==> r[i].id != id && r[i] in t
    ensures forall i :: 0 <= i < |t| && t[i].id != id ==> t[i] in r
  {
    var f := (x: Entity<K, D>) => x.id != id;
    var r := Where(t, f);
    assert forall i :: 0 <= i < |r| ==> r[i] in t by {
      forall i | 0 <= i < |r| ensures r[i] in t {
        WhereMembers(t, f, r[i]);
      }
    }
    assert forall i :: 0 <= i < |t| && t[i].id != id ==> t[i] in r by {
      forall i | 0 <= i < |t| && t[i].id != id ensures t[i] in r {
        WhereMembers(t, f, t[i]);
      }
    }
    r
  }

  /** One staged command as the database executes it: an insert of an
      existing key violates the primary key, an update or delete that
      affects no row is a concurrency failure. */
  function Apply<K(==), D>(t: seq<Entity<K, D>>, op: Op<K, D>): (r: Result<seq<Entity<K, D>>>)
    ensures r.Ok? <==> (if op.Added? then !HasId(t, op.entity.id) else HasId(t, op.entity.id))
    ensures r.Ok? && op.Added? ==> r.value == t + [op.entity]
    ensures r.Ok? && op.Updated? ==> r.value == Replace(t, op.entity)
    ensures r.Ok? && op.Removed? ==> r.value == Without(t, op.entity.id)
  {
    match op
    case Added(e) => if HasId(t, e.id) then Throw(DbUpdate) else Ok(t + [e])
    case Updated(e) => if HasId(t, e.id) then Ok(Replace(t, e)) else Throw(DbUpdateConcurrency)
    case Removed(e) => if HasId(t, e.id) then Ok(Without(t, e.id)) else Throw(DbUpdateConcurrency)
  }

  lemma ApplyKeepsUnique<K, D>(t: seq<Entity<K, D>>, op: Op<K, D>)
    requires UniqueIds(t) && Apply(t, op).Ok?
    ensures UniqueIds(Apply(t, op).value)
  {
    var r := Apply(t, op).value;
    if op.Removed? {
      var f := (x: Entity<K, D>) => x.id != op.entity.id;
      WhereSubsequenceUnique(t, f);
    }
  }

  lemma {:induction false} WhereSubsequenceUnique<K, D>(t: seq<Entity<K, D>>, f: Entity<K, D> -> bool)
    requires UniqueIds(t)
    ensures UniqueIds(Where(t, f))
    decreases |t|
  {
    if |t| > 0 {
      var n := |t| - 1;
      assert UniqueIds(t[..n]);
      WhereSubsequenceUnique(t[..n], f);
      if f(t[n]) {
        var w := Where(t[..n], f);
        forall i | 0 <= i < |w| ensures w[i].id != t[n].id {
          WhereMembers(t[..n], f, w[i]);
        }
      }
    }
  }

  /** `SaveChanges`: the staged commands in staging order. */
  function ApplyAll<K(==), D>(t: seq<Entity<K, D>>, ops: seq<Op<K, D>>): (r: Result<seq<Entity<K, D>>>)
    ensures UniqueIds(t) && r.Ok? ==> UniqueIds(r.value)
    decreases |ops|
  {
    if |ops| == 0 then Ok(t)
    else
      var before :- ApplyAll(t, ops[..|ops| - 1]);
      var after := Apply(before, ops[|ops| - 1]);
      assert UniqueIds(t) && after.Ok? ==> UniqueIds(after.value) by {
        if UniqueIds(t) && after.Ok? { ApplyKeepsUnique(before, ops[|ops| - 1]); }
      }
      after
  }

  lemma ApplyAllSnoc<K, D>(t: seq<Entity<K, D>>, ops: seq<Op<K, D>>, op: Op<K, D>)
    ensures ApplyAll(t, ops + [op]) ==
      (match ApplyAll(t, ops)
       case Throw(x) => Throw(x)
       case Ok(before) => Apply(before, op))
  {
    assert (ops + [op])[..|ops|] == ops;
  }

  /** `Save()`: flushes every staged command in one transaction. On success
      nothing is left staged; on failure the exception propagates. */
  function Save<K(==), D>(r: Repo<K, D>): (res: Result<Repo<K, D>>)
    ensures res.Ok? <==> ApplyAll(r.table, r.staged).Ok?
    ensures res.Ok? ==> res.value.staged == [] && res.value.table == ApplyAll(r.table, r.staged).value
    ensures r.staged == [] ==> res == Ok(Repo(r.table, []))
    ensures UniqueIds(r.table) && res.Ok? ==> UniqueIds(res.value.table)
  {
    var t :- ApplyAll(r.table, r.staged);
    Ok(Repo(t, []))
  }

  function Stage<K(==), D>(r: Repo<K, D>, ops: seq<Op<K, D>>): Repo<K, D> {
    r.(staged := r.staged + ops)
  }

  /** `if (autoSave) Save();` */
  function Commit<K(==), D>(r: Repo<K, D>, autoSave: bool): Result<Repo<K, D>> {
    if autoSave then Save(r) else Ok(r)
  }

  // ---------------------------------------------------------------------
  // Queries (they read the committed table)

  /** `GetById`: the first row keyed `id`, or null. The inclusion directives
      only eager-load navigation properties, which the model does not
      represent. The row is read from the committed table whatever
      `isTrack` says; a tracking query in EF would instead hand back an
      instance the context already tracks, as it stands in memory. */
  function GetById<K(==), D, X>(r: Repo<K, D>, id: K, inclusion: Option<Inclusion<X>>, isTrack: bool)
    : (res: Option<Entity<K, D>>)
    ensures res.None? <==> forall i :: 0 <= i < |r.table| ==> r.table[i].id != id
    ensures res.Some? ==> exists i :: 0 <= i < |r.table| && r.table[i] == res.value
                            && r.table[i].id == id
                            && forall j :: 0 <= j < i ==> r.table[j].id != id
  {
    Find(r.table, id)
  }

  /** `GetList`: filter, then project, then order. */
  function GetList<K(==), D, X>(r: Repo<K, D>, where: Option<Entity<K, D> -> bool>,
                            inclusion: Option<Inclusion<X>>, orderBy: Option<string>,
                            select: Option<Entity<K, D> -> Entity<K, D>>, isTrack: bool,
                            dynamic: Ordering<K, D>)
    : (res: Result<seq<Entity<K, D>>>)
    ensures IsNullOrWhiteSpace(orderBy) ==>
      var matched := Where(r.table, FilterOrAll(where));
      && res.Ok?
      && |res.value| == |matched|
      && forall i :: 0 <= i < |matched| ==> res.value[i] == ProjectionOrIdentity(select)(matched[i])
    ensures !IsNullOrWhiteSpace(orderBy) ==>
      res == dynamic(orderBy.value, Select(Where(r.table, FilterOrAll(where)), ProjectionOrIdentity(select)))
  {
    var matched := Where(r.table, FilterOrAll(where));
    OrderBy(Select(matched, ProjectionOrIdentity(select)), orderBy, dynamic)
  }

  /** A null filter keeps every row: with no filter, no projection and a
      blank ordering, `GetList` is the whole table in table order. */
  lemma {:induction false} GetListDefaults<K, D, X>(r: Repo<K, D>, inclusion: Option<Inclusion<X>>,
                                                    orderBy: Option<string>, isTrack: bool,
                                                    dynamic: Ordering<K, D>)
    requires IsNullOrWhiteSpace(orderBy)
    ensures GetList(r, None, inclusion, orderBy, None, isTrack, dynamic) == Ok(r.table)
  {
    AllPass(r.table);
    var res := GetList(r, None, inclusion, orderBy, None, isTrack, dynamic).value;
    assert |res| == |r.table|;
    assert forall i :: 0 <= i < |res| ==> res[i] == r.table[i];
    assert res == r.table;
  }

  lemma {:induction false} AllPass<E>(s: seq<E>)
    ensures Where(s, FilterOrAll(None)) == s
    decreases |s|
  {
    if |s| > 0 {
      AllPass(s[..|s| - 1]);
      assert s == s[..|s| - 1] + [s[|s| - 1]];
    }
  }

  /** How many rows to skip for a page: the true product, the offset the
      paging evidently intends. */
  function SkipCount(nowPage: int, pageSize: int): (k: int)
    requires nowPage >= 1 && pageSize >= 0
    ensures k >= 0
    ensures k == 0 <==> nowPage == 1 || pageSize == 0
  {
    (nowPage - 1) * pageSize
  }

  /** The offset as written, `(nowPage - 1) * pageSize` on C# `int`s in an
      unchecked context: a product past `int.MaxValue` wraps modulo 2^32,
      possibly to a negative count. */
  function SkipCountAsWritten(nowPage: int32, pageSize: int32): (k: int32)
    requires nowPage >= 1 && pageSize >= 0
    ensures SkipCount(nowPage, pageSize) < 0x8000_0000 ==> k == SkipCount(nowPage, pageSize)
    ensures (k - SkipCount(nowPage, pageSize)) % 0x1_0000_0000 == 0
  {
    Wrap32((nowPage - 1) * pageSize)
  }

  /** `Skip(first).Take(size)`: the rows of `s` from position `first` on,
      at most `size` of them. */
  function Window<T>(s: seq<T>, first: nat, size: nat): (w: seq<T>)
    ensures |w| == (if first >= |s| then 0 else if |s| - first < size then |s| - first else size)
    ensures forall i :: 0 <= i < |w| ==> w[i] == s[first + i]
  {
    Take(Skip(s, first), size)
  }

  /** `GetPageList`: normalises the page number and size, counts the rows
      that pass the filter (`Count()` throws past `int.MaxValue`), then
      returns one window of the filtered, projected and ordered rows. The
      window starts at the wrapped offset; `Skip` of a negative count skips
      nothing. */
  function GetPageList<K(==), D, X>(r: Repo<K, D>, nowPage: int32, pageSize: int32,
                                where: Option<Entity<K, D> -> bool>,
                                inclusion: Option<Inclusion<X>>, orderBy: Option<string>,
                                select: Option<Entity<K, D> -> Entity<K, D>>, isTrack: bool,
                                dynamic: Ordering<K, D>)
    : (res: Result<Page<K, D>>)
    ensures |Where(r.table, FilterOrAll(where))| >= 0x8000_0000 ==> res == Throw(Overflow)
    ensures res.Ok? ==> res.value.rowCount == |Where(r.table, FilterOrAll(where))|
    ensures res.Ok? ==> |res.value.rows| <= (if pageSize < 0 then 0 else pageSize)
    ensures |Where(r.table, FilterOrAll(where))| < 0x8000_0000 ==>
      (res.Ok? <==> GetList(r, where, inclusion, orderBy, select, isTrack, dynamic).Ok?)
    ensures res.Ok? ==>
      var page := if nowPage <= 0 then 1 else nowPage;
      var size := if pageSize < 0 then 0 else pageSize;
      var k := SkipCountAsWritten(page, size);
      res.value.rows == Window(GetList(r, where, inclusion, orderBy, select, isTrack, dynamic).value,
                               if k < 0 then 0 else k, size)
    ensures res.Ok? ==>
      var page := if nowPage <= 0 then 1 else nowPage;
      var size := if pageSize < 0 then 0 else pageSize;
      SkipCount(page, size) < 0x8000_0000 ==>
        res.value.rows == Window(GetList(r, where, inclusion, orderBy, select, isTrack, dynamic).value,
                                 SkipCount(page, size), size)
  {
    var page := if nowPage <= 0 then 1 else nowPage;
    var size := if pageSize < 0 then 0 else pageSize;
    var rowCount := |Where(r.table, FilterOrAll(where))|;
    if rowCount >= 0x8000_0000 then Throw(Overflow)
    else
      var ordered :- GetList(r, where, inclusion, orderBy, select, isTrack, dynamic);
      Ok(Page(Take(Skip(ordered, SkipCountAsWritten(page, size)), size), rowCount))
  }

  /** `GetPageList` with the offset it evidently intends, the unbounded
      product: a page past the last row is empty, and wherever the product
      fits in an `int` it agrees with the code as written. */
  function GetPageListIntended<K(==), D, X>(r: Repo<K, D>, nowPage: int32, pageSize: int32,
                                        where: Option<Entity<K, D> -> bool>,
                                        inclusion: Option<Inclusion<X>>, orderBy: Option<string>,
                                        select: Option<Entity<K, D> -> Entity<K, D>>, isTrack: bool,
                                        dynamic: Ordering<K, D>)
    : (res: Result<Page<K, D>>)
    ensures
      (res.Ok? <==> GetPageList(r, nowPage, pageSize, where, inclusion, orderBy, select, isTrack, dynamic).Ok?)
      && (res.Ok? ==> res.value.rowCount == |Where(r.table, FilterOrAll(where))|)
    ensures
      var page := if nowPage <= 0 then 1 else nowPage;
      var size := if pageSize < 0 then 0 else pageSize;
      SkipCount(page, size) < 0x8000_0000 ==>
        res == GetPageList(r, nowPage, pageSize, where, inclusion, orderBy, select, isTrack, dynamic)
    ensures res.Ok? ==>
      var page := if nowPage <= 0 then 1 else nowPage;
      var size := if pageSize < 0 then 0 else pageSize;
      var ordered := GetList(r, where, inclusion, orderBy, select, isTrack, dynamic).value;
      && res.value.rows == Window(ordered, SkipCount(page, size), size)
      && (SkipCount(page, size) >= |ordered| ==> res.value.rows == [])
  {
    var page := if nowPage <= 0 then 1 else nowPage;
    var size := if pageSize < 0 then 0 else pageSize;
    var rowCount := |Where(r.table, FilterOrAll(where))|;
    if rowCount >= 0x8000_0000 then Throw(Overflow)
    else
      var ordered :- GetList(r, where, inclusion, orderBy, select, isTrack, dynamic);
      Ok(Page(Window(ordered, SkipCount(page, size), size), rowCount))
  }

  /** Page numbers up to 1 and sizes below 0 are normalised before anything else. */
  lemma PageNormalisation<K, D, X>(r: Repo<K, D>, nowPage: int32, pageSize: int32,
                                   where: Option<Entity<K, D> -> bool>,
                                   inclusion: Option<Inclusion<X>>, orderBy: Option<string>,
                                   select: Option<Entity<K, D> -> Entity<K, D>>, isTrack: bool,
                                   dynamic: Ordering<K, D>)
    ensures nowPage <= 0 ==>
      GetPageList(r, nowPage, pageSize, where, inclusion, orderBy, select, isTrack, dynamic)
      == GetPageList(r, 1, pageSize, where, inclusion, orderBy, select, isTrack, dynamic)
    ensures pageSize < 0 ==>
      GetPageList(r, nowPage, pageSize, where, inclusion, orderBy, select, isTrack, dynamic)
      == GetPageList(r, nowPage, 0, where, inclusion, orderBy, select, isTrack, dynamic)
  {
  }

  /** `Any`: with no filter, whether the table has a row at all. */
  function Any<K(==), D>(r: Repo<K, D>, where: Option<Entity<K, D> -> bool>): (b: bool)
    ensures where.None? ==> (b <==> |r.table| > 0)
    ensures where.Some? ==> (b <==> exists i :: 0 <= i < |r.table| && where.value(r.table[i]))
  {
    var matched := Where(r.table, FilterOrAll(where));
    assert |matched| > 0 <==> exists i :: 0 <= i < |r.table| && FilterOrAll(where)(r.table[i]) by {
      if |matched| > 0 {
        WhereMembers(r.table, FilterOrAll(where), matched[0]);
      }
      if i :| 0 <= i < |r.table| && FilterOrAll(where)(r.table[i]) {
        WhereMembers(r.table, FilterOrAll(where), r.table[i]);
      }
    }
    |matched| > 0
  }

  // ---------------------------------------------------------------------
  // Commands

  function Adds<K, D>(es: seq<Entity<K, D>>): (ops: seq<Op<K, D>>)
    ensures |ops| == |es| && forall i :: 0 <= i < |es| ==> ops[i] == Added(es[i])
  {
    seq(|es|, i requires 0 <= i < |es| => Added(es[i]))
  }

  function Updates<K, D>(es: seq<Entity<K, D>>): (ops: seq<Op<K, D>>)
    ensures |ops| == |es| && forall i :: 0 <= i < |es| ==> ops[i] == Updated(es[i])
  {
    seq(|es|, i requires 0 <= i < |es| => Updated(es[i]))
  }

  function Removes<K, D>(es: seq<Entity<K, D>>): (ops: seq<Op<K, D>>)
    ensures |ops| == |es| && forall i :: 0 <= i < |es| ==> ops[i] == Removed(es[i])
  {
    seq(|es|, i requires 0 <= i < |es| => Removed(es[i]))
  }

  /** Every entity with `UpdateTime` set to `now`. */
  function TouchAll<K, D>(es: seq<Entity<K, D>>, now: int): (r: seq<Entity<K, D>>)
    ensures |r| == |es| && forall i :: 0 <= i < |es| ==> r[i] == es[i].(updateTime := now)
  {
    seq(|es|, i requires 0 <= i < |es| => Touch(es[i], now))
  }

  /** Every entity with `IsDeleted = 1`. */
  function MarkAll<K, D>(es: seq<Entity<K, D>>): (r: seq<Entity<K, D>>)
    ensures |r| == |es| && forall i :: 0 <= i < |es| ==> r[i] == es[i].(isDeleted := 1)
  {
    seq(|es|, i requires 0 <= i < |es| => MarkDeleted(es[i]))
  }

  /** The same values as a collection of non-null references. */
  function Somes<T>(s: seq<T>): (r: seq<Option<T>>)
    ensures |r| == |s| && forall i :: 0 <= i < |s| ==> r[i] == Some(s[i])
  {
    seq(|s|, i requires 0 <= i < |s| => Some(s[i]))
  }

  /** `Add`: stages an insert; the entity is returned as given. `DbSet.Add`
      rejects a null entity. */
  function Add<K(==), D>(r: Repo<K, D>, entity: Option<Entity<K, D>>, autoSave: bool)
    : (res: Result<(Repo<K, D>, Entity<K, D>)>)
    ensures entity.None? ==> res == Throw(ArgumentNull("entity"))
    ensures res.Ok? ==> entity == Some(res.value.1)
    ensures entity.Some? && !autoSave ==>
      res.Ok? && res.value.0 == Repo(r.table, r.staged + [Added(entity.value)])
    ensures entity.Some? && autoSave && r.staged == [] ==>
      (res.Ok? <==> !HasId(r.table, entity.value.id))
      && (res.Ok? ==> res.value.0 == Repo(r.table + [entity.value], []))
      && (!res.Ok? ==> res == Throw(DbUpdate))
  {
    var e :- Need(entity, ArgumentNull("entity"));
    assert r.staged == [] ==> ApplyAll(r.table, r.staged + [Added(e)]) == Apply(r.table, Added(e)) by {
      ApplyAllSnoc(r.table, r.staged, Added(e));
    }
    var r' :- Commit(Stage(r, [Added(e)]), autoSave);
    Ok((r', e))
  }

  /** `AddRange`: stages one insert per entity; a null collection throws,
      and so does the change tracker when two of the entities share a key. */
  function AddRange<K(==), D>(r: Repo<K, D>, entities: Option<seq<Entity<K, D>>>, autoSave: bool)
    : (res: Result<Repo<K, D>>)
    ensures entities.None? ==> res == Throw(ArgumentNull("entities"))
    ensures entities.Some? && !UniqueIds(entities.value) ==> res == Throw(InvalidOperation)
    ensures entities.Some? && UniqueIds(entities.value) && !autoSave ==>
      && res.Ok? && res.value.table == r.table
      && res.value.staged == r.staged + Adds(entities.value)
  {
    if entities.None? then Throw(ArgumentNull("entities"))
    else if !UniqueIds(entities.value) then Throw(InvalidOperation)
    else Commit(Stage(r, Adds(entities.value)), autoSave)
  }

  /** `Update(entity)`: refreshes `UpdateTime` to `now`, stages an update of
      the whole row and returns the refreshed entity. A null entity is
      dereferenced before anything is staged. */
  function Update<K(==), D>(r: Repo<K, D>, entity: Option<Entity<K, D>>, autoSave: bool, now: int)
    : (res: Result<(Repo<K, D>, Entity<K, D>)>)
    ensures entity.None? ==> res == Throw(NullReference)
    ensures res.Ok? ==> entity.Some? && res.value.1 == entity.value.(updateTime := now)
    ensures entity.Some? && !autoSave ==>
      res.Ok? && res.value.0 == Repo(r.table, r.staged + [Updated(entity.value.(updateTime := now))])
    ensures entity.Some? && autoSave && r.staged == [] ==>
      (res.Ok? <==> HasId(r.table, entity.value.id))
      && (res.Ok? ==> Find(res.value.0.table, entity.value.id) == Some(entity.value.(updateTime := now)))
      && (!res.Ok? ==> res == Throw(DbUpdateConcurrency))
  {
    var given :- Need(entity, NullReference);
    var e := Touch(given, now);
    assert r.staged == [] ==> ApplyAll(r.table, r.staged + [Updated(e)]) == Apply(r.table, Updated(e)) by {
      ApplyAllSnoc(r.table, r.staged, Updated(e));
    }
    var r' :- Commit(Stage(r, [Updated(e)]), autoSave);
    assert autoSave && r.staged == [] ==> Find(r'.table, e.id) == Some(e) by {
      if autoSave && r.staged == [] {
        ApplyAllSnoc(r.table, r.staged, Updated(e));
        FindAfterReplace(r.table, e, e.id);
      }
    }
    Ok((r', e))
  }

  lemma FindAfterReplace<K, D>(t: seq<Entity<K, D>>, e: Entity<K, D>, id: K)
    ensures id == e.id && HasId(t, id) ==> Find(Replace(t, e), id) == Some(e)
    ensures id != e.id ==> Find(Replace(t, e), id) == Find(t, id)
  {
    var t' := Replace(t, e);
    if id != e.id {
      FindAgrees(t, t', id);
    } else if HasId(t, id) {
      var i :| 0 <= i < |t| && t[i].id == id;
      assert t'[i].id == id;
      assert forall j :: 0 <= j < |t'| && t'[j].id == id ==> t'[j] == e;
    }
  }

  /** Two tables that agree on every row keyed `id`, position by position,
      find the same row. */
  lemma {:induction false} FindAgrees<K, D>(t: seq<Entity<K, D>>, u: seq<Entity<K, D>>, id: K)
    requires |t| == |u|
    requires forall i :: 0 <= i < |t| ==> (t[i].id == id <==> u[i].id == id)
    requires forall i :: 0 <= i < |t| && t[i].id == id ==> t[i] == u[i]
    ensures Find(t, id) == Find(u, id)
    decreases |t|
  {
    if |t| > 0 && t[0].id != id {
      FindAgrees(t[1..], u[1..], id);
    }
  }

  /** `UpdateRange`: drops null entries, refreshes `UpdateTime` on the rest
      and stages an update for each; a null collection throws, and so does
      the change tracker when two of the kept entities share a key. */
  function UpdateRange<K(==), D>(r: Repo<K, D>, entities: Option<seq<Option<Entity<K, D>>>>,
                                 autoSave: bool, now: int)
    : (res: Result<Repo<K, D>>)
    ensures entities.None? ==> res == Throw(ArgumentNull("source"))
    ensures entities.Some? && !UniqueIds(NonNull(entities.value)) ==> res == Throw(InvalidOperation)
    ensures entities.Some? && UniqueIds(NonNull(entities.value)) && !autoSave ==>
      var kept := NonNull(entities.value);
      && res.Ok? && res.value.table == r.table
      && res.value.staged == r.staged + Updates(TouchAll(kept, now))
  {
    if entities.None? then Throw(ArgumentNull("source"))
    else
      var kept := NonNull(entities.value);
      if !UniqueIds(kept) then Throw(InvalidOperation)
      else Commit(Stage(r, Updates(TouchAll(kept, now))), autoSave)
  }

  /** The test of `Where(e => e != null)`. */
  predicate NotNull<T>(o: Option<T>) {
    o.Some?
  }

  /** The non-null entries, in order and with their repeats: exactly what
      `Where(e => e != null)` keeps. */
  function NonNull<T>(s: seq<Option<T>>): (r: seq<T>)
    ensures |r| <= |s|
    ensures forall i :: 0 <= i < |r| ==> Some(r[i]) in s
    ensures forall i :: 0 <= i < |s| && s[i].Some? ==> s[i].value in r
    ensures Somes(r) == Where(s, NotNull)
    decreases |s|
  {
    if |s| == 0 then []
    else
      var n := |s| - 1;
      var front := NonNull(s[..n]);
      var last := if s[n].Some? then [s[n].value] else [];
      assert s == s[..n] + [s[n]];
      assert Somes(front + last) == Somes(front) + Somes(last);
      front + last
  }

  /** `Update(where, handle)`: both arguments are required; the matching
      rows are read untracked, `handle` is applied to each, and each result
      is staged as it is: `UpdateTime` is not refreshed. Two handled rows
      that share a key make the change tracker throw. */
  function UpdateWhere<K(==), D>(r: Repo<K, D>, where: Option<Entity<K, D> -> bool>,
                                 handle: Option<Entity<K, D> -> Entity<K, D>>, autoSave: bool)
    : (res: Result<Repo<K, D>>)
    ensures where.None? ==> res == Throw(ArgumentNull("where"))
    ensures where.Some? && handle.None? ==> res == Throw(ArgumentNull("handle"))
    ensures where.Some? && handle.Some? ==>
      var changed := Select(Where(r.table, where.value), handle.value);
      && (!UniqueIds(changed) ==> res == Throw(InvalidOperation))
      && (UniqueIds(changed) && !autoSave ==>
            && res.Ok? && res.value.table == r.table
            && res.value.staged == r.staged + Updates(changed))
  {
    if where.None? then Throw(ArgumentNull("where"))
    else if handle.None? then Throw(ArgumentNull("handle"))
    else
      var changed := Select(Where(r.table, where.value), handle.value);
      if !UniqueIds(changed) then Throw(InvalidOperation)
      else Commit(Stage(r, Updates(changed)), autoSave)
  }

  /** `AddOrUpdate`: probes `GetById(entity.Id)` and takes the update path
      exactly when a row is found; reading `Id` of a null entity throws. */
  function AddOrUpdate<K(==), D>(r: Repo<K, D>, entity: Option<Entity<K, D>>, autoSave: bool, now: int)
    : (res: Result<(Repo<K, D>, Entity<K, D>)>)
    ensures entity.None? ==> res == Throw(NullReference)
    ensures entity.Some? && HasId(r.table, entity.value.id) ==> res == Update(r, entity, autoSave, now)
    ensures entity.Some? && !HasId(r.table, entity.value.id) ==> res == Add(r, entity, autoSave)
  {
    var e :- Need(entity, NullReference);
    if GetById<K, D, bool>(r, e.id, None, false).Some? then Update(r, entity, autoSave, now)
    else Add(r, entity, autoSave)
  }

  /** `Delete(entity)`: a soft delete raises `IsDeleted` and stages an update
      (the row stays, `UpdateTime` untouched); a hard delete stages a removal.
      A null entity is dereferenced (soft) or handed to `Remove` (hard). */
  function Delete<K(==), D>(r: Repo<K, D>, entity: Option<Entity<K, D>>, autoSave: bool, isSoftDelete: bool)
    : (res: Result<Repo<K, D>>)
    ensures entity.None? && isSoftDelete ==> res == Throw(NullReference)
    ensures entity.None? && !isSoftDelete ==> res == Throw(ArgumentNull("entity"))
    ensures entity.Some? && !autoSave ==> res.Ok? && res.value.table == r.table
    ensures entity.Some? && !autoSave && isSoftDelete ==>
      res.value.staged == r.staged + [Updated(entity.value.(isDeleted := 1))]
    ensures entity.Some? && !autoSave && !isSoftDelete ==>
      res.value.staged == r.staged + [Removed(entity.value)]
    ensures autoSave && isSoftDelete && res.Ok? ==>
      Find(res.value.table, entity.value.id) == Some(entity.value.(isDeleted := 1))
    ensures autoSave && !isSoftDelete && res.Ok? ==> !HasId(res.value.table, entity.value.id)
    ensures entity.Some? && autoSave && r.staged == [] ==>
      (res.Ok? <==> HasId(r.table, entity.value.id))
      && (!res.Ok? ==> res == Throw(DbUpdateConcurrency))
  {
    var entity :- Need(entity, if isSoftDelete then NullReference else ArgumentNull("entity"));
    assert r.staged == [] ==> ApplyAll(r.table, r.staged + [Removed(entity)]) == Apply(r.table, Removed(entity))
                           && ApplyAll(r.table, r.staged + [Updated(MarkDeleted(entity))])
                              == Apply(r.table, Updated(MarkDeleted(entity))) by {
      ApplyAllSnoc(r.table, r.staged, Removed(entity));
      ApplyAllSnoc(r.table, r.staged, Updated(MarkDeleted(entity)));
    }
    var op := if isSoftDelete then Updated(MarkDeleted(entity)) else Removed(entity);
    var res := Commit(Stage(r, [op]), autoSave);
    assert autoSave && res.Ok? ==>
      if isSoftDelete then Find(res.value.table, entity.id) == Some(MarkDeleted(entity))
      else !HasId(res.value.table, entity.id)
    by {
      if autoSave && res.Ok? {
        ApplyAllSnoc(r.table, r.staged, op);
        var before := ApplyAll(r.table, r.staged).value;
        if isSoftDelete {
          FindAfterReplace(before, op.entity, entity.id);
        }
      }
    }
    res
  }

  /** `DeleteById`: looks the row up with `GetById` and deletes it; a missing
      id is dereferenced as null (soft) or handed to `Remove(null)` (hard). */
  function DeleteById<K(==), D>(r: Repo<K, D>, id: K, autoSave: bool, isSoftDelete: bool)
    : (res: Result<Repo<K, D>>)
    ensures !HasId(r.table, id) && isSoftDelete ==> res == Throw(NullReference)
    ensures !HasId(r.table, id) && !isSoftDelete ==> res == Throw(ArgumentNull("entity"))
    ensures HasId(r.table, id) ==> res == Delete(r, Find(r.table, id), autoSave, isSoftDelete)
  {
    Delete(r, GetById<K, D, bool>(r, id, None, false), autoSave, isSoftDelete)
  }

  /** `Delete(where)`: the filter is required. A soft delete marks every
      matching row and hands them to `UpdateRange` with its default
      `autoSave = true`, so it refreshes `UpdateTime` and flushes whatever
      `autoSave` says; a hard delete stages one removal per row, which the
      change tracker refuses when two matching rows share a key. */
  function DeleteWhere<K(==), D>(r: Repo<K, D>, where: Option<Entity<K, D> -> bool>,
                                 autoSave: bool, isSoftDelete: bool, now: int)
    : (res: Result<Repo<K, D>>)
    ensures where.None? ==> res == Throw(ArgumentNull("where"))
    ensures where.Some? && isSoftDelete && res.Ok? ==> res.value.staged == []
    ensures where.Some? && !isSoftDelete ==>
      var matched := Where(r.table, where.value);
      && (!UniqueIds(matched) ==> res == Throw(InvalidOperation))
      && (UniqueIds(matched) && !autoSave ==>
            && res.Ok? && res.value.table == r.table
            && res.value.staged == r.staged + Removes(matched))
  {
    if where.None? then Throw(ArgumentNull("where"))
    else
      var matched := Where(r.table, where.value);
      if isSoftDelete then
        var r1 :- UpdateRange(r, Some(Somes(MarkAll(matched))), true, now);
        Commit(r1, autoSave)
      else if !UniqueIds(matched) then Throw(InvalidOperation)
      else Commit(Stage(r, Removes(matched)), autoSave)
  }
}

=== FILE: base_service.dfy ===
/** `BaseService`: the business-layer facade over one repository. Methods
    taking a single entity or a collection short-circuit on null (and on an
    empty collection) without touching the repository; everything else is
    forwarded with its arguments unchanged, so the repository's own argument
    checks still fire. */
module BaseService {
  import opened Clr
  import opened Entities
  import opened Inclusions
  import Repo = BaseRepository

  type Repository<K, D> = Repo.Repo<K, D>

  /** `Add`: null in, null out, repository untouched. */
  function Add<K(==), D>(r: Repository<K, D>, entity: Option<Entity<K, D>>, autoSave: bool)
    : (res: Result<(Repository<K, D>, Option<Entity<K, D>>)>)
    ensures entity.None? ==> res == Ok((r, None))
    ensures entity.Some? ==>
      && (res.Ok? <==> Repo.Add(r, entity, autoSave).Ok?)
      && (res.Ok? ==> res.value == (Repo.Add(r, entity, autoSave).value.0, Some(entity.value)))
  {
    if entity.None? then Ok((r, None))
    else
      var (r', e) :- Repo.Add(r, entity, autoSave);
      Ok((r', Some(e)))
  }

  /** `AddOrUpdate`: null in, null out; otherwise the repository's result. */
  function AddOrUpdate<K(==), D>(r: Repository<K, D>, entity: Option<Entity<K, D>>, autoSave: bool, now: int)
    : (res: Result<(Repository<K, D>, Option<Entity<K, D>>)>)
    ensures entity.None? ==> res == Ok((r, None))
    ensures entity.Some? ==>
      && (res.Ok? <==> Repo.AddOrUpdate(r, entity, autoSave, now).Ok?)
      && (res.Ok? ==> var (r', e) := Repo.AddOrUpdate(r, entity, autoSave, now).value;
                      res.value == (r', Some(e)))
    ensures entity.Some? && res.Ok? && Repo.HasId(r.table, entity.value.id) ==>
      res.value.1 == Some(entity.value.(updateTime := now))
    ensures entity.Some? && res.Ok? && !Repo.HasId(r.table, entity.value.id) ==>
      res.value.1 == Some(entity.value)
  {
    if entity.None? then Ok((r, None))
    else
      var (r', e) :- Repo.AddOrUpdate(r, entity, autoSave, now);
      Ok((r', Some(e)))
  }

  /** `Update(entity)`: null in, null out; otherwise the refreshed entity. */
  function Update<K(==), D>(r: Repository<K, D>, entity: Option<Entity<K, D>>, autoSave: bool, now: int)
    : (res: Result<(Repository<K, D>, Option<Entity<K, D>>)>)
    ensures entity.None? ==> res == Ok((r, None))
    ensures entity.Some? ==>
      && (res.Ok? <==> Repo.Update(r, entity, autoSave, now).Ok?)
      && (res.Ok? ==> res.value == (Repo.Update(r, entity, autoSave, now).value.0,
                                    Some(entity.value.(updateTime := now))))
  {
    if entity.None? then Ok((r, None))
    else
      var (r', e) :- Repo.Update(r, entity, autoSave, now);
      Ok((r', Some(e)))
  }

  /** `AddRange`: a null or empty collection is a no-op. */
  function AddRange<K(==), D>(r: Repository<K, D>, entities: Option<seq<Entity<K, D>>>, autoSave: bool)
    : (res: Result<Repository<K, D>>)
    ensures entities.None? || |entities.value| == 0 ==> res == Ok(r)
    ensures entities.Some? && |entities.value| > 0 ==> res == Repo.AddRange(r, entities, autoSave)
  {
    if entities.None? || |entities.value| == 0 then Ok(r)
    else Repo.AddRange(r, entities, autoSave)
  }

  /** `UpdateRange`: a null or empty collection is a no-op. `Count()` counts
      null entries, so a collection of nulls is forwarded (and, with
      `autoSave`, flushes whatever was staged). */
  function UpdateRange<K(==), D>(r: Repository<K, D>, entities: Option<seq<Option<Entity<K, D>>>>,
                                 autoSave: bool, now: int)
    : (res: Result<Repository<K, D>>)
    ensures entities.None? || |entities.value| == 0 ==> res == Ok(r)
    ensures entities.Some? && |entities.value| > 0 ==> res == Repo.UpdateRange(r, entities, autoSave, now)
  {
    if entities.None? || |entities.value| == 0 then Ok(r)
    else Repo.UpdateRange(r, entities, autoSave, now)
  }

  /** `Delete(entity)`: a null entity is a no-op. */
  function Delete<K(==), D>(r: Repository<K, D>, entity: Option<Entity<K, D>>, autoSave: bool, isSoftDelete: bool)
    : (res: Result<Repository<K, D>>)
    ensures entity.None? ==> res == Ok(r)
    ensures entity.Some? ==> res == Repo.Delete(r, entity, autoSave, isSoftDelete)
  {
    if entity.None? then Ok(r) else Repo.Delete(r, entity, autoSave, isSoftDelete)
  }

  /** `Delete(where)`: forwarded, so a null filter throws. */
  function DeleteWhere<K(==), D>(r: Repository<K, D>, where: Option<Entity<K, D> -> bool>,
                                 autoSave: bool, isSoftDelete: bool, now: int)
    : (res: Result<Repository<K, D>>)
    ensures res == Repo.DeleteWhere(r, where, autoSave, isSoftDelete, now)
    ensures where.None? ==> res == Throw(ArgumentNull("where"))
  {
    Repo.DeleteWhere(r, where, autoSave, isSoftDelete, now)
  }

  /** `DeleteById`: forwarded, so a missing key still fails. */
  function DeleteById<K(==), D>(r: Repository<K, D>, id: K, autoSave: bool, isSoftDelete: bool)
    : (res: Result<Repository<K, D>>)
    ensures res == Repo.DeleteById(r, id, autoSave, isSoftDelete)
    ensures !Repo.HasId(r.table, id) ==> res.Throw?
  {
    Repo.DeleteById(r, id, autoSave, isSoftDelete)
  }

  /** `Update(where, handle)`: forwarded, so a null filter or handler throws. */
  function UpdateWhere<K(==), D>(r: Repository<K, D>, where: Option<Entity<K, D> -> bool>,
                                 handle: Option<Entity<K, D> -> Entity<K, D>>, autoSave: bool)
    : (res: Result<Repository<K, D>>)
    ensures res == Repo.UpdateWhere(r, where, handle, autoSave)
    ensures where.None? ==> res == Throw(ArgumentNull("where"))
    ensures where.Some? && handle.None? ==> res == Throw(ArgumentNull("handle"))
  {
    Repo.UpdateWhere(r, where, handle, autoSave)
  }

  /** `GetById`: forwarded. */
  function GetById<K(==), D, X>(r: Repository<K, D>, id: K, inclusion: Option<Inclusion<X>>, isTrack: bool)
    : (res: Option<Entity<K, D>>)
    ensures res == Repo.GetById(r, id, inclusion, isTrack)
    ensures res.None? <==> !Repo.HasId(r.table, id)
  {
    Repo.GetById(r, id, inclusion, isTrack)
  }

  /** `GetList`: forwarded. */
  function GetList<K(==), D, X>(r: Repository<K, D>, where: Option<Entity<K, D> -> bool>,
                                inclusion: Option<Inclusion<X>>, orderBy: Option<string>,
                                select: Option<Entity<K, D> -> Entity<K, D>>, isTrack: bool,
                                dynamic: Repo.Ordering<K, D>)
    : (res: Result<seq<Entity<K, D>>>)
    ensures res == Repo.GetList(r, where, inclusion, orderBy, select, isTrack, dynamic)
  {
    Repo.GetList(r, where, inclusion, orderBy, select, isTrack, dynamic)
  }

  /** `GetPageList`: forwarded, `rowCount` included. */
  function GetPageList<K(==), D, X>(r: Repository<K, D>, nowPage: int32, pageSize: int32,
                                    where: Option<Entity<K, D> -> bool>,
                                    inclusion: Option<Inclusion<X>>, orderBy: Option<string>,
                                    select: Option<Entity<K, D> -> Entity<K, D>>, isTrack: bool,
                                    dynamic: Repo.Ordering<K, D>)
    : (res: Result<Repo.Page<K, D>>)
    ensures res == Repo.GetPageList(r, nowPage, pageSize, where, inclusion, orderBy, select, isTrack, dynamic)
    ensures res.Ok? ==> res.value.rowCount == |Repo.Where(r.table, Repo.FilterOrAll(where))|
  {
    Repo.GetPageList(r, nowPage, pageSize, where, inclusion, orderBy, select, isTrack, dynamic)
  }

  /** `Any`: forwarded. */
  function Any<K(==), D>(r: Repository<K, D>, where: Option<Entity<K, D> -> bool>): (b: bool)
    ensures b == Repo.Any(r, where)
    ensures where.None? ==> (b <==> |r.table| > 0)
  {
    Repo.Any(r, where)
  }

  /** `Save`: forwarded. */
  function Save<K(==), D>(r: Repository<K, D>): (res: Result<Repository<K, D>>)
    ensures res == Repo.Save(r)
    ensures res.Ok? ==> res.value.staged == []
  {
    Repo.Save(r)
  }
}

=== FILE: clr.dfy ===
/** The pieces of the .NET runtime the framework leans on: nullable values,
    exceptions as values, character classes, decimal digits and the
    `string.Split`/`string.Join` pair. Everything else in the project is
    written in terms of these. */
module Clr {

  /** A .NET reference or `Nullable<T>` value: `None` is `null`. */
  datatype Option<+T> = None | Some(value: T) {
    predicate IsFailure() { None? }

    function PropagateFailure<U>(): Option<U>
      requires None?
    {
      None
    }

    function Extract(): T
      requires Some?
    {
      value
    }
  }

  /** The exceptions the modelled code can raise, by .NET type. The parameter
      name is kept where the source passes one (`nameof(...)`). */
  datatype Exception =
    | ArgumentNull(paramName: string)
    | Argument(paramName: string)
    | ArgumentOutOfRange(paramName: string)
    | NullReference
    | EndOfStream
    | Format
    | Overflow
    | DbUpdate
    | DbUpdateConcurrency
    | InvalidOperation
    | General(message: string)

  /** The outcome of a call that may throw. */
  datatype Result<+T> = Ok(value: T) | Throw(error: Exception) {
    predicate IsFailure() { Throw? }

    function PropagateFailure<U>(): Result<U>
      requires Throw?
    {
      Throw(error)
    }

    function Extract(): T
      requires Ok?
    {
      value
    }
  }

  /** Dereferencing a reference that may be null: a null one raises `e`. */
  function Need<T>(x: Option<T>, e: Exception): (r: Result<T>)
    ensures r.Ok? <==> x.Some?
    ensures r.Ok? ==> r.value == x.value
    ensures r.Throw? ==> r.error == e
  {
    if x.None? then Throw(e) else Ok(x.value)
  }

  type byte = b: int | 0 <= b < 256

  /** The range of the C# `int` type. */
  type int32 = x: int | -0x8000_0000 <= x < 0x8000_0000

  /** Two's-complement wrap-around to a C# `int`: what unchecked `int`
      arithmetic yields for the true result `x`. */
  function Wrap32(x: int): (y: int32)
    ensures (y - x) % 0x1_0000_0000 == 0
    ensures -0x8000_0000 <= x < 0x8000_0000 ==> y == x
  {
    (x + 0x8000_0000) % 0x1_0000_0000 - 0x8000_0000
  }

  /** The range of the C# `long` type. */
  const LongMin: int := -0x8000_0000_0000_0000
  const LongMax: int := 0x7FFF_FFFF_FFFF_FFFF

  /** `DateTime.MaxValue.Ticks`: the last 100-nanosecond tick of 9999-12-31. */
  const MaxTicks: int := 3_155_378_975_999_999_999

  type Ticks = t: int | 0 <= t <= MaxTicks

  /** A `DateTime`, as its tick count from 0001-01-01. */
  datatype DateTime = DateTime(ticks: Ticks)

  /** `DateTime.Add(TimeSpan)` / `AddTicks`: the result must stay in range. */
  function AddTicks(t: DateTime, value: int): (r: Result<DateTime>)
    ensures r.Ok? <==> 0 <= t.ticks + value <= MaxTicks
    ensures r.Ok? ==> r.value.ticks - t.ticks == value
    ensures r.Throw? ==> r.error == ArgumentOutOfRange("value")
  {
    if 0 <= t.ticks + value <= MaxTicks then Ok(DateTime(t.ticks + value))
    else Throw(ArgumentOutOfRange("value"))
  }

  // ---------------------------------------------------------------------
  // UTF-16: a Dafny `char` is a Unicode scalar value, a .NET `char` is a
  // UTF-16 code unit. `string.Length`, indexing and hashing see the units.

  type Utf16Unit = u: int | 0 <= u < 0x1_0000

  predicate IsHighSurrogate(u: int) { 0xD800 <= u < 0xDC00 }

  predicate IsLowSurrogate(u: int) { 0xDC00 <= u < 0xE000 }

  /** The code units of one character: itself when it lies in the Basic
      Multilingual Plane, otherwise a high and a low surrogate. */
  function Units(c: char): (u: seq<Utf16Unit>)
    ensures |u| == (if c as int < 0x1_0000 then 1 else 2)
    ensures |u| == 1 ==> u[0] == c as int && !IsHighSurrogate(u[0]) && !IsLowSurrogate(u[0])
    ensures |u| == 2 ==> IsHighSurrogate(u[0]) && IsLowSurrogate(u[1])
  {
    var n := c as int;
    if n < 0x1_0000 then [n]
    else
      SurrogateRanges(n);
      [0xD800 + (n - 0x1_0000) / 0x400, 0xDC00 + (n - 0x1_0000) % 0x400]
  }

  lemma SurrogateRanges(n: int)
    requires 0x1_0000 <= n < 0x11_0000
    ensures 0 <= (n - 0x1_0000) / 0x400 < 0x400
    ensures 0x1_0000 + (n - 0x1_0000) / 0x400 * 0x400 + (n - 0x1_0000) % 0x400 == n
  {
  }

  /** A string as .NET stores it: the code units of its characters in order. */
  function Utf16(s: string): (u: seq<Utf16Unit>)
    ensures |u| >= |s|
    ensures (forall i :: 0 <= i < |s| ==> s[i] as int < 0x1_0000) ==> |u| == |s|
    decreases |s|
  {
    if |s| == 0 then [] else Units(s[0]) + Utf16(s[1..])
  }

  /** Reading code units back into characters; an unpaired surrogate is
      malformed. */
  function FromUtf16(u: seq<Utf16Unit>): (r: Option<string>)
    decreases |u|
  {
    if |u| == 0 then Some("")
    else if IsHighSurrogate(u[0]) then
      if |u| >= 2 && IsLowSurrogate(u[1]) then
        var rest :- FromUtf16(u[2..]);
        Some([(0x1_0000 + (u[0] as int - 0xD800) * 0x400 + (u[1] as int - 0xDC00)) as char] + rest)
      else None
    else if IsLowSurrogate(u[0]) then None
    else
      var rest :- FromUtf16(u[1..]);
      Some([u[0] as char] + rest)
  }

  /** The UTF-16 form loses nothing: decoding it gives the string back. */
  lemma {:induction false} Utf16RoundTrip(s: string)
    ensures FromUtf16(Utf16(s)) == Some(s)
    decreases |s|
  {
    if |s| > 0 {
      var u := Utf16(s);
      var head := Units(s[0]);
      Utf16RoundTrip(s[1..]);
      assert u == head + Utf16(s[1..]);
      if |head| == 1 {
        assert u[1..] == Utf16(s[1..]);
        assert u[0] as char == s[0];
        assert FromUtf16(u) == Some([s[0]] + s[1..]);
        assert [s[0]] + s[1..] == s;
      } else {
        SurrogateRanges(s[0] as int);
        assert u[2..] == Utf16(s[1..]);
        assert 0x1_0000 + (u[0] as int - 0xD800) * 0x400 + (u[1] as int - 0xDC00) == s[0] as int;
        assert [s[0]] + s[1..] == s;
      }
    }
  }

  /** `char.IsWhiteSpace`: the Unicode space, line and paragraph separators
      plus U+0009..U+000D and U+0085. */
  predicate IsWhiteSpace(c: char) {
    || ('\t' <= c <= '\r')
    || c == ' ' || c == '\U{0085}' || c == '\U{00A0}' || c == '\U{1680}'
    || ('\U{2000}' <= c <= '\U{200A}')
    || c == '\U{2028}' || c == '\U{2029}' || c == '\U{202F}' || c == '\U{205F}'
    || c == '\U{3000}'
  }

  /** `string.IsNullOrWhiteSpace`. */
  function IsNullOrWhiteSpace(s: Option<string>): (b: bool)
    ensures s.None? || s == Some("") ==> b
    ensures b && s.Some? ==> forall i :: 0 <= i < |s.value| ==> !IsDigit(s.value[i])
  {
    s.None? || forall i :: 0 <= i < |s.value| ==> IsWhiteSpace(s.value[i])
  }

  /** The ASCII digits '0'..'9' (what the framework's patterns are modelled to accept). */
  predicate IsDigit(c: char) { '0' <= c <= '9' }

  predicate AllDigits(s: string) {
    forall i :: 0 <= i < |s| ==> IsDigit(s[i])
  }

  function DigitValue(c: char): nat
    requires IsDigit(c)
  {
    (c as int) - ('0' as int)
  }

  function DigitChar(d: nat): (c: char)
    requires d < 10
    ensures IsDigit(c) && DigitValue(c) == d
  {
    (('0' as int) + d) as char
  }

  /** The value of a string of decimal digits, most significant first. */
  function DecimalValue(s: string): nat
    requires AllDigits(s)
  {
    if |s| == 0 then 0 else 10 * DecimalValue(s[..|s| - 1]) + DigitValue(s[|s| - 1])
  }

  /** The shortest decimal rendering of `n` (what `int.ToString()` yields). */
  function Decimal(n: nat): (s: string)
    ensures |s| > 0 && AllDigits(s)
    decreases n
  {
    if n < 10 then [DigitChar(n)] else Decimal(n / 10) + [DigitChar(n % 10)]
  }

  lemma {:induction false} DecimalRoundTrip(n: nat)
    ensures DecimalValue(Decimal(n)) == n
    decreases n
  {
    var s := Decimal(n);
    if n >= 10 {
      DecimalRoundTrip(n / 10);
      assert s[..|s| - 1] == Decimal(n / 10);
    }
  }

  /** The index of the first occurrence of `c` in `s`, or -1 (`string.IndexOf`). */
  function IndexOf(s: string, c: char): (r: int)
    ensures -1 <= r < |s|
    ensures r == -1 ==> forall j :: 0 <= j < |s| ==> s[j] != c
    ensures r >= 0 ==> s[r] == c && forall j :: 0 <= j < r ==> s[j] != c
  {
    if |s| == 0 then -1
    else if s[0] == c then 0
    else
      var k := IndexOf(s[1..], c);
      if k == -1 then -1 else k + 1
  }

  /** `s.Split(sep)`: the maximal separator-free pieces, empty ones included. */
  function Split(s: string, sep: char): (parts: seq<string>)
    ensures |parts| >= 1
    decreases |s|
  {
    var k := IndexOf(s, sep);
    if k == -1 then [s] else [s[..k]] + Split(s[k + 1..], sep)
  }

  /** `string.Join(sep, parts)`. */
  function Join(parts: seq<string>, sep: char): string
    requires |parts| >= 1
  {
    if |parts| == 1 then parts[0] else parts[0] + [sep] + Join(parts[1..], sep)
  }

  /** Splitting and joining again gives back the original string. */
  lemma {:induction false} JoinSplit(s: string, sep: char)
    ensures Join(Split(s, sep), sep) == s
    decreases |s|
  {
    var k := IndexOf(s, sep);
    if k != -1 {
      SplitStep(s, sep, k);
      JoinSplit(s[k + 1..], sep);
      JoinCons(s[..k], Split(s[k + 1..], sep), sep);
    }
  }

  lemma SplitStep(s: string, sep: char, k: int)
    requires k == IndexOf(s, sep) && k != -1
    ensures Split(s, sep) == [s[..k]] + Split(s[k + 1..], sep)
    ensures s == s[..k] + [sep] + s[k + 1..]
  {
    SplitUnfold(s, sep);
    AroundIndex(s, k);
  }

  lemma SplitUnfold(s: string, sep: char)
    ensures var k := IndexOf(s, sep);
      k != -1 ==> Split(s, sep) == [s[..k]] + Split(s[k + 1..], sep)
  {
  }

  /** The first part leads the joined string, and parts free of the
      separator split back out of it. */
  lemma JoinParts(parts: seq<string>, sep: char)
    requires |parts| >= 1
    ensures parts[0] <= Join(parts, sep)
    ensures (forall i :: 0 <= i < |parts| ==> sep !in parts[i]) ==> Split(Join(parts, sep), sep) == parts
  {
    if |parts| > 1 {
      JoinCons(parts[0], parts[1..], sep);
      assert parts == [parts[0]] + parts[1..];
    }
    if forall i :: 0 <= i < |parts| ==> sep !in parts[i] {
      SplitJoin(parts, sep);
    }
  }

  /** The first piece of a split is a prefix of the string. */
  lemma SplitHeadPrefix(s: string, sep: char)
    ensures Split(s, sep)[0] <= s
  {
    SplitUnfold(s, sep);
  }

  /** No piece of a split contains the separator. */
  lemma {:induction false} SplitPiecesFree(s: string, sep: char)
    ensures forall i :: 0 <= i < |Split(s, sep)| ==> sep !in Split(s, sep)[i]
    decreases |s|
  {
    var k := IndexOf(s, sep);
    if k != -1 {
      SplitUnfold(s, sep);
      SplitPiecesFree(s[k + 1..], sep);
      var rest := Split(s[k + 1..], sep);
      forall i | 0 <= i < |Split(s, sep)| ensures sep !in Split(s, sep)[i] {
        if i > 0 {
          assert Split(s, sep)[i] == rest[i - 1];
        }
      }
    }
  }

  lemma AroundIndex(s: string, k: int)
    requires 0 <= k < |s|
    ensures s == s[..k] + [s[k]] + s[k + 1..]
  {
  }

  lemma JoinCons(p: string, ps: seq<string>, sep: char)
    requires |ps| >= 1
    ensures Join([p] + ps, sep) == p + [sep] + Join(ps, sep)
  {
    assert ([p] + ps)[1..] == ps;
  }

  /** Joining separator-free pieces and splitting again gives back the pieces. */
  lemma {:induction false} SplitJoin(parts: seq<string>, sep: char)
    requires |parts| >= 1
    requires forall i :: 0 <= i < |parts| ==> sep !in parts[i]
    ensures Split(Join(parts, sep), sep) == parts
    decreases |parts|
  {
    var s := Join(parts, sep);
    if |parts| == 1 {
      assert IndexOf(s, sep) == -1;
    } else {
      var rest := Join(parts[1..], sep);
      assert s == parts[0] + [sep] + rest;
      assert s[|parts[0]|] == sep;
      assert s[..|parts[0]|] == parts[0];
      var k := IndexOf(s, sep);
      assert k == |parts[0]|;
      assert s[k + 1..] == rest;
      SplitUnfold(s, sep);
      SplitJoin(parts[1..], sep);
      assert parts == [parts[0]] + parts[1..];
    }
  }
}

=== FILE: date_time_extension.dfy ===
/** `DateTimeExtension`: shifting a local time to China Standard Time
    (UTC+8), and formatting a nullable `DateTime`. */
module DateTimeExtension {
  import opened Clr

  /** `new TimeSpan(8, 0, 0)` in ticks. */
  const EightHours: int := 8 * 3600 * 10_000_000

  /** `ToCNZone`: add the difference between UTC+8 and the machine's base
      UTC offset (`TimeZoneInfo.Local.BaseUtcOffset`, in ticks, a parameter
      here). The shift is the same for every input, so the result is the
      input itself on a UTC+8 machine. */
  function ToCNZone(time: DateTime, baseUtcOffset: int): (r: Result<DateTime>)
    ensures r.Ok? <==> 0 <= time.ticks + EightHours - baseUtcOffset <= MaxTicks
    ensures r.Ok? ==> r.value.ticks - time.ticks == EightHours - baseUtcOffset
    ensures baseUtcOffset == EightHours ==> r == Ok(time)
  {
    AddTicks(time, EightHours - baseUtcOffset)
  }

  /** The shift keeps order, and two inputs collide only if they were equal. */
  lemma ToCNZoneMonotone(t1: DateTime, t2: DateTime, baseUtcOffset: int)
    requires ToCNZone(t1, baseUtcOffset).Ok? && ToCNZone(t2, baseUtcOffset).Ok?
    ensures t1.ticks <= t2.ticks <==> ToCNZone(t1, baseUtcOffset).value.ticks <= ToCNZone(t2, baseUtcOffset).value.ticks
    ensures t1 == t2 <==> ToCNZone(t1, baseUtcOffset) == ToCNZone(t2, baseUtcOffset)
  {
  }

  /** Shifting back by the opposite offset difference restores the input. */
  lemma ToCNZoneInverse(time: DateTime, baseUtcOffset: int)
    requires ToCNZone(time, baseUtcOffset).Ok?
    ensures ToCNZone(ToCNZone(time, baseUtcOffset).value, 2 * EightHours - baseUtcOffset) == Ok(time)
  {
  }

  /** `ToString(this DateTime? time, string format)`: null gives null;
      otherwise the value is formatted by `DateTime.ToString(format)`,
      which is a parameter here and may reject the format. */
  function ToString(time: Option<DateTime>, format: Option<string>,
                    formatter: (DateTime, Option<string>) -> Result<string>)
    : (r: Result<Option<string>>)
    ensures r == Ok(None) <==> time.None?
    ensures time.Some? ==> (r.Ok? <==> formatter(time.value, format).Ok?)
    ensures time.Some? && r.Ok? ==> r.value == Some(formatter(time.value, format).value)
  {
    if time.None? then Ok(None)
    else
      var s :- formatter(time.value, format);
      Ok(Some(s))
  }
}

=== FILE: der.dfy ===
/** The key-header parsers of `EncryptHelper`: an X.509 SubjectPublicKeyInfo
    (section 4.1.2.7 of RFC 5280, rsaEncryption per section 2.3.1 of RFC 3279)
    and a PKCS #1 RSAPrivateKey (Appendix A.1.2 of RFC 8017), read with a
    little-endian `BinaryReader`. The reader is modelled as the sequence of
    bytes not yet consumed. */
module Der {
  import opened Clr

  /** The outcome of one parsing step: a value, a rejection (the C# code
      returns null), or an exception. */
  datatype Parse<+T> = Next(value: T) | Reject | Fail(error: Exception) {
    predicate IsFailure() { !Next? }

    function PropagateFailure<U>(): Parse<U>
      requires !Next?
    {
      if Reject? then Reject else Fail(error)
    }

    function Extract(): T
      requires Next?
    {
      value
    }
  }

  // ---------------------------------------------------------------------
  // BinaryReader

  /** `ReadByte`: one byte, or `EndOfStreamException` at the end. */
  function ReadByte(s: seq<byte>): (r: Parse<(byte, seq<byte>)>)
    ensures |s| == 0 <==> r == Fail(EndOfStream)
    ensures |s| > 0 ==> r == Next((s[0], s[1..]))
  {
    if |s| == 0 then Fail(EndOfStream) else Next((s[0], s[1..]))
  }

  /** `ReadUInt16`: two bytes, least significant first. */
  function ReadUInt16(s: seq<byte>): (r: Parse<(nat, seq<byte>)>)
    ensures |s| < 2 <==> r == Fail(EndOfStream)
    ensures |s| >= 2 ==> r.Next? && r.value.0 % 256 == s[0] && r.value.0 / 256 == s[1] && r.value.1 == s[2..]
  {
    if |s| < 2 then Fail(EndOfStream) else Next((s[0] as int + 256 * s[1] as int, s[2..]))
  }

  /** `ReadInt16`: as `ReadUInt16`, read as a signed value. */
  function ReadInt16(s: seq<byte>): (r: Parse<(int, seq<byte>)>)
    ensures |s| < 2 <==> r == Fail(EndOfStream)
    ensures r.Next? ==> -0x8000 <= r.value.0 < 0x8000 && r.value.1 == s[2..]
  {
    var (u, rest) :- ReadUInt16(s);
    Next((if u >= 0x8000 then u - 0x1_0000 else u, rest))
  }

  /** `ReadBytes(count)`: up to `count` bytes, fewer at the end of the
      stream; a negative count throws. */
  function ReadBytes(s: seq<byte>, count: int): (r: Parse<(seq<byte>, seq<byte>)>)
    ensures count < 0 <==> r == Fail(ArgumentOutOfRange("count"))
    ensures count >= 0 ==> r.Next? && r.value.0 + r.value.1 == s
    ensures 0 <= count <= |s| ==> r.Next? && |r.value.0| == count
    ensures count > |s| ==> r.Next? && r.value.1 == []
  {
    if count < 0 then Fail(ArgumentOutOfRange("count"))
    else if count <= |s| then Next((s[..count], s[count..]))
    else Next((s, []))
  }

  lemma ReadByteOf(a: byte, rest: seq<byte>)
    ensures ReadByte([a] + rest) == Next((a, rest))
  {
    assert ([a] + rest)[1..] == rest;
  }

  lemma ReadUInt16Of(a: byte, b: byte, rest: seq<byte>)
    ensures ReadUInt16([a, b] + rest) == Next((a as int + 256 * b as int, rest))
  {
    assert ([a, b] + rest)[2..] == rest;
  }

  /** `PeekChar() == 0x00`: only a zero byte decodes to the character 0. */
  predicate PeekIsZero(s: seq<byte>) {
    |s| > 0 && s[0] == 0
  }

  // ---------------------------------------------------------------------
  // CompareByteArrays

  /** `CompareByteArrays`: same length, then element by element. */
  method CompareByteArrays(a: seq<byte>, b: seq<byte>) returns (r: bool)
    ensures r <==> a == b
  {
    if |a| != |b| {
      return false;
    }
    var i := 0;
    while i < |a|
      invariant 0 <= i <= |a|
      invariant a[..i] == b[..i]
    {
      if a[i] != b[i] {
        return false;
      }
      assert a[..i + 1] == a[..i] + [a[i]] && b[..i + 1] == b[..i] + [b[i]];
      i := i + 1;
    }
    assert a == a[..i] && b == b[..i];
    return true;
  }

  // ---------------------------------------------------------------------
  // CreateRsaFromPublicKey

  /** The DER encoding of the rsaEncryption AlgorithmIdentifier: OID
      1.2.840.113549.1.1.1 with NULL parameters. */
  const RsaEncryptionAlgorithm: seq<byte> :=
    [0x30, 0x0D, 0x06, 0x09, 0x2A, 0x86, 0x48, 0x86, 0xF7, 0x0D, 0x01, 0x01, 0x01, 0x05, 0x00]

  const SequenceTag: byte := 0x30
  const BitStringTag: byte := 0x03
  const IntegerTag: byte := 0x02

  datatype RsaPublicKey = RsaPublicKey(modulus: seq<byte>, exponent: seq<byte>)

  /** A tag with a long-form length: `tag 81 n` or `tag 82 hi lo`. Only the
      form is checked, the length itself is skipped. Any other pair of
      bytes rejects the key. */
  function SkipLongHeader(s: seq<byte>, tag: byte): (r: Parse<seq<byte>>)
    ensures |s| >= 3 && s[0] == tag && s[1] == 0x81 ==> r == Next(s[3..])
    ensures |s| >= 4 && s[0] == tag && s[1] == 0x82 ==> r == Next(s[4..])
    ensures |s| >= 2 && (s[0] != tag || (s[1] != 0x81 && s[1] != 0x82)) ==> r == Reject
    ensures r.Fail? ==> r.error == EndOfStream
  {
    var (twoBytes, s1) :- ReadUInt16(s);
    if twoBytes == 0x8100 + tag then
      var (_, s2) :- ReadByte(s1);
      Next(s2)
    else if twoBytes == 0x8200 + tag then
      var (_, s2) :- ReadInt16(s1);
      Next(s2)
    else Reject
  }

  /** The outer SEQUENCE header and the algorithm identifier. */
  function ReadAlgorithm(s: seq<byte>): (r: Parse<seq<byte>>)
  {
    var s1 :- SkipLongHeader(s, SequenceTag);
    var (seqOid, s2) := ReadBytes(s1, 15).value;
    if seqOid != RsaEncryptionAlgorithm then Reject else Next(s2)
  }

  /** The BIT STRING header, its zero unused-bits byte, and the header of
      the RSAPublicKey SEQUENCE inside it. */
  function ReadKeyBitString(s: seq<byte>): (r: Parse<seq<byte>>)
  {
    var s1 :- SkipLongHeader(s, BitStringTag);
    var (bt, s2) :- ReadByte(s1);
    if bt != 0x00 then Reject
    else SkipLongHeader(s2, SequenceTag)
  }

  /** The modulus INTEGER: `02 81 n` or `02 82 hi lo`, then the content,
      with one leading zero byte skipped and not counted. */
  function ReadModulus(s: seq<byte>): (r: Parse<(seq<byte>, seq<byte>)>)
  {
    var (twoBytes, s1) :- ReadUInt16(s);
    var (modsize, s2) :-
      if twoBytes == 0x8102 then ReadByte(s1)
      else if twoBytes == 0x8202 then ReadBigEndian16(s1)
      else Reject;
    if PeekIsZero(s2) then ReadBytes(s2[1..], modsize - 1)
    else ReadBytes(s2, modsize)
  }

  /** Two length bytes, most significant first (the C# code assembles
      them little-endian from `lowbyte, highbyte`). */
  function ReadBigEndian16(s: seq<byte>): (r: Parse<(nat, seq<byte>)>)
    ensures |s| < 2 <==> r == Fail(EndOfStream)
    ensures |s| >= 2 ==> r == Next((256 * s[0] as int + s[1] as int, s[2..]))
  {
    var (highbyte, s1) :- ReadByte(s);
    var (lowbyte, s2) :- ReadByte(s1);
    Next((lowbyte as int + 256 * highbyte as int, s2))
  }

  /** The exponent INTEGER: tag `02`, a one-byte length, the content. */
  function ReadExponent(s: seq<byte>): (r: Parse<(seq<byte>, seq<byte>)>)
  {
    var (tag, s1) :- ReadByte(s);
    if tag != IntegerTag then Reject
    else
      var (expBytes, s2) :- ReadByte(s1);
      ReadBytes(s2, expBytes)
  }

  function ParsePublicKey(x509key: seq<byte>): Parse<RsaPublicKey> {
    var s1 :- ReadAlgorithm(x509key);
    var s2 :- ReadKeyBitString(s1);
    var (modulus, s3) :- ReadModulus(s2);
    var (exponent, _) :- ReadExponent(s3);
    Next(RsaPublicKey(modulus, exponent))
  }

  /** `CreateRsaFromPublicKey` on the Base64-decoded key: null when the
      framing is not the expected one, an exception when the stream ends
      early or a length goes negative. */
  function CreateRsaFromPublicKey(x509key: seq<byte>): (r: Result<Option<RsaPublicKey>>)
    ensures |x509key| < 2 ==> r == Throw(EndOfStream)
    ensures |x509key| >= 2 && (x509key[0] != SequenceTag || (x509key[1] != 0x81 && x509key[1] != 0x82))
      ==> r == Ok(None)
  {
    match ParsePublicKey(x509key)
    case Next(key) => Ok(Some(key))
    case Reject => Ok(None)
    case Fail(e) => Throw(e)
  }

  // ---------------------------------------------------------------------
  // CreateRsaFromPrivateKey

  datatype RsaPrivateKey = RsaPrivateKey(
    modulus: seq<byte>, exponent: seq<byte>, d: seq<byte>, p: seq<byte>,
    q: seq<byte>, dp: seq<byte>, dq: seq<byte>, inverseQ: seq<byte>)

  /** The zero bytes `GetIntegerSize` skips, one off the count each; the
      first non-zero byte is left unread. */
  function SkipZeros(s: seq<byte>, count: int): (r: Parse<(int, seq<byte>)>)
    ensures r.Fail? <==> forall i :: 0 <= i < |s| ==> s[i] == 0
    ensures r.Fail? ==> r.error == EndOfStream
    ensures r.Next? ==> |r.value.1| > 0 && r.value.1[0] != 0
    ensures r.Next? ==> |r.value.1| <= |s| && count - r.value.0 == |s| - |r.value.1|
    ensures r.Next? ==> r.value.1 == s[|s| - |r.value.1|..] && forall i :: 0 <= i < |s| - |r.value.1| ==> s[i] == 0
    ensures !r.Reject?
    decreases |s|
  {
    if |s| == 0 then Fail(EndOfStream)
    else if s[0] == 0 then SkipZeros(s[1..], count - 1)
    else Next((count, s))
  }

  /** `GetIntegerSize`: 0 (one byte consumed) when the tag is not INTEGER;
      otherwise the content length in short form, `81 n` or `82 hi lo`,
      less one per leading zero byte skipped. */
  function GetIntegerSize(s: seq<byte>): (r: Parse<(int, seq<byte>)>)
    ensures |s| == 0 ==> r == Fail(EndOfStream)
    ensures |s| > 0 && s[0] != IntegerTag ==> r == Next((0, s[1..]))
    ensures |s| > 0 && s[0] == IntegerTag && r.Next? ==> |r.value.1| > 0 && r.value.1[0] != 0
    ensures !r.Reject?
  {
    var (bt, s1) :- ReadByte(s);
    if bt != IntegerTag then Next((0, s1))
    else
      var (lengthByte, s2) :- ReadByte(s1);
      var (count, s3) :-
        if lengthByte == 0x81 then ReadByte(s2)
        else if lengthByte == 0x82 then ReadBigEndian16(s2)
        else Next((lengthByte, s2));
      SkipZeros(s3, count)
  }

  /** One INTEGER field: `ReadBytes(GetIntegerSize())`. */
  function ReadField(s: seq<byte>): (r: Parse<(seq<byte>, seq<byte>)>)
    ensures !r.Reject?
  {
    var (size, s1) :- GetIntegerSize(s);
    ReadBytes(s1, size)
  }

  /** The SEQUENCE header and the version field `02 01 00`. */
  function ReadPrivateHeader(s: seq<byte>): (r: Parse<seq<byte>>)
    ensures |s| < 2 ==> r == Fail(EndOfStream)
    ensures |s| >= 2 && (s[0] != SequenceTag || (s[1] != 0x81 && s[1] != 0x82))
      ==> r == Fail(General("Unexpected value read binr.ReadUInt16()"))
    ensures !r.Reject?
  {
    var (twoBytes, s1) :- ReadUInt16(s);
    var s2 :-
      if twoBytes == 0x8130 then
        var (_, t) :- ReadByte(s1); Next(t)
      else if twoBytes == 0x8230 then
        var (_, t) :- ReadInt16(s1); Next(t)
      else Fail(General("Unexpected value read binr.ReadUInt16()"));
    var (version, s3) :- ReadUInt16(s2);
    if version != 0x0102 then Fail(General("Unexpected version"))
    else
      var (bt, s4) :- ReadByte(s3);
      if bt != 0x00 then Fail(General("Unexpected value read binr.ReadByte()"))
      else Next(s4)
  }

  function ParsePrivateKey(s: seq<byte>): (r: Parse<RsaPrivateKey>)
    ensures ReadPrivateHeader(s).Fail? ==> r == Fail(ReadPrivateHeader(s).error)
    ensures !r.Reject?
  {
    var s0 :- ReadPrivateHeader(s);
    var (modulus, s1) :- ReadField(s0);
    var (exponent, s2) :- ReadField(s1);
    var (d, s3) :- ReadField(s2);
    var (p, s4) :- ReadField(s3);
    var (q, s5) :- ReadField(s4);
    var (dp, s6) :- ReadField(s5);
    var (dq, s7) :- ReadField(s6);
    var (inverseQ, _) :- ReadField(s7);
    Next(RsaPrivateKey(modulus, exponent, d, p, q, dp, dq, inverseQ))
  }

  /** `CreateRsaFromPrivateKey` on the Base64-decoded key: every framing
      error is an exception. */
  function CreateRsaFromPrivateKey(privateKey: seq<byte>): (r: Result<RsaPrivateKey>)
    ensures |privateKey| < 2 ==> r == Throw(EndOfStream)
    ensures |privateKey| >= 2 && (privateKey[0] != SequenceTag || (privateKey[1] != 0x81 && privateKey[1] != 0x82))
      ==> r == Throw(General("Unexpected value read binr.ReadUInt16()"))
  {
    var parsed := ParsePrivateKey(privateKey);
    if parsed.Next? then Ok(parsed.value) else Throw(parsed.error)
  }
}

=== FILE: der_encoding.dfy ===
/** DER encodings of the two RSA key structures, used as the reference the
    `EncryptHelper` parsers are checked against: parsing an encoded key
    gives back its fields, and the framings the parsers refuse are the ones
    the encoder never produces. */
module DerEncoding {
  import opened Clr
  import opened Der

  /** Definite-form length octets, section 8.1.3 of ITU-T X.690: short form
      below 128, otherwise the fewest big-endian octets after 0x80 | count. */
  function DerLength(n: nat): (b: seq<byte>)
    requires n < 0x1_0000
    ensures n < 128 ==> b == [n]
    ensures 128 <= n < 256 ==> b == [0x81, n]
    ensures 256 <= n ==> b == [0x82, n / 256, n % 256]
  {
    if n < 128 then [n] else if n < 256 then [0x81, n] else [0x82, n / 256, n % 256]
  }

  /** A tag-length-value triple. */
  function Tlv(tag: byte, content: seq<byte>): (b: seq<byte>)
    requires |content| < 0x1_0000
    ensures |content| + 2 <= |b| <= |content| + 4
  {
    [tag] + DerLength(|content|) + content
  }

  /** A minimal big-endian magnitude: no leading zero byte. */
  predicate Magnitude(m: seq<byte>) {
    |m| > 0 && m[0] != 0
  }

  /** The content octets of a positive INTEGER (section 8.3 of ITU-T X.690):
      a zero byte is prepended when the top bit is set. */
  function IntegerContent(m: seq<byte>): (c: seq<byte>)
    requires Magnitude(m)
    ensures |m| <= |c| <= |m| + 1
  {
    if m[0] >= 0x80 then [0] + m else m
  }

  function IntegerTlv(m: seq<byte>): seq<byte>
    requires Magnitude(m) && |m| < 0xFFFF
  {
    Tlv(IntegerTag, IntegerContent(m))
  }

  // ---------------------------------------------------------------------
  // SubjectPublicKeyInfo

  /** Sizes the public-key parser can frame: a modulus long enough for
      long-form lengths (1024 bits and more) and an exponent whose length
      fits the one byte the parser reads. */
  predicate PublicKeyEncodable(m: seq<byte>, e: seq<byte>) {
    Magnitude(m) && 128 <= |m| <= 60000 && |e| < 128
  }

  function SubjectPublicKeyInfo(m: seq<byte>, e: seq<byte>): seq<byte>
    requires PublicKeyEncodable(m, e)
  {
    var rsaKey := Tlv(SequenceTag, IntegerTlv(m) + Tlv(IntegerTag, e));
    Tlv(SequenceTag, RsaEncryptionAlgorithm + Tlv(BitStringTag, [0] + rsaKey))
  }

  /** A long-form header is skipped whatever its length octets say. */
  lemma LongHeaderOf(tag: byte, c: seq<byte>, rest: seq<byte>)
    requires 128 <= |c| < 0x1_0000
    ensures SkipLongHeader(Tlv(tag, c) + rest, tag) == Next(c + rest)
  {
    var s := Tlv(tag, c) + rest;
    if |c| < 256 {
      assert s == [tag, 0x81, |c|] + (c + rest);
    } else {
      assert s == [tag, 0x82, |c| / 256, |c| % 256] + (c + rest);
    }
  }

  lemma AlgorithmOf(x: seq<byte>, rest: seq<byte>)
    requires 128 <= |RsaEncryptionAlgorithm + x| < 0x1_0000
    ensures ReadAlgorithm(Tlv(SequenceTag, RsaEncryptionAlgorithm + x) + rest) == Next(x + rest)
  {
    LongHeaderOf(SequenceTag, RsaEncryptionAlgorithm + x, rest);
    var s1 := RsaEncryptionAlgorithm + x + rest;
    assert s1[..15] == RsaEncryptionAlgorithm && s1[15..] == x + rest;
  }

  lemma BitStringOf(inner: seq<byte>, rest: seq<byte>)
    requires 128 <= |inner| && |inner| + 5 < 0x1_0000
    ensures ReadKeyBitString(Tlv(BitStringTag, [0] + Tlv(SequenceTag, inner)) + rest) == Next(inner + rest)
  {
    var bits := [0] + Tlv(SequenceTag, inner);
    LongHeaderOf(BitStringTag, bits, rest);
    assert bits + rest == [0] + (Tlv(SequenceTag, inner) + rest);
    LongHeaderOf(SequenceTag, inner, rest);
  }

  /** The modulus comes back without the sign byte DER adds. */
  lemma ModulusOf(m: seq<byte>, rest: seq<byte>)
    requires Magnitude(m) && 128 <= |m| < 0xFFFF
    ensures ReadModulus(IntegerTlv(m) + rest) == Next((m, rest))
  {
    var c := IntegerContent(m);
    var n := |c|;
    var afterLength := c + rest;
    if n < 256 {
      assert IntegerTlv(m) + rest == [IntegerTag, 0x81] + ([n] + afterLength);
      ReadUInt16Of(IntegerTag, 0x81, [n] + afterLength);
      ReadByteOf(n, afterLength);
    } else {
      var lengthBytes := [n / 256, n % 256];
      assert IntegerTlv(m) + rest == [IntegerTag, 0x82] + (lengthBytes + afterLength);
      ReadUInt16Of(IntegerTag, 0x82, lengthBytes + afterLength);
      assert (lengthBytes + afterLength)[2..] == afterLength;
    }
    ModulusContentOf(m, rest);
  }

  lemma ModulusContentOf(m: seq<byte>, rest: seq<byte>)
    requires Magnitude(m)
    ensures var c := IntegerContent(m);
      (if PeekIsZero(c + rest) then ReadBytes((c + rest)[1..], |c| - 1) else ReadBytes(c + rest, |c|))
      == Next((m, rest))
  {
    var c := IntegerContent(m);
    if m[0] >= 0x80 {
      assert (c + rest)[1..] == m + rest;
    }
    assert (m + rest)[..|m|] == m && (m + rest)[|m|..] == rest;
  }

  lemma ExponentOf(e: seq<byte>, rest: seq<byte>)
    requires |e| < 128
    ensures ReadExponent(Tlv(IntegerTag, e) + rest) == Next((e, rest))
  {
    var s := Tlv(IntegerTag, e) + rest;
    assert s == [IntegerTag, |e|] + (e + rest);
    assert (e + rest)[..|e|] == e && (e + rest)[|e|..] == rest;
  }

  lemma ParsePublicKeyOf(s: seq<byte>, s1: seq<byte>, s2: seq<byte>, m: seq<byte>, s3: seq<byte>,
                         e: seq<byte>, s4: seq<byte>)
    requires ReadAlgorithm(s) == Next(s1) && ReadKeyBitString(s1) == Next(s2)
    requires ReadModulus(s2) == Next((m, s3)) && ReadExponent(s3) == Next((e, s4))
    ensures CreateRsaFromPublicKey(s) == Ok(Some(RsaPublicKey(m, e)))
  {
  }

  /** Parsing an encoded SubjectPublicKeyInfo yields its modulus and
      exponent, whatever follows it. */
  lemma PublicKeyRoundTrip(m: seq<byte>, e: seq<byte>, rest: seq<byte>)
    requires PublicKeyEncodable(m, e)
    ensures CreateRsaFromPublicKey(SubjectPublicKeyInfo(m, e) + rest) == Ok(Some(RsaPublicKey(m, e)))
  {
    var modField := IntegerTlv(m);
    var expField := Tlv(IntegerTag, e);
    ModulusOf(m, expField + rest);
    ExponentOf(e, rest);
    PublicFraming(modField, expField, rest, m, e);
  }

  lemma Associative(a: seq<byte>, b: seq<byte>, c: seq<byte>)
    ensures (a + b) + c == a + (b + c)
  {
  }

  /** The outer framing around an already-encoded modulus and exponent. */
  lemma PublicFraming(modField: seq<byte>, expField: seq<byte>, rest: seq<byte>, m: seq<byte>, e: seq<byte>)
    requires 128 <= |modField| <= 60010 && |expField| <= 130
    requires ReadModulus(modField + (expField + rest)) == Next((m, expField + rest))
    requires ReadExponent(expField + rest) == Next((e, rest))
    ensures CreateRsaFromPublicKey(
      Tlv(SequenceTag, RsaEncryptionAlgorithm + Tlv(BitStringTag, [0] + Tlv(SequenceTag, modField + expField))) + rest)
      == Ok(Some(RsaPublicKey(m, e)))
  {
    var inner := modField + expField;
    assert |inner| <= 60140;
    var bitString := Tlv(BitStringTag, [0] + Tlv(SequenceTag, inner));
    assert |bitString| <= 60150;
    AlgorithmOf(bitString, rest);
    BitStringOf(inner, rest);
    Associative(modField, expField, rest);
    ParsePublicKeyOf(Tlv(SequenceTag, RsaEncryptionAlgorithm + bitString) + rest,
                     bitString + rest, inner + rest, m, expField + rest, e, rest);
  }

  /** A key whose algorithm identifier is not rsaEncryption is refused. */
  lemma OtherAlgorithmRejected(alg: seq<byte>, x: seq<byte>, rest: seq<byte>)
    requires |alg| == 15 && alg != RsaEncryptionAlgorithm
    requires 128 <= |alg + x| < 0x1_0000
    ensures CreateRsaFromPublicKey(Tlv(SequenceTag, alg + x) + rest) == Ok(None)
  {
    LongHeaderOf(SequenceTag, alg + x, rest);
    var s1 := alg + x + rest;
    assert s1[..15] == alg;
  }

  /** A key short enough for a short-form outer length is refused, although
      it is valid DER. */
  lemma ShortFormRejected(c: seq<byte>, rest: seq<byte>)
    requires |c| < 128
    ensures CreateRsaFromPublicKey(Tlv(SequenceTag, c) + rest) == Ok(None)
  {
    var s := Tlv(SequenceTag, c) + rest;
    assert s[0] == SequenceTag && s[1] == |c|;
  }

  // ---------------------------------------------------------------------
  // RSAPrivateKey

  /** `GetIntegerSize` on an encoded INTEGER: the magnitude's length, with
      the reader left on its first byte. */
  lemma IntegerSizeOf(m: seq<byte>, rest: seq<byte>)
    requires Magnitude(m) && |m| < 0xFFFF
    ensures GetIntegerSize(IntegerTlv(m) + rest) == Next((|m|, m + rest))
  {
    var c := IntegerContent(m);
    Associative([IntegerTag] + DerLength(|c|), c, rest);
    IntegerLengthOf(|c|, c + rest);
    SignByteSkipped(m, rest);
  }

  /** The tag and length octets, in each of the three forms. */
  lemma IntegerLengthOf(n: nat, after: seq<byte>)
    requires n < 0x1_0000
    ensures GetIntegerSize([IntegerTag] + DerLength(n) + after) == SkipZeros(after, n)
  {
    if n < 128 {
      ShortLengthOf(n, after);
    } else if n < 256 {
      LongLength1Of(n, after);
    } else {
      LongLength2Of(n, after);
    }
  }

  lemma ShortLengthOf(n: nat, after: seq<byte>)
    requires n < 128
    ensures GetIntegerSize([IntegerTag] + DerLength(n) + after) == SkipZeros(after, n)
  {
    assert [IntegerTag] + DerLength(n) + after == [IntegerTag] + ([n] + after);
    ReadByteOf(IntegerTag, [n] + after);
    ReadByteOf(n, after);
  }

  lemma LongLength1Of(n: nat, after: seq<byte>)
    requires 128 <= n < 256
    ensures GetIntegerSize([IntegerTag] + DerLength(n) + after) == SkipZeros(after, n)
  {
    assert [IntegerTag] + DerLength(n) + after == [IntegerTag] + ([0x81] + ([n] + after));
    ReadByteOf(IntegerTag, [0x81] + ([n] + after));
    ReadByteOf(0x81, [n] + after);
    ReadByteOf(n, after);
  }

  lemma LongLength2Of(n: nat, after: seq<byte>)
    requires 256 <= n < 0x1_0000
    ensures GetIntegerSize([IntegerTag] + DerLength(n) + after) == SkipZeros(after, n)
  {
    var lengthBytes := [n / 256, n % 256];
    assert [IntegerTag] + DerLength(n) + after == [IntegerTag] + ([0x82] + (lengthBytes + after));
    ReadByteOf(IntegerTag, [0x82] + (lengthBytes + after));
    ReadByteOf(0x82, lengthBytes + after);
    assert (lengthBytes + after)[2..] == after;
  }

  /** The zero sign byte, if any, is skipped and not counted. */
  lemma SignByteSkipped(m: seq<byte>, rest: seq<byte>)
    requires Magnitude(m)
    ensures SkipZeros(IntegerContent(m) + rest, |IntegerContent(m)|) == Next((|m|, m + rest))
  {
    var c := IntegerContent(m);
    if m[0] >= 0x80 {
      assert c + rest == [0] + (m + rest);
      assert (c + rest)[1..] == m + rest;
    }
  }

  lemma FieldOf(m: seq<byte>, rest: seq<byte>)
    requires Magnitude(m) && |m| < 0xFFFF
    ensures ReadField(IntegerTlv(m) + rest) == Next((m, rest))
  {
    IntegerSizeOf(m, rest);
    assert (m + rest)[..|m|] == m && (m + rest)[|m|..] == rest;
  }

  predicate Encodable(m: seq<byte>) {
    Magnitude(m) && |m| < 0xFFFF
  }

  predicate FieldsEncodable(k: RsaPrivateKey) {
    && Encodable(k.modulus) && Encodable(k.exponent) && Encodable(k.d) && Encodable(k.p)
    && Encodable(k.q) && Encodable(k.dp) && Encodable(k.dq) && Encodable(k.inverseQ)
  }

  /** The eight INTEGER fields in the order of Appendix A.1.2 of RFC 8017. */
  function FieldsDer(k: RsaPrivateKey): seq<byte>
    requires FieldsEncodable(k)
  {
    IntegerTlv(k.modulus) + (IntegerTlv(k.exponent) + (IntegerTlv(k.d) + (IntegerTlv(k.p) +
      (IntegerTlv(k.q) + (IntegerTlv(k.dp) + (IntegerTlv(k.dq) + IntegerTlv(k.inverseQ)))))))
  }

  /** The SEQUENCE content: version 0, then the fields. */
  function PrivateKeyContent(k: RsaPrivateKey): seq<byte>
    requires FieldsEncodable(k)
  {
    [IntegerTag, 1, 0] + FieldsDer(k)
  }

  /** Keys the private-key parser can frame: a long-form outer length. */
  predicate PrivateKeyEncodable(k: RsaPrivateKey) {
    FieldsEncodable(k) && 128 <= |PrivateKeyContent(k)| < 0x1_0000
  }

  function RsaPrivateKeyDer(k: RsaPrivateKey): seq<byte>
    requires PrivateKeyEncodable(k)
  {
    Tlv(SequenceTag, PrivateKeyContent(k))
  }

  lemma PrivateHeaderOf(k: RsaPrivateKey)
    requires PrivateKeyEncodable(k)
    ensures ReadPrivateHeader(RsaPrivateKeyDer(k)) == Next(FieldsDer(k))
  {
    HeaderOf(PrivateKeyContent(k), FieldsDer(k));
  }

  lemma HeaderOf(c: seq<byte>, tail: seq<byte>)
    requires 128 <= |c| < 0x1_0000 && c == [IntegerTag, 1, 0] + tail
    ensures ReadPrivateHeader(Tlv(SequenceTag, c)) == Next(tail)
  {
    var der := Tlv(SequenceTag, c);
    if |c| < 256 {
      assert der == [SequenceTag, 0x81] + ([|c|] + ([IntegerTag, 1, 0] + tail));
      VersionOf(true, [|c|], tail);
    } else {
      assert der == [SequenceTag, 0x82] + ([|c| / 256, |c| % 256] + ([IntegerTag, 1, 0] + tail));
      VersionOf(false, [|c| / 256, |c| % 256], tail);
    }
  }

  /** The header bytes `30 81 n` or `30 82 hi lo` and `02 01 00`. */
  lemma VersionOf(short: bool, lengthBytes: seq<byte>, tail: seq<byte>)
    requires |lengthBytes| == if short then 1 else 2
    ensures ReadPrivateHeader([SequenceTag, if short then 0x81 else 0x82] + (lengthBytes + ([IntegerTag, 1, 0] + tail)))
         == Next(tail)
  {
    var afterSeq := [IntegerTag, 1] + ([0] + tail);
    assert lengthBytes + ([IntegerTag, 1, 0] + tail) == lengthBytes + afterSeq;
    ReadUInt16Of(SequenceTag, if short then 0x81 else 0x82, lengthBytes + afterSeq);
    if short {
      ReadByteOf(lengthBytes[0], afterSeq);
      assert lengthBytes + afterSeq == [lengthBytes[0]] + afterSeq;
    } else {
      assert (lengthBytes + afterSeq)[2..] == afterSeq;
    }
    ReadUInt16Of(IntegerTag, 1, [0] + tail);
    ReadByteOf(0, tail);
  }

  lemma ParsePrivateKeyOf(s: seq<byte>, t0: seq<byte>, t1: seq<byte>, t2: seq<byte>, t3: seq<byte>,
                          t4: seq<byte>, t5: seq<byte>, t6: seq<byte>, t7: seq<byte>, t8: seq<byte>,
                          k: RsaPrivateKey)
    requires ReadPrivateHeader(s) == Next(t0)
    requires ReadField(t0) == Next((k.modulus, t1)) && ReadField(t1) == Next((k.exponent, t2))
    requires ReadField(t2) == Next((k.d, t3)) && ReadField(t3) == Next((k.p, t4))
    requires ReadField(t4) == Next((k.q, t5)) && ReadField(t5) == Next((k.dp, t6))
    requires ReadField(t6) == Next((k.dq, t7)) && ReadField(t7) == Next((k.inverseQ, t8))
    ensures CreateRsaFromPrivateKey(s) == Ok(k)
  {
  }

  /** Parsing an encoded RSAPrivateKey yields its eight fields in order. */
  lemma PrivateKeyRoundTrip(k: RsaPrivateKey)
    requires PrivateKeyEncodable(k)
    ensures CreateRsaFromPrivateKey(RsaPrivateKeyDer(k)) == Ok(k)
  {
    PrivateHeaderOf(k);
    var t7 := IntegerTlv(k.inverseQ);
    var t6 := IntegerTlv(k.dq) + t7;
    var t5 := IntegerTlv(k.dp) + t6;
    var t4 := IntegerTlv(k.q) + t5;
    var t3 := IntegerTlv(k.p) + t4;
    var t2 := IntegerTlv(k.d) + t3;
    var t1 := IntegerTlv(k.exponent) + t2;
    FieldOf(k.modulus, t1);
    FieldOf(k.exponent, t2);
    FieldOf(k.d, t3);
    FieldOf(k.p, t4);
    FieldOf(k.q, t5);
    FieldOf(k.dp, t6);
    FieldOf(k.dq, t7);
    FieldOf(k.inverseQ, []);
    assert t7 + [] == t7;
    ParsePrivateKeyOf(RsaPrivateKeyDer(k), FieldsDer(k), t1, t2, t3, t4, t5, t6, t7, [], k);
  }

  /** A private key with a short-form outer length is refused with the
      header exception. */
  lemma PrivateShortFormThrows(c: seq<byte>, rest: seq<byte>)
    requires |c| < 128
    ensures CreateRsaFromPrivateKey(Tlv(SequenceTag, c) + rest)
         == Throw(General("Unexpected value read binr.ReadUInt16()"))
  {
    var s := Tlv(SequenceTag, c) + rest;
    assert s[0] == SequenceTag && s[1] == |c|;
  }
}

=== FILE: encrypt_helper.dfy ===
/** The AES and DES entry points of `EncryptHelper`: argument guards and
    the data path between text, bytes and Base64. The ciphers, UTF-8 and
    Base64 themselves are library calls and appear as a record of
    uninterpreted functions. */
module EncryptHelper {
  import opened Clr

  datatype Primitives = Primitives(
    utf8: string -> seq<byte>,
    utf8Decode: seq<byte> -> string,
    toBase64: seq<byte> -> string,
    fromBase64: string -> seq<byte>,
    aesEncrypt: (seq<byte>, seq<byte>) -> seq<byte>,
    aesDecrypt: (seq<byte>, seq<byte>) -> seq<byte>,
    desEncrypt: (seq<byte>, seq<byte>, seq<byte>) -> seq<byte>,
    desDecrypt: (seq<byte>, seq<byte>, seq<byte>) -> seq<byte>)

  /** What the library promises: each decoder undoes its encoder, each
      decryptor its encryptor under the same key (and IV). */
  ghost predicate Lawful(p: Primitives) {
    && (forall s :: p.utf8Decode(p.utf8(s)) == s)
    && (forall b :: p.fromBase64(p.toBase64(b)) == b)
    && (forall k, b :: p.aesDecrypt(k, p.aesEncrypt(k, b)) == b)
    && (forall k, iv, b :: p.desDecrypt(k, iv, p.desEncrypt(k, iv, b)) == b)
  }

  /** `key?.Length != 32` rejects null and every other length. `Length`
      counts UTF-16 units, so a supplementary character counts twice. */
  predicate ValidAesKey(key: Option<string>) {
    key.Some? && |Utf16(key.value)| == 32
  }

  /** Likewise `key?.Length != 8` and `iv?.Length != 8` for DES. */
  predicate ValidDesKey(key: Option<string>) {
    key.Some? && |Utf16(key.value)| == 8
  }

  /** `AesEncrypt`: the key is checked before the text; ECB with PKCS7
      padding, Base64 out. */
  function AesEncrypt(p: Primitives, rawText: Option<string>, key: Option<string>): (r: Result<Option<string>>)
    ensures !ValidAesKey(key) <==> r == Throw(Argument("key"))
    ensures ValidAesKey(key) ==> (r == Ok(None) <==> rawText.None?)
  {
    if !ValidAesKey(key) then Throw(Argument("key"))
    else if rawText.None? then Ok(None)
    else Ok(Some(p.toBase64(p.aesEncrypt(p.utf8(key.value), p.utf8(rawText.value)))))
  }

  /** `AesDecrypt` as written: the decryptor is fed the UTF-8 bytes of the
      Base64 text, not the bytes it encodes. */
  function AesDecrypt(p: Primitives, encryptText: Option<string>, key: Option<string>): (r: Result<Option<string>>)
    ensures !ValidAesKey(key) <==> r == Throw(Argument("key"))
    ensures ValidAesKey(key) ==> (r == Ok(None) <==> encryptText.None?)
  {
    if !ValidAesKey(key) then Throw(Argument("key"))
    else if encryptText.None? then Ok(None)
    else Ok(Some(p.utf8Decode(p.aesDecrypt(p.utf8(key.value), p.utf8(encryptText.value)))))
  }

  /** `AesDecrypt` with the Base64 decoding the encryptor's output needs. */
  function AesDecryptBase64(p: Primitives, encryptText: Option<string>, key: Option<string>)
    : (r: Result<Option<string>>)
    ensures !ValidAesKey(key) <==> r == Throw(Argument("key"))
    ensures ValidAesKey(key) ==> (r == Ok(None) <==> encryptText.None?)
  {
    if !ValidAesKey(key) then Throw(Argument("key"))
    else if encryptText.None? then Ok(None)
    else Ok(Some(p.utf8Decode(p.aesDecrypt(p.utf8(key.value), p.fromBase64(encryptText.value)))))
  }

  /** The DES guards: key, then IV, then the null text. */
  function DesGuard(text: Option<string>, key: Option<string>, iv: Option<string>): (r: Option<Result<Option<string>>>)
    ensures r == None <==> ValidDesKey(key) && ValidDesKey(iv) && text.Some?
    ensures !ValidDesKey(key) ==> r == Some(Throw(Argument("key")))
    ensures ValidDesKey(key) && !ValidDesKey(iv) ==> r == Some(Throw(Argument("iv")))
    ensures ValidDesKey(key) && ValidDesKey(iv) && text.None? ==> r == Some(Ok(None))
  {
    if !ValidDesKey(key) then Some(Throw(Argument("key")))
    else if !ValidDesKey(iv) then Some(Throw(Argument("iv")))
    else if text.None? then Some(Ok(None))
    else None
  }

  /** `DesEncrypt`: CBC with the given IV, Base64 out. */
  function DesEncrypt(p: Primitives, rawText: Option<string>, key: Option<string>, iv: Option<string>)
    : (r: Result<Option<string>>)
    ensures DesGuard(rawText, key, iv).Some? ==> r == DesGuard(rawText, key, iv).value
    ensures DesGuard(rawText, key, iv).None? ==> r.Ok? && r.value.Some?
  {
    var guard := DesGuard(rawText, key, iv);
    if guard.Some? then guard.value
    else Ok(Some(p.toBase64(p.desEncrypt(p.utf8(key.value), p.utf8(iv.value), p.utf8(rawText.value)))))
  }

  /** `DesDecrypt` as written: the UTF-8 bytes of the Base64 text go in and
      the plaintext comes out Base64-encoded. */
  function DesDecrypt(p: Primitives, encryptText: Option<string>, key: Option<string>, iv: Option<string>)
    : (r: Result<Option<string>>)
    ensures DesGuard(encryptText, key, iv).Some? ==> r == DesGuard(encryptText, key, iv).value
    ensures DesGuard(encryptText, key, iv).None? ==> r.Ok? && r.value.Some?
  {
    var guard := DesGuard(encryptText, key, iv);
    if guard.Some? then guard.value
    else Ok(Some(p.toBase64(p.desDecrypt(p.utf8(key.value), p.utf8(iv.value), p.utf8(encryptText.value)))))
  }

  /** `DesDecrypt` decoding its input from Base64 and its output as UTF-8. */
  function DesDecryptBase64(p: Primitives, encryptText: Option<string>, key: Option<string>, iv: Option<string>)
    : (r: Result<Option<string>>)
    ensures DesGuard(encryptText, key, iv).Some? ==> r == DesGuard(encryptText, key, iv).value
    ensures DesGuard(encryptText, key, iv).None? ==> r.Ok? && r.value.Some?
  {
    var guard := DesGuard(encryptText, key, iv);
    if guard.Some? then guard.value
    else Ok(Some(p.utf8Decode(p.desDecrypt(p.utf8(key.value), p.utf8(iv.value), p.fromBase64(encryptText.value)))))
  }

  // ---------------------------------------------------------------------
  // Laws

  /** The guards do not look at the text: whether a call throws depends on
      the key (and IV) alone, and is the same for both directions. */
  lemma GuardsIgnoreText(t1: Option<string>, t2: Option<string>, key: Option<string>, iv: Option<string>, p: Primitives)
    ensures AesEncrypt(p, t1, key).Throw? <==> AesDecrypt(p, t2, key).Throw?
    ensures DesEncrypt(p, t1, key, iv).Throw? <==> DesDecrypt(p, t2, key, iv).Throw?
  {
  }

  /** With lawful primitives, the Base64-decoding decryptor inverts `AesEncrypt`. */
  lemma AesRoundTrip(p: Primitives, text: string, key: Option<string>)
    requires Lawful(p) && ValidAesKey(key)
    ensures AesDecryptBase64(p, AesEncrypt(p, Some(text), key).value, key) == Ok(Some(text))
  {
    var k := p.utf8(key.value);
    var b := p.aesEncrypt(k, p.utf8(text));
    assert p.fromBase64(p.toBase64(b)) == b;
    assert p.aesDecrypt(k, b) == p.utf8(text);
  }

  lemma DesRoundTrip(p: Primitives, text: string, key: Option<string>, iv: Option<string>)
    requires Lawful(p) && ValidDesKey(key) && ValidDesKey(iv)
    ensures DesDecryptBase64(p, DesEncrypt(p, Some(text), key, iv).value, key, iv) == Ok(Some(text))
  {
    var k, v := p.utf8(key.value), p.utf8(iv.value);
    var b := p.desEncrypt(k, v, p.utf8(text));
    assert p.fromBase64(p.toBase64(b)) == b;
    assert p.desDecrypt(k, v, b) == p.utf8(text);
  }

  // ---------------------------------------------------------------------
  // A lawful instance on which the as-written decryptors fail

  /** Each character as three bytes of its code point. */
  function ToyUtf8(s: string): (b: seq<byte>)
    ensures |b| == 3 * |s|
    decreases |s|
  {
    if |s| == 0 then []
    else var c := s[0] as int; [c / 65536, c / 256 % 256, c % 256] + ToyUtf8(s[1..])
  }

  predicate IsScalar(n: int) {
    (0 <= n < 0xD800) || (0xE000 <= n < 0x11_0000)
  }

  function ToyUtf8Decode(b: seq<byte>): string
    decreases |b|
  {
    if |b| < 3 then ""
    else
      var n := b[0] as int * 65536 + b[1] as int * 256 + b[2] as int;
      [if IsScalar(n) then n as char else '?'] + ToyUtf8Decode(b[3..])
  }

  lemma {:induction false} ToyUtf8RoundTrip(s: string)
    ensures ToyUtf8Decode(ToyUtf8(s)) == s
    decreases |s|
  {
    if |s| > 0 {
      var c := s[0] as int;
      var b := ToyUtf8(s);
      assert b[3..] == ToyUtf8(s[1..]);
      assert b[0] as int * 65536 + b[1] as int * 256 + b[2] as int == c;
      ToyUtf8RoundTrip(s[1..]);
    }
  }

  /** One character per byte, offset into the printable range. */
  function ToyBase64(b: seq<byte>): string {
    seq(|b|, i requires 0 <= i < |b| => (b[i] as int + 65) as char)
  }

  function ToyFromBase64(t: string): seq<byte> {
    seq(|t|, i requires 0 <= i < |t| => (t[i] as int - 65) % 256)
  }

  function Toy(): Primitives {
    Primitives(
      s => ToyUtf8(s), b => ToyUtf8Decode(b),
      b => ToyBase64(b), t => ToyFromBase64(t),
      (k, b) => b, (k, b) => b,
      (k, v, b) => b, (k, v, b) => b)
  }

  lemma ToyIsLawful()
    ensures Lawful(Toy())
  {
    forall s: string ensures ToyUtf8Decode(ToyUtf8(s)) == s {
      ToyUtf8RoundTrip(s);
    }
    forall b: seq<byte> ensures ToyFromBase64(ToyBase64(b)) == b {
    }
  }

  const AesKey: string := "0123456789abcdef0123456789abcdef"
  const DesKey: string := "01234567"

  /** Both sample keys are ASCII, one UTF-16 unit per character. */
  lemma SampleKeysValid()
    ensures ValidAesKey(Some(AesKey)) && ValidDesKey(Some(DesKey))
  {
    assert forall i :: 0 <= i < |AesKey| ==> AesKey[i] as int < 0x80;
    assert forall i :: 0 <= i < |DesKey| ==> DesKey[i] as int < 0x80;
  }

  /** On a lawful library, `AesDecrypt` as written does not give back what
      `AesEncrypt` encrypted: "a" comes back as the three-character Base64
      text of its ciphertext. */
  lemma AesDecryptDoesNotInvert()
    ensures Lawful(Toy()) && ValidAesKey(Some(AesKey))
    ensures AesDecrypt(Toy(), AesEncrypt(Toy(), Some("a"), Some(AesKey)).value, Some(AesKey)) != Ok(Some("a"))
  {
    ToyIsLawful();
    SampleKeysValid();
    var p := Toy();
    var cipherText := ToyBase64(ToyUtf8("a"));
    assert AesEncrypt(p, Some("a"), Some(AesKey)) == Ok(Some(cipherText));
    ToyUtf8RoundTrip(cipherText);
    assert |cipherText| == 3;
  }

  /** Likewise for DES, whose as-written decryptor also Base64-encodes the
      plaintext. */
  lemma DesDecryptDoesNotInvert()
    ensures Lawful(Toy()) && ValidDesKey(Some(DesKey))
    ensures DesDecrypt(Toy(), DesEncrypt(Toy(), Some("a"), Some(DesKey), Some(DesKey)).value,
                       Some(DesKey), Some(DesKey)) != Ok(Some("a"))
  {
    ToyIsLawful();
    SampleKeysValid();
    var p := Toy();
    var cipherText := ToyBase64(ToyUtf8("a"));
    assert DesEncrypt(p, Some("a"), Some(DesKey), Some(DesKey)) == Ok(Some(cipherText));
    assert |ToyBase64(ToyUtf8(cipherText))| == 9;
  }
}

=== FILE: hash_helper.dfy ===
/** `HashHelper`: MD5 digests rendered as lowercase hexadecimal. The digest
    itself and the UTF-8 encoder are library calls and are parameters here;
    what is modelled is the rendering. */
module HashHelper {
  import opened Clr

  /** An MD5 digest is sixteen bytes. */
  type Digest = d: seq<byte> | |d| == 16 witness [0, 0, 0, 0, 0, 0, 0, 0, 0, 0, 0, 0, 0, 0, 0, 0]

  type Md5 = seq<byte> -> Digest

  type Utf8 = string -> seq<byte>

  predicate IsLowerHex(c: char) {
    '0' <= c <= '9' || 'a' <= c <= 'f'
  }

  function HexValue(c: char): (n: nat)
    requires IsLowerHex(c)
    ensures n < 16
  {
    if c <= '9' then c as int - '0' as int else c as int - 'a' as int + 10
  }

  /** The lowercase digit for a nibble, as `ToString("x2")` writes it. */
  function LowerDigit(n: int): (c: char)
    requires 0 <= n < 16
    ensures IsLowerHex(c) && HexValue(c) == n
  {
    if n < 10 then ('0' as int + n) as char else ('a' as int + n - 10) as char
  }

  /** The uppercase digit for a nibble, as `BitConverter.ToString` writes it. */
  function UpperDigit(n: int): (c: char)
    requires 0 <= n < 16
    ensures '0' <= c <= '9' || 'A' <= c <= 'F'
  {
    if n < 10 then ('0' as int + n) as char else ('A' as int + n - 10) as char
  }

  /** Nibble `k` of `bytes`, high nibble first. */
  function Nibble(bytes: seq<byte>, k: int): int
    requires 0 <= k < 2 * |bytes|
  {
    if k % 2 == 0 then bytes[k / 2] / 16 else bytes[k / 2] % 16
  }

  /** The `foreach … Append(item.ToString("x2"))` loop: two lowercase digits
      per byte, in byte order. */
  function Hex(bytes: seq<byte>): (s: string)
    ensures |s| == 2 * |bytes|
    ensures forall k :: 0 <= k < |s| ==> s[k] == LowerDigit(Nibble(bytes, k))
  {
    if |bytes| == 0 then ""
    else
      var rest := Hex(bytes[1..]);
      var s := [LowerDigit(bytes[0] / 16), LowerDigit(bytes[0] % 16)] + rest;
      assert forall k :: 2 <= k < |s| ==> Nibble(bytes, k) == Nibble(bytes[1..], k - 2);
      s
  }

  /** Pairs of lowercase hexadecimal digits. */
  predicate IsHexString(s: string) {
    |s| % 2 == 0 && forall k :: 0 <= k < |s| ==> IsLowerHex(s[k])
  }

  /** Reading lowercase hexadecimal back into bytes. */
  function ParseHex(s: string): (bytes: seq<byte>)
    requires IsHexString(s)
    ensures |bytes| == |s| / 2
  {
    seq(|s| / 2, i requires 0 <= i < |s| / 2 => HexValue(s[2 * i]) * 16 + HexValue(s[2 * i + 1]))
  }

  lemma HexIsHex(bytes: seq<byte>)
    ensures IsHexString(Hex(bytes))
  {
  }

  lemma Halves(i: int)
    ensures (2 * i) % 2 == 0 && (2 * i) / 2 == i
    ensures (2 * i + 1) % 2 == 1 && (2 * i + 1) / 2 == i
  {
  }

  /** Digits `2i` and `2i + 1` spell byte `i`. */
  lemma HexByte(bytes: seq<byte>, i: int)
    requires 0 <= i < |bytes|
    ensures IsHexString(Hex(bytes))
    ensures HexValue(Hex(bytes)[2 * i]) * 16 + HexValue(Hex(bytes)[2 * i + 1]) == bytes[i]
  {
    HexIsHex(bytes);
    var s := Hex(bytes);
    var b := bytes[i];
    Halves(i);
    assert Nibble(bytes, 2 * i) == b / 16;
    assert Nibble(bytes, 2 * i + 1) == b % 16;
    assert HexValue(s[2 * i]) == b / 16;
    assert HexValue(s[2 * i + 1]) == b % 16;
    assert (b / 16) * 16 + b % 16 == b;
  }

  /** The hex rendering loses nothing: parsing it gives the bytes back. */
  lemma HexRoundTrip(bytes: seq<byte>)
    ensures IsHexString(Hex(bytes)) && ParseHex(Hex(bytes)) == bytes
  {
    HexIsHex(bytes);
    var back := ParseHex(Hex(bytes));
    forall i | 0 <= i < |bytes| ensures back[i] == bytes[i] {
      HexByte(bytes, i);
    }
  }

  /** `GetMD5_32`. A null input fails in `Encoding.UTF8.GetBytes`. */
  function GetMD5_32(md5: Md5, utf8: Utf8, rawStr: Option<string>): (r: Result<string>)
    ensures rawStr.None? <==> r == Throw(ArgumentNull("s"))
    ensures r.Ok? ==> |r.value| == 32 && IsHexString(r.value)
    ensures r.Ok? ==> ParseHex(r.value) == md5(utf8(rawStr.value))
  {
    if rawStr.None? then Throw(ArgumentNull("s"))
    else
      var digest := md5(utf8(rawStr.value));
      HexRoundTrip(digest);
      Ok(Hex(digest))
  }

  /** `BitConverter.ToString(bytes)`: uppercase pairs joined by '-'. */
  function DashedHex(bytes: seq<byte>): (s: string)
    ensures |s| == if |bytes| == 0 then 0 else 3 * |bytes| - 1
    ensures forall i | 0 <= i < |s| :: (s[i] == '-' <==> i % 3 == 2)
  {
    if |bytes| == 0 then ""
    else
      var pair := [UpperDigit(bytes[0] / 16), UpperDigit(bytes[0] % 16)];
      if |bytes| == 1 then pair else pair + "-" + DashedHex(bytes[1..])
  }

  /** `Replace("-", "")`. */
  function RemoveDashes(s: string): (r: string)
    ensures '-' !in r
  {
    if |s| == 0 then "" else (if s[0] == '-' then "" else [s[0]]) + RemoveDashes(s[1..])
  }

  /** `ToLower()` on ASCII letters. */
  function ToLower(s: string): (r: string)
    ensures |r| == |s|
  {
    if |s| == 0 then "" else [if 'A' <= s[0] <= 'Z' then (s[0] as int + 32) as char else s[0]] + ToLower(s[1..])
  }

  lemma {:induction false} RemoveDashesConcat(a: string, b: string)
    ensures RemoveDashes(a + b) == RemoveDashes(a) + RemoveDashes(b)
    decreases |a|
  {
    if |a| > 0 {
      assert (a + b)[0] == a[0];
      assert (a + b)[1..] == a[1..] + b;
      var h := if a[0] == '-' then "" else [a[0]];
      assert RemoveDashes(a + b) == h + RemoveDashes(a[1..] + b);
      assert RemoveDashes(a) == h + RemoveDashes(a[1..]);
      RemoveDashesConcat(a[1..], b);
    } else {
      assert a + b == b;
    }
  }

  lemma {:induction false} ToLowerConcat(a: string, b: string)
    ensures ToLower(a + b) == ToLower(a) + ToLower(b)
    decreases |a|
  {
    if |a| > 0 {
      assert (a + b)[0] == a[0];
      assert (a + b)[1..] == a[1..] + b;
      var h := [if 'A' <= a[0] <= 'Z' then (a[0] as int + 32) as char else a[0]];
      assert ToLower(a + b) == h + ToLower(a[1..] + b);
      assert ToLower(a) == h + ToLower(a[1..]);
      ToLowerConcat(a[1..], b);
    } else {
      assert a + b == b;
    }
  }

  /** Removing the dashes and lower-casing turns `BitConverter`'s form into
      the `x2` form. */
  lemma {:induction false} DashedHexLowered(bytes: seq<byte>)
    ensures ToLower(RemoveDashes(DashedHex(bytes))) == Hex(bytes)
    decreases |bytes|
  {
    if |bytes| > 0 {
      var pair := [UpperDigit(bytes[0] / 16), UpperDigit(bytes[0] % 16)];
      var lowPair := [LowerDigit(bytes[0] / 16), LowerDigit(bytes[0] % 16)];
      assert RemoveDashes(pair) == pair by {
        assert pair[1..] == [pair[1]] && pair[1..][1..] == [];
        assert RemoveDashes(pair[1..]) == [pair[1]] + RemoveDashes([]);
      }
      assert ToLower(pair) == lowPair by {
        assert pair[1..] == [pair[1]];
      }
      if |bytes| == 1 {
        assert Hex(bytes[1..]) == "";
      } else {
        RemoveDashesConcat(pair + "-", DashedHex(bytes[1..]));
        RemoveDashesConcat(pair, "-");
        ToLowerConcat(pair, RemoveDashes(DashedHex(bytes[1..])));
        DashedHexLowered(bytes[1..]);
      }
    }
  }

  /** Characters 8..23 of the 32-digit form are digest bytes 4..11. */
  lemma MiddleBytes(d: Digest)
    ensures Hex(d)[8..24] == Hex(d[4..12])
  {
    var a, b := Hex(d)[8..24], Hex(d[4..12]);
    forall k | 0 <= k < 16 ensures a[k] == b[k] {
      assert Nibble(d, k + 8) == Nibble(d[4..12], k);
    }
  }

  /** `GetMD5_16`: `BitConverter.ToString(bytes, 4, 8)` with the dashes
      removed and lower-cased; it is the middle of the 32-digit form. */
  function GetMD5_16(md5: Md5, utf8: Utf8, rawStr: Option<string>): (r: Result<string>)
    ensures rawStr.None? <==> r == Throw(ArgumentNull("s"))
    ensures r.Ok? ==> |r.value| == 16 && IsHexString(r.value)
    ensures r.Ok? ==> ParseHex(r.value) == md5(utf8(rawStr.value))[4..12]
    ensures r.Ok? ==> r.value == GetMD5_32(md5, utf8, rawStr).value[8..24]
  {
    if rawStr.None? then Throw(ArgumentNull("s"))
    else
      var digest := md5(utf8(rawStr.value));
      DashedHexLowered(digest[4..12]);
      HexRoundTrip(digest[4..12]);
      MiddleBytes(digest);
      Ok(ToLower(RemoveDashes(DashedHex(digest[4..12]))))
  }

  /** `GetObjectMD5_32`: the digest of the object's JSON text. The JSON
      serializer is a parameter; it never yields null. */
  function GetObjectMD5_32<T>(md5: Md5, utf8: Utf8, serialize: T -> string, obj: T): (r: Result<string>)
    ensures r.Ok? && |r.value| == 32 && IsHexString(r.value)
    ensures ParseHex(r.value) == md5(utf8(serialize(obj)))
  {
    GetMD5_32(md5, utf8, Some(serialize(obj)))
  }
}

=== FILE: http_context_extension.dfy ===
/** `HttpContextExtension`: the client address and the server's own origin,
    read from an incoming request. The request is a plain record of what the
    two methods look at. */
module HttpContextExtension {
  import opened Clr

  /** A header's values (`StringValues`). */
  type HeaderValues = seq<string>

  datatype Request = Request(
    headers: map<string, HeaderValues>,
    host: string,             // `Request.Host.Host`
    port: Option<nat>,        // `Request.Host.Port`
    scheme: string)

  datatype HttpContext = HttpContext(
    request: Request,
    remoteIpAddress: Option<string>)   // `Connection.RemoteIpAddress?.ToString()`

  const ForwardedFor: string := "X-Forwarded-For"
  const HostHeader: string := "Host"

  /** `StringValues.ToString()`: the values joined by ',' ("" when there are none). */
  function HeaderText(values: HeaderValues): (t: string)
    ensures |values| == 1 ==> t == values[0]
    ensures |values| >= 1 ==> values[0] <= t
    ensures |values| >= 1 && (forall i :: 0 <= i < |values| ==> ',' !in values[i]) ==> Split(t, ',') == values
  {
    if |values| == 0 then ""
    else
      JoinParts(values, ',');
      Join(values, ',')
  }

  /** `Where(e => !e.IsNullOrWhiteSpace()).FirstOrDefault()`. */
  function FirstNonBlank(parts: seq<string>): (r: Option<string>)
    ensures r.None? <==> forall i :: 0 <= i < |parts| ==> IsNullOrWhiteSpace(Some(parts[i]))
    ensures r.Some? ==>
      exists i :: 0 <= i < |parts| && parts[i] == r.value && !IsNullOrWhiteSpace(r) &&
        forall j :: 0 <= j < i ==> IsNullOrWhiteSpace(Some(parts[j]))
  {
    if |parts| == 0 then None
    else if !IsNullOrWhiteSpace(Some(parts[0])) then Some(parts[0])
    else
      var r := FirstNonBlank(parts[1..]);
      assert r.Some? ==>
        exists i :: 1 <= i < |parts| && parts[i] == r.value && !IsNullOrWhiteSpace(r) &&
          forall j :: 0 <= j < i ==> IsNullOrWhiteSpace(Some(parts[j])) by {
        if r.Some? {
          var i :| 0 <= i < |parts[1..]| && parts[1..][i] == r.value
            && forall j :: 0 <= j < i ==> IsNullOrWhiteSpace(Some(parts[1..][j]));
          assert parts[i + 1] == r.value;
          assert forall j :: 0 <= j < i + 1 ==> IsNullOrWhiteSpace(Some(parts[j])) by {
            forall j | 0 <= j < i + 1 ensures IsNullOrWhiteSpace(Some(parts[j])) {
              if j > 0 {
                assert parts[j] == parts[1..][j - 1];
              }
            }
          }
        }
      }
      r
  }

  /** The forwarded client address, if the header carries a non-blank one. */
  function ForwardedAddress(request: Request): (r: Option<string>)
    ensures ForwardedFor !in request.headers ==> r.None?
    ensures r.Some? ==> !IsNullOrWhiteSpace(r) && ',' !in r.value
  {
    if ForwardedFor in request.headers then
      var text := HeaderText(request.headers[ForwardedFor]);
      SplitPiecesFree(text, ',');
      FirstNonBlank(Split(text, ','))
    else None
  }

  /** `GetRemoteIP`: the first non-blank comma-separated entry of
      X-Forwarded-For, untrimmed; else the connection's remote address, whose
      absence surfaces as a null dereference. */
  function GetRemoteIP(context: Option<HttpContext>): (r: Result<string>)
    ensures context.None? <==> r == Throw(ArgumentNull("context"))
    ensures context.Some? && ForwardedAddress(context.value.request).Some? ==>
      r == Ok(ForwardedAddress(context.value.request).value)
    ensures context.Some? && ForwardedAddress(context.value.request).None? ==>
      r == (if context.value.remoteIpAddress.Some? then Ok(context.value.remoteIpAddress.value) else Throw(NullReference))
  {
    if context.None? then Throw(ArgumentNull("context"))
    else
      var ip := ForwardedAddress(context.value.request);
      if !IsNullOrWhiteSpace(ip) then Ok(ip.value)
      else if context.value.remoteIpAddress.Some? then Ok(context.value.remoteIpAddress.value)
      else Throw(NullReference)
  }

  /** Whether the list arrives as one header value or several, the entries
      are read in order and the first non-blank one wins as it stands,
      surrounding spaces included. */
  lemma ForwardedEntries(request: Request, entries: seq<string>)
    requires ForwardedFor in request.headers && request.headers[ForwardedFor] == entries
    requires |entries| >= 1 && forall i :: 0 <= i < |entries| ==> ',' !in entries[i]
    ensures ForwardedAddress(request) == FirstNonBlank(entries)
  {
    SplitJoin(entries, ',');
  }

  /** " ,10.0.0.1 " yields "10.0.0.1 ", not the trimmed address. */
  lemma ForwardedEntryUntrimmed(remote: Option<string>)
    ensures var ctx := HttpContext(Request(map[ForwardedFor := [" ", "10.0.0.1 "]], "h", None, "http"), remote);
      GetRemoteIP(Some(ctx)) == Ok("10.0.0.1 ")
  {
    var entries := [" ", "10.0.0.1 "];
    ForwardedEntries(Request(map[ForwardedFor := entries], "h", None, "http"), entries);
    assert IsNullOrWhiteSpace(Some(entries[0]));
    assert !IsWhiteSpace(entries[1][0]);
    assert entries[1..] == ["10.0.0.1 "];
  }

  /** The authority part of the origin: the Host header when it is non-blank,
      otherwise the host followed by ":port" when a port is known. */
  function Domain(request: Request): (d: string)
    ensures HostHeader in request.headers && !IsNullOrWhiteSpace(Some(HeaderText(request.headers[HostHeader]))) ==>
      d == HeaderText(request.headers[HostHeader])
    ensures (HostHeader !in request.headers || IsNullOrWhiteSpace(Some(HeaderText(request.headers[HostHeader])))) ==>
      && request.host <= d
      && (request.port.None? ==> d == request.host)
      && (request.port.Some? ==> d[|request.host|..] == ":" + Decimal(request.port.value))
  {
    var header := if HostHeader in request.headers then Some(HeaderText(request.headers[HostHeader])) else None;
    if !IsNullOrWhiteSpace(header) then header.value
    else request.host + (if request.port.Some? then ":" + Decimal(request.port.value) else "")
  }

  /** `GetLocalDomain`: `scheme + "://" + domain`. */
  function GetLocalDomain(context: Option<HttpContext>): (r: Result<string>)
    ensures context.None? <==> r == Throw(ArgumentNull("context"))
    ensures context.Some? ==>
      r.Ok? && var prefix := context.value.request.scheme + "://";
      prefix <= r.value && r.value[|prefix|..] == Domain(context.value.request)
  {
    if context.None? then Throw(ArgumentNull("context"))
    else
      var request := context.value.request;
      var r := request.scheme + "://" + Domain(request);
      assert r[|request.scheme + "://"|..] == Domain(request);
      Ok(r)
  }

  /** The port, when it is used, can be read back from the origin. */
  lemma PortReadBack(context: HttpContext)
    requires HostHeader !in context.request.headers && context.request.port.Some?
    ensures var r := GetLocalDomain(Some(context)).value;
      var k := |context.request.scheme| + 3 + |context.request.host| + 1;
      k <= |r| && AllDigits(r[k..]) && DecimalValue(r[k..]) == context.request.port.value
  {
    PortDigits(context);
    DecimalRoundTrip(context.request.port.value);
  }

  /** The origin ends in the port's decimal digits. */
  lemma PortDigits(context: HttpContext)
    requires HostHeader !in context.request.headers && context.request.port.Some?
    ensures var r := GetLocalDomain(Some(context)).value;
      var k := |context.request.scheme| + 3 + |context.request.host| + 1;
      k <= |r| && r[k..] == Decimal(context.request.port.value)
  {
    var request := context.request;
    OriginSuffix(context);
    DomainPort(request);
    DropDrop(GetLocalDomain(Some(context)).value, |request.scheme| + 3, |request.host| + 1);
  }

  lemma OriginSuffix(context: HttpContext)
    ensures var r := GetLocalDomain(Some(context)).value;
      |context.request.scheme| + 3 <= |r| && r[|context.request.scheme| + 3..] == Domain(context.request)
  {
    assert |context.request.scheme + "://"| == |context.request.scheme| + 3;
  }

  lemma DomainPort(request: Request)
    requires HostHeader !in request.headers && request.port.Some?
    ensures |request.host| + 1 <= |Domain(request)|
    ensures Domain(request)[|request.host| + 1..] == Decimal(request.port.value)
  {
    DropDrop(Domain(request), |request.host|, 1);
  }

  lemma DropDrop(s: string, a: nat, b: nat)
    requires a + b <= |s|
    ensures s[a..][b..] == s[a + b..]
  {
  }
}

=== FILE: inclusion.dfy ===
/** Eager-load directives: an ordered list of typed navigation accessors and
    an ordered list of dotted navigation paths. The accessor type `X` stays
    abstract. */
module Inclusions {

  datatype Inclusion<X> = Inclusion(includes: seq<X>, includeStrings: seq<string>)

  /** `new Inclusion<T>()`: both lists start empty. */
  function Empty<X>(): (inc: Inclusion<X>)
    ensures |inc.includes| == 0 && |inc.includeStrings| == 0
  {
    Inclusion([], [])
  }

  /** `AddInclude(expression)`: appends to the typed list, the named list is untouched. */
  function AddInclude<X>(inc: Inclusion<X>, expression: X): (r: Inclusion<X>)
    ensures |r.includes| == |inc.includes| + 1
    ensures r.includes[..|inc.includes|] == inc.includes
    ensures r.includes[|inc.includes|] == expression
    ensures r.includeStrings == inc.includeStrings
  {
    inc.(includes := inc.includes + [expression])
  }

  /** `AddInclude(string)`: appends to the named list, the typed list is untouched. */
  function AddIncludeString<X>(inc: Inclusion<X>, includeStr: string): (r: Inclusion<X>)
    ensures |r.includeStrings| == |inc.includeStrings| + 1
    ensures r.includeStrings[..|inc.includeStrings|] == inc.includeStrings
    ensures r.includeStrings[|inc.includeStrings|] == includeStr
    ensures r.includes == inc.includes
  {
    inc.(includeStrings := inc.includeStrings + [includeStr])
  }

  /** One call of either `AddInclude` overload, for describing a call chain. */
  datatype Directive<X> = Typed(expression: X) | Named(path: string)

  /** The chain `inc.AddInclude(d0).AddInclude(d1)...`, applied in call order. */
  function Chain<X>(inc: Inclusion<X>, ds: seq<Directive<X>>): Inclusion<X>
    decreases |ds|
  {
    if |ds| == 0 then inc
    else
      var last := ds[|ds| - 1];
      var before := Chain(inc, ds[..|ds| - 1]);
      match last
      case Typed(x) => AddInclude(before, x)
      case Named(p) => AddIncludeString(before, p)
  }

  /** The typed directives of a chain, in call order, duplicates kept. */
  function TypedOf<X>(ds: seq<Directive<X>>): seq<X>
    decreases |ds|
  {
    if |ds| == 0 then []
    else TypedOf(ds[..|ds| - 1]) + (if ds[|ds| - 1].Typed? then [ds[|ds| - 1].expression] else [])
  }

  /** The named directives of a chain, in call order, duplicates kept. */
  function NamedOf<X>(ds: seq<Directive<X>>): seq<string>
    decreases |ds|
  {
    if |ds| == 0 then []
    else NamedOf(ds[..|ds| - 1]) + (if ds[|ds| - 1].Named? then [ds[|ds| - 1].path] else [])
  }

  /** Whatever the interleaving of the two overloads, each list ends up as its
      own directives in call order, appended after what was there: nothing is
      reordered and nothing is deduplicated. */
  lemma {:induction false} ChainCollects<X>(inc: Inclusion<X>, ds: seq<Directive<X>>)
    ensures Chain(inc, ds).includes == inc.includes + TypedOf(ds)
    ensures Chain(inc, ds).includeStrings == inc.includeStrings + NamedOf(ds)
    decreases |ds|
  {
    if |ds| > 0 {
      var front := ds[..|ds| - 1];
      ChainCollects(inc, front);
      var before := Chain(inc, front);
      match ds[|ds| - 1]
      case Typed(x) =>
        assert Chain(inc, ds) == AddInclude(before, x);
        assert inc.includes + TypedOf(ds) == (inc.includes + TypedOf(front)) + [x];
      case Named(p) =>
        assert Chain(inc, ds) == AddIncludeString(before, p);
        assert inc.includeStrings + NamedOf(ds) == (inc.includeStrings + NamedOf(front)) + [p];
    }
  }

  /** Adding the same accessor twice keeps both copies, in order, and leaves
      the named list alone. */
  lemma NoDeduplication<X>(inc: Inclusion<X>, x: X)
    ensures AddInclude(AddInclude(inc, x), x).includes == inc.includes + [x, x]
    ensures AddInclude(AddInclude(inc, x), x).includeStrings == inc.includeStrings
  {
    assert inc.includes + [x] + [x] == inc.includes + [x, x];
  }
}

=== FILE: npoi_helper.dfy ===
/** `NPOIHelper`: the layout of the workbook `GetExcelStream` builds from a
    list of data tables, one sheet per table. The workbook is described by
    its sheets, rows and cells; writing it out as an .xls or .xlsx byte
    stream is the library's business and is not modelled. */
module NpoiHelper {
  import opened Clr

  datatype CellType = StringCell | NumericCell | BooleanCell | UnknownCell

  /** The .NET types `TypeConverter` knows by name; any other type is
      `OtherType`. */
  datatype BaseType =
    | StringType | CharType | DateTimeType | BoolType
    | IntType | LongType | ShortType | DoubleType | FloatType | DecimalType
    | UIntType | ULongType | UShortType
    | OtherType(name: string)

  /** A column's data type: a base type, possibly in its `Nullable<>` form. */
  datatype ColumnType = ColumnType(base: BaseType, nullable: bool)

  function Plain(b: BaseType): ColumnType { ColumnType(b, false) }
  function Nullable(b: BaseType): ColumnType { ColumnType(b, true) }

  const StrTypes: seq<ColumnType> := [Plain(StringType), Plain(CharType), Plain(DateTimeType), Nullable(DateTimeType)]

  const NumTypes: seq<ColumnType> :=
    [Plain(IntType), Plain(LongType), Plain(ShortType), Plain(DoubleType), Plain(FloatType), Plain(DecimalType),
     Plain(UIntType), Plain(ULongType), Plain(UShortType),
     Nullable(IntType), Nullable(LongType), Nullable(ShortType), Nullable(DoubleType), Nullable(FloatType),
     Nullable(DecimalType), Nullable(UIntType), Nullable(ULongType), Nullable(UShortType)]

  const BoolTypes: seq<ColumnType> := [Plain(BoolType), Nullable(BoolType)]

  /** `TypeConverter`: the first of the three lists that holds the type
      decides the cell type. */
  function TypeConverter(t: ColumnType): (c: CellType)
    ensures c == StringCell <==> t in StrTypes
    ensures c == NumericCell <==> t !in StrTypes && t in NumTypes
    ensures c == BooleanCell <==> t !in StrTypes && t !in NumTypes && t in BoolTypes
  {
    if t in StrTypes then StringCell
    else if t in NumTypes then NumericCell
    else if t in BoolTypes then BooleanCell
    else UnknownCell
  }

  predicate IsNumericBase(b: BaseType) {
    b.IntType? || b.LongType? || b.ShortType? || b.DoubleType? || b.FloatType? || b.DecimalType?
    || b.UIntType? || b.ULongType? || b.UShortType?
  }

  /** The classification by base type: the nine numeric types and their
      nullable forms are numeric, `bool` and `bool?` boolean, `DateTime` and
      `DateTime?` string, `string` and `char` string only in their plain
      form (so `char?` is unknown), anything else unknown. */
  lemma TypeConverterClasses(b: BaseType, nullable: bool)
    ensures IsNumericBase(b) ==> TypeConverter(ColumnType(b, nullable)) == NumericCell
    ensures b == BoolType ==> TypeConverter(ColumnType(b, nullable)) == BooleanCell
    ensures b == DateTimeType ==> TypeConverter(ColumnType(b, nullable)) == StringCell
    ensures b == StringType || b == CharType ==>
      TypeConverter(ColumnType(b, nullable)) == if nullable then UnknownCell else StringCell
    ensures b.OtherType? ==> TypeConverter(ColumnType(b, nullable)) == UnknownCell
  {
    var t := ColumnType(b, nullable);
    if IsNumericBase(b) {
      assert t !in StrTypes;
      var i := if nullable then 9 else 0;
      var j := if b.IntType? then 0 else if b.LongType? then 1 else if b.ShortType? then 2
        else if b.DoubleType? then 3 else if b.FloatType? then 4 else if b.DecimalType? then 5
        else if b.UIntType? then 6 else if b.ULongType? then 7 else 8;
      assert NumTypes[i + j] == t;
    }
  }

  // ---------------------------------------------------------------------
  // Tables and workbooks

  /** A `DataColumn` (or null in its slot). */
  datatype Column = Column(columnName: Option<string>, dataType: ColumnType)

  /** A `DataTable`: every row has one value per column; a value is its
      `ToString()` form, or null. */
  datatype DataTable = DataTable(columns: seq<Option<Column>>, rows: seq<seq<Option<string>>>)

  type Table = t: DataTable | forall j :: 0 <= j < |t.rows| ==> |t.rows[j]| == |t.columns|
    witness DataTable([], [])

  datatype Cell = Cell(cellType: CellType, value: Option<string>)

  datatype Sheet = Sheet(name: string, rows: seq<seq<Cell>>)

  datatype ExcelType = Xls | Xlsx | OtherExcelType(code: int)

  datatype Workbook = Workbook(format: ExcelType, sheets: seq<Sheet>)

  const UntitledColumn: string := "未命名"
  const GenerationFailed: string := "Excel生成失败，详见内部异常"

  /** The name given to the `n`th sheet that has no name of its own. */
  function UntitledSheet(n: nat): string {
    "未命名页" + Decimal(n)
  }

  /** The padding loop of `CreateWorkBook`. It appends to the caller's list,
      so the caller sees the padded names afterwards. */
  function PadSheetNames(tableCount: nat, names: seq<Option<string>>): (r: seq<Option<string>>)
    ensures |r| == if tableCount > |names| then tableCount else |names|
    ensures r[..|names|] == names
    ensures forall i :: |names| <= i < |r| ==> r[i] == Some(UntitledSheet(i - |names| + 1))
  {
    if tableCount > |names| then
      names + seq(tableCount - |names|, i requires 0 <= i < tableCount - |names| => Some(UntitledSheet(i + 1)))
    else names
  }

  /** Row 0: one string cell per column holding its name, "未命名" in the
      slot of a null column. */
  function TitleRow(columns: seq<Option<Column>>): (row: seq<Cell>)
    ensures |row| == |columns|
  {
    seq(|columns|, j requires 0 <= j < |columns| =>
      Cell(StringCell, Some(if columns[j].Some? && columns[j].value.columnName.Some?
                            then columns[j].value.columnName.value else UntitledColumn)))
  }

  predicate HasNullColumn(columns: seq<Option<Column>>) {
    exists k :: 0 <= k < |columns| && columns[k].None?
  }

  /** Why the data loop cannot fill a cell of column `c`, if it cannot:
      reading `DataType` of a null column throws, and a column whose type
      `TypeConverter` does not know asks the library for a cell of type
      `Unknown`, which the library creates only when `acceptsUnknown`. */
  function CellFailure(c: Option<Column>, acceptsUnknown: bool): (f: Option<Exception>)
    ensures f == Some(NullReference) <==> c.None?
    ensures f.Some? <==> c.None? || (!acceptsUnknown && TypeConverter(c.value.dataType) == UnknownCell)
  {
    if c.None? then Some(NullReference)
    else if !acceptsUnknown && TypeConverter(c.value.dataType) == UnknownCell then Some(Argument("type"))
    else None
  }

  /** The failure of the first cell of a data row that cannot be filled,
      scanning the columns left to right. */
  function RowFailure(columns: seq<Option<Column>>, acceptsUnknown: bool): (f: Option<Exception>)
    decreases |columns|
  {
    if |columns| == 0 then None
    else if CellFailure(columns[0], acceptsUnknown).Some? then CellFailure(columns[0], acceptsUnknown)
    else RowFailure(columns[1..], acceptsUnknown)
  }

  /** A data row fails exactly when some cell does, and then with the
      failure of the leftmost such cell. */
  lemma {:induction false} RowFailureIsFirst(columns: seq<Option<Column>>, acceptsUnknown: bool)
    ensures var f := RowFailure(columns, acceptsUnknown);
      && (f.None? <==> forall k :: 0 <= k < |columns| ==> CellFailure(columns[k], acceptsUnknown).None?)
      && (f.Some? ==> exists k :: 0 <= k < |columns| && CellFailure(columns[k], acceptsUnknown) == f
                        && forall l :: 0 <= l < k ==> CellFailure(columns[l], acceptsUnknown).None?)
    decreases |columns|
  {
    if |columns| > 0 && CellFailure(columns[0], acceptsUnknown).None? {
      var rest := columns[1..];
      RowFailureIsFirst(rest, acceptsUnknown);
      assert forall k :: 1 <= k < |columns| ==> columns[k] == rest[k - 1];
      if RowFailure(rest, acceptsUnknown).Some? {
        var k :| 0 <= k < |rest| && CellFailure(rest[k], acceptsUnknown) == RowFailure(rest, acceptsUnknown)
                 && forall l :: 0 <= l < k ==> CellFailure(rest[l], acceptsUnknown).None?;
        assert CellFailure(columns[k + 1], acceptsUnknown) == RowFailure(columns, acceptsUnknown);
      }
    }
  }

  /** A data row: cell `k` has the cell type of column `k`'s data type and
      holds the value's string form. */
  function DataRow(columns: seq<Option<Column>>, values: seq<Option<string>>): (row: seq<Cell>)
    requires |values| == |columns| && !HasNullColumn(columns)
    ensures |row| == |columns|
    ensures forall k :: 0 <= k < |columns| ==>
      row[k].cellType == TypeConverter(columns[k].value.dataType) && row[k].value == values[k]
  {
    seq(|columns|, k requires 0 <= k < |columns| =>
      Cell(TypeConverter(columns[k].value.dataType), values[k]))
  }

  /** One sheet: the title row, then data row `j` at sheet row `j + 1`. The
      data loop fails at the first cell it cannot fill, which it reaches as
      soon as the table has a row; every row has the same columns, so the
      first row decides. */
  function BuildSheet(name: string, table: Table, acceptsUnknown: bool): (r: Result<Sheet>)
    ensures r.Throw? <==> |table.rows| > 0 && RowFailure(table.columns, acceptsUnknown).Some?
    ensures r.Throw? ==> Some(r.error) == RowFailure(table.columns, acceptsUnknown)
    ensures |table.rows| > 0 && HasNullColumn(table.columns) ==> r.Throw?
    ensures (|table.rows| > 0 && exists k :: 0 <= k < |table.columns| && CellFailure(table.columns[k], acceptsUnknown).Some?)
            ==> r.Throw?
    ensures acceptsUnknown ==> (r.Throw? <==> |table.rows| > 0 && HasNullColumn(table.columns))
    ensures r.Ok? && |table.rows| > 0 ==> !HasNullColumn(table.columns)
    ensures r.Ok? ==>
      && r.value.name == name
      && |r.value.rows| == |table.rows| + 1
      && r.value.rows[0] == TitleRow(table.columns)
      && forall j :: 0 <= j < |table.rows| ==> r.value.rows[j + 1] == DataRow(table.columns, table.rows[j])
  {
    RowFailureIsFirst(table.columns, acceptsUnknown);
    var failure := RowFailure(table.columns, acceptsUnknown);
    if |table.rows| > 0 && failure.Some? then Throw(failure.value)
    else
      assert |table.rows| > 0 ==> !HasNullColumn(table.columns) by {
        if |table.rows| > 0 {
          forall k | 0 <= k < |table.columns| ensures table.columns[k].Some? {
            assert CellFailure(table.columns[k], acceptsUnknown).None?;
          }
        }
      }
      Ok(Sheet(name, [TitleRow(table.columns)] +
        seq(|table.rows|, j requires 0 <= j < |table.rows| => DataRow(table.columns, table.rows[j]))))
  }

  /** The sheet loop. `canCreate(existing, name)` is the library's check on
      a new sheet name against the sheets already made (NPOI refuses
      duplicates and malformed names); a null name is refused too. */
  function Sheets(canCreate: (seq<string>, string) -> bool, acceptsUnknown: bool, tables: seq<Option<Table>>,
                  names: seq<Option<string>>, existing: seq<string>)
    : (r: Result<seq<Sheet>>)
    requires |names| >= |tables|
    ensures r.Ok? ==> |r.value| == |tables| && forall i :: 0 <= i < |tables| ==>
      names[i].Some? && tables[i].Some? && BuildSheet(names[i].value, tables[i].value, acceptsUnknown) == Ok(r.value[i])
    ensures (exists i :: 0 <= i < |tables| &&
               (names[i].None? || tables[i].None? || BuildSheet(names[i].value, tables[i].value, acceptsUnknown).Throw?)) ==>
      r.Throw?
    decreases |tables|
  {
    if |tables| == 0 then Ok([])
    else if names[0].None? || !canCreate(existing, names[0].value) then Throw(Argument("sheetName"))
    else if tables[0].None? then Throw(NullReference)
    else
      var sheet :- BuildSheet(names[0].value, tables[0].value, acceptsUnknown);
      var rest :- Sheets(canCreate, acceptsUnknown, tables[1..], names[1..], existing + [names[0].value]);
      assert forall i :: 1 <= i < |tables| ==> tables[i] == tables[1..][i - 1] && names[i] == names[1..][i - 1];
      Ok([sheet] + rest)
  }

  /** `CreateWorkBook` followed by the stream write: any failure inside the
      sheet loop, including the null workbook of an unknown `EExcelType` and
      a cell the library refuses, is rethrown under one message. */
  function GetExcelStream(canCreate: (seq<string>, string) -> bool, acceptsUnknown: bool,
                          dts: Option<seq<Option<Table>>>,
                          sheetNames: Option<seq<Option<string>>>, excelType: ExcelType)
    : (r: Result<Option<Workbook>>)
    ensures dts.None? || |dts.value| == 0 <==> r == Ok(None)
    ensures r.Throw? ==> r.error == General(GenerationFailed)
    ensures dts.Some? && |dts.value| > 0 && excelType.OtherExcelType? ==> r.Throw?
    ensures r.Ok? && r.value.Some? ==>
      var names := PadSheetNames(|dts.value|, if sheetNames.Some? then sheetNames.value else []);
      && r.value.value.format == excelType
      && |r.value.value.sheets| == |dts.value|
      && forall i :: 0 <= i < |dts.value| ==>
           names[i].Some? && dts.value[i].Some? &&
           BuildSheet(names[i].value, dts.value[i].value, acceptsUnknown) == Ok(r.value.value.sheets[i])
  {
    if dts.None? || |dts.value| == 0 then Ok(None)
    else
      var names := PadSheetNames(|dts.value|, if sheetNames.Some? then sheetNames.value else []);
      if excelType.OtherExcelType? then Throw(General(GenerationFailed))
      else
        var sheets := Sheets(canCreate, acceptsUnknown, dts.value, names, []);
        if sheets.Throw? then Throw(General(GenerationFailed))
        else Ok(Some(Workbook(excelType, sheets.value)))
  }

  /** The workbook keeps the data: sheet `i`'s row `j + 1` gives back the
      values of table `i`'s row `j`, and its title row the column names. */
  lemma WorkbookKeepsData(canCreate: (seq<string>, string) -> bool, acceptsUnknown: bool,
                          dts: Option<seq<Option<Table>>>,
                          sheetNames: Option<seq<Option<string>>>, excelType: ExcelType, i: int, j: int)
    requires GetExcelStream(canCreate, acceptsUnknown, dts, sheetNames, excelType).Ok?
    requires GetExcelStream(canCreate, acceptsUnknown, dts, sheetNames, excelType).value.Some?
    requires 0 <= i < |dts.value| && dts.value[i].Some? && 0 <= j < |dts.value[i].value.rows|
    ensures var sheet := GetExcelStream(canCreate, acceptsUnknown, dts, sheetNames, excelType).value.value.sheets[i];
      var table := dts.value[i].value;
      |sheet.rows| == |table.rows| + 1 && Values(sheet.rows[j + 1]) == table.rows[j]
  {
    var sheet := GetExcelStream(canCreate, acceptsUnknown, dts, sheetNames, excelType).value.value.sheets[i];
    var table := dts.value[i].value;
    var row := sheet.rows[j + 1];
    assert row == DataRow(table.columns, table.rows[j]);
    assert |Values(row)| == |table.rows[j]|;
  }

  /** The values a row of cells holds, in column order. */
  function Values(row: seq<Cell>): (vs: seq<Option<string>>)
    ensures |vs| == |row| && forall k :: 0 <= k < |row| ==> vs[k] == row[k].value
  {
    seq(|row|, k requires 0 <= k < |row| => row[k].value)
  }

  /** A table with a row and a column of a type `TypeConverter` does not
      know makes the whole call fail when the library refuses `Unknown`
      cells. */
  lemma UnknownColumnFails(canCreate: (seq<string>, string) -> bool, dts: Option<seq<Option<Table>>>,
                           sheetNames: Option<seq<Option<string>>>, excelType: ExcelType, i: int, k: int)
    requires dts.Some? && 0 <= i < |dts.value| && dts.value[i].Some?
    requires |dts.value[i].value.rows| > 0 && 0 <= k < |dts.value[i].value.columns|
    requires dts.value[i].value.columns[k].Some?
    requires TypeConverter(dts.value[i].value.columns[k].value.dataType) == UnknownCell
    ensures GetExcelStream(canCreate, false, dts, sheetNames, excelType) == Throw(General(GenerationFailed))
  {
    var table := dts.value[i].value;
    assert CellFailure(table.columns[k], false).Some?;
    var names := PadSheetNames(|dts.value|, if sheetNames.Some? then sheetNames.value else []);
    if names[i].Some? {
      assert BuildSheet(names[i].value, table, false).Throw?;
    }
  }

  /** Given names are used as they are and missing ones are numbered from 1;
      names beyond the number of tables are left unused. */
  lemma SheetNamesPadded(tableCount: nat, names: seq<Option<string>>, i: nat)
    requires i < tableCount
    ensures i < |names| ==> PadSheetNames(tableCount, names)[i] == names[i]
    ensures i >= |names| ==> PadSheetNames(tableCount, names)[i] == Some(UntitledSheet(i - |names| + 1))
  {
    var r := PadSheetNames(tableCount, names);
    if i < |names| {
      assert r[..|names|][i] == r[i];
    }
  }
}

=== FILE: path_helper.dfy ===
/** `PathHelper`: the content root set once by `Init`, and `MapPath`, which
    resolves a relative path against it. `System.IO.Path` is modelled as it
    behaves on .NET Core for the two platform families. */
module PathHelper {
  import opened Clr

  datatype Platform = Windows | Unix

  function DirectorySeparator(p: Platform): char {
    if p == Windows then '\\' else '/'
  }

  function VolumeSeparator(p: Platform): char {
    if p == Windows then ':' else '/'
  }

  /** `Path.IsDirectorySeparator`: Windows accepts both slashes. */
  predicate IsDirectorySeparator(p: Platform, c: char) {
    c == '/' || (p == Windows && c == '\\')
  }

  predicate IsDriveLetter(c: char) {
    'A' <= c <= 'Z' || 'a' <= c <= 'z'
  }

  /** `Path.IsPathRooted`: a leading separator, or on Windows a drive letter
      and colon. */
  function IsPathRooted(p: Platform, path: string): (b: bool)
    ensures b ==> |path| > 0
    ensures p == Unix ==> (b <==> |path| > 0 && path[0] == '/')
    ensures p == Windows && |path| > 0 && (path[0] == '/' || path[0] == '\\') ==> b
  {
    || (|path| >= 1 && IsDirectorySeparator(p, path[0]))
    || (p == Windows && |path| >= 2 && IsDriveLetter(path[0]) && path[1] == ':')
  }

  /** `Path.Combine(path1, path2)` on two non-null strings. */
  function Combine(p: Platform, path1: string, path2: string): (r: string)
    ensures |path1| == 0 || |path2| == 0 || IsPathRooted(p, path2) ==> r == path1 + path2 || r == path2
    ensures |path1| > 0 && !IsPathRooted(p, path2) ==> path1 <= r
    ensures |path1| > 0 && |path2| > 0 && !IsPathRooted(p, path2) ==>
      |path1 + path2| <= |r| <= |path1 + path2| + 1 && r[|r| - |path2|..] == path2
  {
    if |path1| == 0 then path2
    else if |path2| == 0 then path1
    else if IsPathRooted(p, path2) then path2
    else if IsDirectorySeparator(p, path1[|path1| - 1]) || IsDirectorySeparator(p, path2[0]) then path1 + path2
    else path1 + [DirectorySeparator(p)] + path2
  }

  /** `Path.Combine` with its null checks. */
  function CombineChecked(p: Platform, path1: Option<string>, path2: Option<string>): (r: Result<string>)
    ensures path1.None? ==> r == Throw(ArgumentNull("path1"))
    ensures path1.Some? && path2.None? ==> r == Throw(ArgumentNull("path2"))
    ensures path1.Some? && path2.Some? ==> r == Ok(Combine(p, path1.value, path2.value))
  {
    if path1.None? then Throw(ArgumentNull("path1"))
    else if path2.None? then Throw(ArgumentNull("path2"))
    else Ok(Combine(p, path1.value, path2.value))
  }

  // ---------------------------------------------------------------------
  // The content root

  /** The static `_contentRootPath` field; null until `Init` runs. */
  datatype Root = Root(contentRootPath: Option<string>)

  const Uninitialized: Root := Root(None)

  const NotInitializedMessage: string := "程序根目录不能为空，请调用Init函数初始化工具类"
  const BlankRootMessage: string := "程序根目录不能为空"

  /** `Init`: a blank root is refused and leaves the field as it was. */
  function Init(st: Root, contentRootPath: Option<string>): (r: Result<Root>)
    ensures IsNullOrWhiteSpace(contentRootPath) <==> r == Throw(General(BlankRootMessage))
    ensures r.Ok? ==> r.value.contentRootPath == contentRootPath
  {
    if IsNullOrWhiteSpace(contentRootPath) then Throw(General(BlankRootMessage))
    else Ok(Root(contentRootPath))
  }

  /** The `ContentRootPath` getter: throws while the field is blank. */
  function ContentRootPath(st: Root): (r: Result<string>)
    ensures IsNullOrWhiteSpace(st.contentRootPath) <==> r == Throw(General(NotInitializedMessage))
    ensures r.Ok? ==> r.value == st.contentRootPath.value
  {
    if IsNullOrWhiteSpace(st.contentRootPath) then Throw(General(NotInitializedMessage))
    else Ok(st.contentRootPath.value)
  }

  /** The getter throws before `Init`, and after a successful `Init` returns
      exactly the root it was given. */
  lemma InitThenContentRoot(st: Root, root: Option<string>)
    ensures ContentRootPath(Uninitialized).Throw?
    ensures Init(st, root).Ok? ==> ContentRootPath(Init(st, root).value) == Ok(root.value)
    ensures Init(st, root).Throw? ==> Init(st, root) == Throw(General(BlankRootMessage))
  {
  }

  // ---------------------------------------------------------------------
  // MapPath

  /** `IsAbsolute`: the first volume separator (or, where that is not ':',
      the first backslash) sits after the first character. */
  function IsAbsolute(p: Platform, path: string): (b: bool)
    ensures b ==> |path| >= 2 && path[0] != (if p == Windows then ':' else '\\')
  {
    var marker := if VolumeSeparator(p) == ':' then ':' else '\\';
    IndexOf(path, marker) > 0
  }

  /** `IsAbsolute` in terms of the string: the marker occurs, but not first. */
  lemma IsAbsoluteMeans(p: Platform, path: string)
    ensures var marker := if p == Windows then ':' else '\\';
      IsAbsolute(p, path) <==> marker in path && path[0] != marker
  {
    var marker := if p == Windows then ':' else '\\';
    if marker in path {
      var i :| 0 <= i < |path| && path[i] == marker;
      assert IndexOf(path, marker) != -1;
    }
  }

  predicate IsTrimmed(c: char) {
    c == '~' || c == '/'
  }

  /** `TrimStart('~', '/')`. */
  function TrimStart(s: string): (r: string)
    ensures |r| <= |s| && r == s[|s| - |r|..]
    ensures forall i :: 0 <= i < |s| - |r| ==> IsTrimmed(s[i])
    ensures |r| > 0 ==> !IsTrimmed(r[0])
  {
    if |s| > 0 && IsTrimmed(s[0]) then TrimStart(s[1..]) else s
  }

  /** `Replace(from, to)` on characters. */
  function Replace(s: string, from: char, to: char): (r: string)
    ensures |r| == |s|
    ensures forall i :: 0 <= i < |s| ==> r[i] == if s[i] == from then to else s[i]
  {
    seq(|s|, i requires 0 <= i < |s| => if s[i] == from then to else s[i])
  }

  lemma ReplacePrefix(a: string, b: string, from: char, to: char)
    requires a <= b
    ensures Replace(a, from, to) <= Replace(b, from, to)
  {
  }

  /** The relative branch of `MapPath`: trim, combine with the root, and
      turn every '/' into the platform separator. Unless the trimmed path is
      itself rooted, the result extends the (converted) root. */
  function Resolve(p: Platform, root: string, filePath: string): (r: string)
    ensures p == Windows ==> '/' !in r
    ensures p == Unix ==> r == Combine(p, root, TrimStart(filePath))
    ensures !IsPathRooted(p, TrimStart(filePath)) ==> Replace(root, '/', DirectorySeparator(p)) <= r
    ensures IsPathRooted(p, TrimStart(filePath)) ==> r == Replace(TrimStart(filePath), '/', DirectorySeparator(p))
  {
    var trimmed := TrimStart(filePath);
    var combined := Combine(p, root, trimmed);
    var r := Replace(combined, '/', DirectorySeparator(p));
    assert !IsPathRooted(p, trimmed) ==> Replace(root, '/', DirectorySeparator(p)) <= r by {
      if !IsPathRooted(p, trimmed) {
        ReplacePrefix(root, combined, '/', DirectorySeparator(p));
      }
    }
    assert p == Unix ==> r == combined;
    r
  }

  /** `MapPath(filePath)`: null stays null; a rooted or `IsAbsolute` path is
      kept; anything else is resolved against the root, which must have been
      set. */
  function MapPath(p: Platform, st: Root, filePath: Option<string>): (r: Result<Option<string>>)
    ensures filePath.None? ==> r == Ok(None)
    ensures filePath.Some? && (IsPathRooted(p, filePath.value) || IsAbsolute(p, filePath.value)) ==>
      r == Ok(filePath)
    ensures filePath.Some? && !IsPathRooted(p, filePath.value) && !IsAbsolute(p, filePath.value) ==>
      && (IsNullOrWhiteSpace(st.contentRootPath) ==> r == Throw(General(NotInitializedMessage)))
      && (!IsNullOrWhiteSpace(st.contentRootPath) ==>
            r == Ok(Some(Resolve(p, st.contentRootPath.value, filePath.value))))
  {
    if filePath.None? then Ok(None)
    else if IsPathRooted(p, filePath.value) || IsAbsolute(p, filePath.value) then Ok(filePath)
    else
      var root :- ContentRootPath(st);
      Ok(Some(Resolve(p, root, filePath.value)))
  }

  /** `MapPath(path, fileName)`: combine first, then map. */
  function MapPathIn(p: Platform, st: Root, path: Option<string>, fileName: Option<string>)
    : (r: Result<Option<string>>)
    ensures path.None? ==> r == Throw(ArgumentNull("path1"))
    ensures path.Some? && fileName.None? ==> r == Throw(ArgumentNull("path2"))
    ensures path.Some? && fileName.Some? ==> r == MapPath(p, st, Some(Combine(p, path.value, fileName.value)))
    ensures path.Some? && fileName.Some? ==> (r.Ok? && r.value.Some?) || r == Throw(General(NotInitializedMessage))
  {
    var combined :- CombineChecked(p, path, fileName);
    MapPath(p, st, Some(combined))
  }

  /** Rootedness is decided by the first two characters, so it carries over
      to any extension. */
  lemma RootedPrefix(p: Platform, a: string, b: string)
    requires IsPathRooted(p, a) && a <= b
    ensures IsPathRooted(p, b)
  {
    assert a[0] == b[0];
    if |a| >= 2 {
      assert a[1] == b[1];
    }
  }

  lemma ReplaceKeepsRooted(p: Platform, a: string)
    requires IsPathRooted(p, a)
    ensures IsPathRooted(p, Replace(a, '/', DirectorySeparator(p)))
  {
  }

  /** With a rooted content root, mapping a mapped path changes nothing. */
  lemma MapPathIdempotent(p: Platform, st: Root, filePath: Option<string>)
    requires !IsNullOrWhiteSpace(st.contentRootPath) && IsPathRooted(p, st.contentRootPath.value)
    ensures MapPath(p, st, filePath).Ok?
    ensures MapPath(p, st, MapPath(p, st, filePath).value) == MapPath(p, st, filePath)
  {
    if filePath.Some? && !IsPathRooted(p, filePath.value) && !IsAbsolute(p, filePath.value) {
      var root := st.contentRootPath.value;
      var trimmed := TrimStart(filePath.value);
      var v := Resolve(p, root, filePath.value);
      var sep := DirectorySeparator(p);
      if IsPathRooted(p, trimmed) {
        assert v == Replace(trimmed, '/', sep);
        ReplaceKeepsRooted(p, trimmed);
      } else {
        ReplaceKeepsRooted(p, root);
        RootedPrefix(p, Replace(root, '/', sep), v);
      }
    }
  }

  /** On Unix a backslash after the first character makes a path count as
      absolute, so it is returned as given even before `Init`. */
  lemma UnixBackslashKept()
    ensures MapPath(Unix, Uninitialized, Some("a\\b")) == Ok(Some("a\\b"))
  {
    IsAbsoluteMeans(Unix, "a\\b");
    assert "a\\b"[1] == '\\';
  }

  /** On Windows "~\x" trims to the rooted "\x", which `Path.Combine` keeps
      in place of the content root. */
  lemma WindowsTildeBackslashDropsRoot(st: Root)
    requires !IsNullOrWhiteSpace(st.contentRootPath)
    ensures MapPath(Windows, st, Some("~\\x")) == Ok(Some("\\x"))
  {
    IsAbsoluteMeans(Windows, "~\\x");
    assert ':' !in "~\\x";
    assert TrimStart("~\\x") == "\\x" by {
      assert "~\\x"[1..] == "\\x";
    }
    assert IsPathRooted(Windows, "\\x");
    assert Replace("\\x", '/', '\\') == "\\x";
  }
}

=== FILE: repository_laws.dfy ===
/** Properties of `BaseRepository` that relate several calls: what a
    flushed command sequence does to the table, the add-then-read round
    trip, the two `Delete(where)` flavours and the paging window. */
module RepositoryLaws {
  import opened Clr
  import opened Entities
  import opened BaseRepository
  import opened Inclusions

  // ---------------------------------------------------------------------
  // Filters as named values, so that equal filters are equal terms

  function Not<T>(f: T -> bool): T -> bool
  {
    (x: T) => !f(x)
  }

  function Both<T>(f: T -> bool, g: T -> bool): T -> bool
  {
    (x: T) => f(x) && g(x)
  }

  /** The rows whose key is not the key of any row in `ms`. */
  function NoneOf<K(==), D>(ms: seq<Entity<K, D>>): Entity<K, D> -> bool
  {
    (x: Entity<K, D>) => forall k :: 0 <= k < |ms| ==> ms[k].id != x.id
  }

  /** Filters that agree on every row of `s` select the same rows. */
  lemma {:induction false} WhereExt<T>(s: seq<T>, f: T -> bool, g: T -> bool)
    requires forall i :: 0 <= i < |s| ==> f(s[i]) == g(s[i])
    ensures Where(s, f) == Where(s, g)
    decreases |s|
  {
    if |s| > 0 {
      WhereExt(s[..|s| - 1], f, g);
    }
  }

  /** Filtering twice is filtering once by the conjunction. */
  lemma {:induction false} WhereWhere<T>(s: seq<T>, f: T -> bool, g: T -> bool)
    ensures Where(Where(s, f), g) == Where(s, Both(f, g))
    decreases |s|
  {
    if |s| > 0 {
      var n := |s| - 1;
      WhereWhere(s[..n], f, g);
      var w := Where(s[..n], f);
      if f(s[n]) {
        assert Where(s, f) == w + [s[n]];
        assert (w + [s[n]])[..|w|] == w;
      } else {
        assert Where(s, f) == w;
      }
    }
  }

  // ---------------------------------------------------------------------
  // Flushing removals

  /** Flushing one removal per row of `ms` (rows of the table, with distinct
      keys) succeeds and leaves exactly the rows keyed by none of them, in
      their original order. */
  lemma {:induction false} RemovalsLand<K, D>(t: seq<Entity<K, D>>, ms: seq<Entity<K, D>>,
                                              ops: seq<Op<K, D>>)
    requires UniqueIds(t) && UniqueIds(ms)
    requires forall k :: 0 <= k < |ms| ==> ms[k] in t
    requires |ops| == |ms| && forall k :: 0 <= k < |ms| ==> ops[k] == Removed(ms[k])
    ensures ApplyAll(t, ops) == Ok(Where(t, NoneOf(ms)))
    decreases |ms|
  {
    if |ms| == 0 {
      AllPassWhere(t, NoneOf(ms));
    } else {
      var n := |ms| - 1;
      assert UniqueIds(ms[..n]);
      RemovalsLand(t, ms[..n], ops[..n]);
      assert ops == ops[..n] + [Removed(ms[n])];
      ApplyAllSnoc(t, ops[..n], Removed(ms[n]));
      RemovalStep(t, ms);
    }
  }

  /** The last removal of `ms` finds its row (its key differs from the
      earlier ones) and takes exactly that key out. */
  lemma RemovalStep<K, D>(t: seq<Entity<K, D>>, ms: seq<Entity<K, D>>)
    requires UniqueIds(ms) && |ms| > 0
    requires ms[|ms| - 1] in t
    ensures Apply(Where(t, NoneOf(ms[..|ms| - 1])), Removed(ms[|ms| - 1])) == Ok(Where(t, NoneOf(ms)))
  {
    var n := |ms| - 1;
    var m := ms[n];
    var w := Where(t, NoneOf(ms[..n]));
    assert NoneOf(ms[..n])(m);
    WhereMembers(t, NoneOf(ms[..n]), m);
    assert HasId(w, m.id) by {
      var j :| 0 <= j < |w| && w[j] == m;
    }
    var keep := (x: Entity<K, D>) => x.id != m.id;
    assert Without(w, m.id) == Where(w, keep);
    WhereWhere(t, NoneOf(ms[..n]), keep);
    WhereExt(t, Both(NoneOf(ms[..n]), keep), NoneOf(ms));
  }

  lemma {:induction false} AllPassWhere<T>(s: seq<T>, f: T -> bool)
    requires forall i :: 0 <= i < |s| ==> f(s[i])
    ensures Where(s, f) == s
    decreases |s|
  {
    if |s| > 0 {
      AllPassWhere(s[..|s| - 1], f);
    }
  }

  /** With unique keys, "keyed by none of the matching rows" is "does not match". */
  lemma NoneOfMatched<K, D>(t: seq<Entity<K, D>>, f: Entity<K, D> -> bool)
    requires UniqueIds(t)
    ensures Where(t, NoneOf(Where(t, f))) == Where(t, Not(f))
  {
    var ms := Where(t, f);
    forall i | 0 <= i < |t| ensures NoneOf(ms)(t[i]) == Not(f)(t[i]) {
      WhereMembers(t, f, t[i]);
      if f(t[i]) {
        var k :| 0 <= k < |ms| && ms[k] == t[i];
        assert ms[k].id == t[i].id;
      } else if k :| 0 <= k < |ms| && ms[k].id == t[i].id {
        WhereMembers(t, f, ms[k]);
        var j :| 0 <= j < |t| && t[j] == ms[k];
        assert f(t[j]);
        assert j == i;
      }
    }
    WhereExt(t, NoneOf(ms), Not(f));
  }

  /** A hard `Delete(where)` that flushes on a table with no pending
      commands leaves exactly the rows that do not match, in order. */
  lemma HardDeleteWhereRemovesMatches<K, D>(r: Repo<K, D>, where: Entity<K, D> -> bool, now: int)
    requires r.staged == [] && UniqueIds(r.table)
    ensures DeleteWhere(r, Some(where), true, false, now) == Ok(Repo(Where(r.table, Not(where)), []))
  {
    var ms := Where(r.table, where);
    var ops := Removes(ms);
    WhereSubsequenceUnique(r.table, where);
    forall k | 0 <= k < |ms| ensures ms[k] in r.table {
      WhereMembers(r.table, where, ms[k]);
    }
    assert r.staged + ops == ops;
    RemovalsLand(r.table, ms, ops);
    NoneOfMatched(r.table, where);
  }

  // ---------------------------------------------------------------------
  // Flushing updates

  /** The last of `es` keyed `id`, or `d` when there is none. */
  ghost function LastUpdate<K, D>(es: seq<Entity<K, D>>, id: K, d: Entity<K, D>): (x: Entity<K, D>)
    ensures d.id == id ==> x.id == id
    ensures (forall k :: 0 <= k < |es| ==> es[k].id != id) ==> x == d
    decreases |es|
  {
    if |es| == 0 then d
    else if es[|es| - 1].id == id then es[|es| - 1]
    else LastUpdate(es[..|es| - 1], id, d)
  }

  /** The table after flushing updates to `es`, position by position. */
  ghost function AfterUpdates<K, D>(t: seq<Entity<K, D>>, es: seq<Entity<K, D>>): (u: seq<Entity<K, D>>)
    ensures |u| == |t|
  {
    seq(|t|, i requires 0 <= i < |t| => LastUpdate(es, t[i].id, t[i]))
  }

  /** Flushing one update per entity of `es`, each keyed like some row,
      succeeds; every row ends up as the last update with its key and keeps
      its position. */
  lemma {:induction false} UpdatesLand<K, D>(t: seq<Entity<K, D>>, es: seq<Entity<K, D>>,
                                                 ops: seq<Op<K, D>>)
    requires forall k :: 0 <= k < |es| ==> HasId(t, es[k].id)
    requires |ops| == |es| && forall k :: 0 <= k < |es| ==> ops[k] == Updated(es[k])
    ensures ApplyAll(t, ops) == Ok(AfterUpdates(t, es))
    decreases |es|
  {
    if |es| == 0 {
      assert AfterUpdates(t, es) == t;
    } else {
      var n := |es| - 1;
      var e := es[n];
      UpdatesPrefix(es, ops, n);
      UpdatesLand(t, es[..n], ops[..n]);
      assert ops == ops[..n] + [Updated(e)];
      ApplyAllSnoc(t, ops[..n], Updated(e));
      var u := AfterUpdates(t, es[..n]);
      assert HasId(u, e.id) by {
        var i :| 0 <= i < |t| && t[i].id == e.id;
        assert u[i].id == e.id;
      }
      assert Replace(u, e) == AfterUpdates(t, es);
    }
  }

  lemma UpdatesPrefix<K, D>(es: seq<Entity<K, D>>, ops: seq<Op<K, D>>, n: nat)
    requires n <= |es| == |ops|
    requires forall k :: 0 <= k < |es| ==> ops[k] == Updated(es[k])
    ensures forall k :: 0 <= k < n ==> ops[..n][k] == Updated(es[..n][k])
  {
  }

  /** With unique keys the last update keyed like a row of the table is the
      one built from that row. */
  lemma {:induction false} LastUpdateOfOwnRow<K, D>(es: seq<Entity<K, D>>, id: K, d: Entity<K, D>,
                                                    x: Entity<K, D>)
    requires x in es && x.id == id
    requires forall k :: 0 <= k < |es| && es[k].id == id ==> es[k] == x
    ensures LastUpdate(es, id, d) == x
    decreases |es|
  {
    var n := |es| - 1;
    if es[n].id != id {
      assert x in es[..n] by {
        var k :| 0 <= k < |es| && es[k] == x;
        assert k != n;
        assert es[..n][k] == x;
      }
      LastUpdateOfOwnRow(es[..n], id, d, x);
    }
  }

  /** Dropping the nulls of a collection that has none changes nothing. */
  lemma NonNullSomes<T>(s: seq<T>)
    ensures NonNull(Somes(s)) == s
  {
    var xs := Somes(s);
    var r := NonNull(xs);
    AllPassWhere(xs, NotNull);
    assert Somes(r) == xs;
    forall i | 0 <= i < |s| ensures r[i] == s[i] {
      assert Somes(r)[i] == xs[i];
    }
  }

  /** `UpdateRange` with `autoSave` is staging followed by `Save` when the
      kept entities' keys are distinct, and a tracker conflict otherwise. */
  lemma UpdateRangeSaves<K, D>(r: Repo<K, D>, xs: seq<Option<Entity<K, D>>>, now: int)
    ensures UniqueIds(NonNull(xs)) ==>
      UpdateRange(r, Some(xs), true, now) == Save(Stage(r, Updates(TouchAll(NonNull(xs), now))))
    ensures !UniqueIds(NonNull(xs)) ==> UpdateRange(r, Some(xs), true, now) == Throw(InvalidOperation)
  {
  }

  /** Saving staged updates on a repository with nothing else pending. */
  lemma UpdatesSave<K, D>(r: Repo<K, D>, es: seq<Entity<K, D>>)
    requires r.staged == []
    requires forall k :: 0 <= k < |es| ==> HasId(r.table, es[k].id)
    ensures Save(Stage(r, Updates(es))) == Ok(Repo(AfterUpdates(r.table, es), []))
  {
    var ops := Updates(es);
    assert Stage(r, ops) == Repo(r.table, ops);
    UpdatesLand(r.table, es, ops);
  }

  /** `UpdateRange` with `autoSave` on a repository with nothing pending,
      over a collection without nulls whose keys all exist, lands one
      refreshed update per entity when those keys are distinct; two
      entities with one key make the change tracker throw before any
      `SaveChanges`. */
  lemma UpdateRangeFlushes<K, D>(r: Repo<K, D>, es: seq<Entity<K, D>>, now: int)
    requires r.staged == []
    requires forall k :: 0 <= k < |es| ==> HasId(r.table, es[k].id)
    ensures UniqueIds(es) ==>
      UpdateRange(r, Some(Somes(es)), true, now) == Ok(Repo(AfterUpdates(r.table, TouchAll(es, now)), []))
    ensures !UniqueIds(es) ==> UpdateRange(r, Some(Somes(es)), true, now) == Throw(InvalidOperation)
  {
    UpdateRangeSaves(r, Somes(es), now);
    NonNullSomes(es);
    UpdatesSave(r, TouchAll(es, now));
  }

  /** A soft `Delete(where)` on a table with no pending commands always
      flushes, whatever `autoSave` says, and lands one update per matching
      row, unless two matching rows share a key, which the change tracker
      refuses. */
  lemma SoftDeleteWhereFlushes<K, D>(r: Repo<K, D>, where: Entity<K, D> -> bool,
                                     autoSave: bool, now: int)
    requires r.staged == []
    ensures UniqueIds(Where(r.table, where)) ==>
      DeleteWhere(r, Some(where), autoSave, true, now)
        == Ok(Repo(AfterUpdates(r.table, TouchAll(MarkAll(Where(r.table, where)), now)), []))
    ensures !UniqueIds(Where(r.table, where)) ==>
      DeleteWhere(r, Some(where), autoSave, true, now) == Throw(InvalidOperation)
  {
    var ms := Where(r.table, where);
    forall k | 0 <= k < |ms| ensures HasId(r.table, MarkAll(ms)[k].id) {
      WhereMembers(r.table, where, ms[k]);
    }
    assert UniqueIds(MarkAll(ms)) <==> UniqueIds(ms) by {
      assert forall k :: 0 <= k < |ms| ==> MarkAll(ms)[k].id == ms[k].id;
    }
    UpdateRangeFlushes(r, MarkAll(ms), now);
  }

  /** One row after flushing an update per matching row, each built from
      its row by a key-keeping `h`: `h` of the row when it matches,
      untouched otherwise. */
  lemma MatchedRow<K, D>(t: seq<Entity<K, D>>, where: Entity<K, D> -> bool,
                         h: Entity<K, D> -> Entity<K, D>, es: seq<Entity<K, D>>, i: int)
    requires UniqueIds(t) && 0 <= i < |t|
    requires forall j :: 0 <= j < |t| ==> h(t[j]).id == t[j].id
    requires |es| == |Where(t, where)|
    requires forall k :: 0 <= k < |es| ==> es[k] == h(Where(t, where)[k])
    ensures AfterUpdates(t, es)[i] == (if where(t[i]) then h(t[i]) else t[i])
  {
    var ms := Where(t, where);
    WhereMembers(t, where, t[i]);
    if where(t[i]) {
      var k :| 0 <= k < |ms| && ms[k] == t[i];
      forall k' | 0 <= k' < |es| && es[k'].id == t[i].id ensures es[k'] == es[k] {
        WhereMembers(t, where, ms[k']);
        var j :| 0 <= j < |t| && t[j] == ms[k'];
        assert j == i;
      }
      assert es[k] in es;
      LastUpdateOfOwnRow(es, t[i].id, t[i], es[k]);
    } else {
      forall k' | 0 <= k' < |es| ensures es[k'].id != t[i].id {
        WhereMembers(t, where, ms[k']);
        var j :| 0 <= j < |t| && t[j] == ms[k'];
      }
    }
  }

  /** One row after a soft delete: marked and stamped when it matches,
      untouched otherwise. */
  lemma SoftDeletedRow<K, D>(t: seq<Entity<K, D>>, where: Entity<K, D> -> bool, now: int, i: int)
    requires UniqueIds(t) && 0 <= i < |t|
    ensures AfterUpdates(t, TouchAll(MarkAll(Where(t, where)), now))[i]
         == (if where(t[i]) then Touch(MarkDeleted(t[i]), now) else t[i])
  {
    var h := (x: Entity<K, D>) => Touch(MarkDeleted(x), now);
    MatchedRow(t, where, h, TouchAll(MarkAll(Where(t, where)), now), i);
  }

  /** A soft `Delete(where)` on a table with no pending commands keeps every
      row in place and leaves each matching row with `IsDeleted = 1` and
      `UpdateTime = now` and every other row as it was. */
  lemma SoftDeleteWhereMarksMatches<K, D>(r: Repo<K, D>, where: Entity<K, D> -> bool,
                                              autoSave: bool, now: int)
    requires r.staged == [] && UniqueIds(r.table)
    ensures var res := DeleteWhere(r, Some(where), autoSave, true, now);
      && res.Ok? && res.value.staged == []
      && |res.value.table| == |r.table|
      && forall i :: 0 <= i < |r.table| ==>
           res.value.table[i] == (if where(r.table[i]) then r.table[i].(isDeleted := 1, updateTime := now)
                                  else r.table[i])
  {
    WhereSubsequenceUnique(r.table, where);
    SoftDeleteWhereFlushes(r, where, autoSave, now);
    forall i | 0 <= i < |r.table|
      ensures AfterUpdates(r.table, TouchAll(MarkAll(Where(r.table, where)), now))[i]
           == (if where(r.table[i]) then Touch(MarkDeleted(r.table[i]), now) else r.table[i])
    {
      SoftDeletedRow(r.table, where, now, i);
    }
  }

  /** An update never changes which keys the table holds: a row only ever
      takes the value of an update keyed like it. */
  lemma AfterUpdatesKeys<K, D>(t: seq<Entity<K, D>>, es: seq<Entity<K, D>>, id: K)
    ensures HasId(AfterUpdates(t, es), id) <==> HasId(t, id)
  {
    var u := AfterUpdates(t, es);
    assert forall i :: 0 <= i < |t| ==> u[i].id == t[i].id;
    if HasId(t, id) {
      var i :| 0 <= i < |t| && t[i].id == id;
      assert u[i].id == id;
    }
    if HasId(u, id) {
      var i :| 0 <= i < |u| && u[i].id == id;
      assert t[i].id == id;
    }
  }

  /** Flushing updates to `es` fails with a concurrency error as soon as one
      of them is keyed like no row. */
  lemma {:induction false} UpdatesFail<K, D>(t: seq<Entity<K, D>>, es: seq<Entity<K, D>>)
    requires exists k :: 0 <= k < |es| && !HasId(t, es[k].id)
    ensures ApplyAll(t, Updates(es)) == Throw(DbUpdateConcurrency)
    decreases |es|
  {
    var n := |es| - 1;
    var front := es[..n];
    assert Updates(es) == Updates(front) + [Updated(es[n])];
    ApplyAllSnoc(t, Updates(front), Updated(es[n]));
    if exists k :: 0 <= k < n && !HasId(t, front[k].id) {
      UpdatesFail(t, front);
    } else {
      UpdatesLand(t, front, Updates(front));
      AfterUpdatesKeys(t, front, es[n].id);
    }
  }

  /** Flushing updates to `es` succeeds exactly when each is keyed like some
      row, and then lands them position by position. */
  lemma UpdatesSucceedIff<K, D>(t: seq<Entity<K, D>>, es: seq<Entity<K, D>>)
    ensures ApplyAll(t, Updates(es)).Ok? <==> forall k :: 0 <= k < |es| ==> HasId(t, es[k].id)
    ensures ApplyAll(t, Updates(es)).Ok? ==> ApplyAll(t, Updates(es)).value == AfterUpdates(t, es)
    ensures !ApplyAll(t, Updates(es)).Ok? ==> ApplyAll(t, Updates(es)) == Throw(DbUpdateConcurrency)
  {
    if forall k :: 0 <= k < |es| ==> HasId(t, es[k].id) {
      UpdatesLand(t, es, Updates(es));
    } else {
      UpdatesFail(t, es);
    }
  }

  /** A row that no update is keyed like keeps its value. */
  lemma UntouchedRow<K, D>(t: seq<Entity<K, D>>, es: seq<Entity<K, D>>, i: int)
    requires 0 <= i < |t|
    requires forall k :: 0 <= k < |es| ==> es[k].id != t[i].id
    ensures AfterUpdates(t, es)[i] == t[i]
  {
  }

  /** Flushing the handled rows `ms` on top of `t`, stated over `ms`. */
  lemma HandledLand<K, D>(t: seq<Entity<K, D>>, ms: seq<Entity<K, D>>, handle: Entity<K, D> -> Entity<K, D>)
    ensures var res := ApplyAll(t, Updates(Select(ms, handle)));
      && (res.Ok? <==> forall k :: 0 <= k < |ms| ==> HasId(t, handle(ms[k]).id))
      && (!res.Ok? ==> res == Throw(DbUpdateConcurrency))
      && (res.Ok? ==> res.value == AfterUpdates(t, Select(ms, handle)))
      && (res.Ok? ==> forall i :: (0 <= i < |t| && forall k :: 0 <= k < |ms| ==> handle(ms[k]).id != t[i].id) ==>
                                  res.value[i] == t[i])
  {
    var es := Select(ms, handle);
    UpdatesSucceedIff(t, es);
    assert (forall k :: 0 <= k < |es| ==> HasId(t, es[k].id))
       <==> (forall k :: 0 <= k < |ms| ==> HasId(t, handle(ms[k]).id)) by {
      forall k | 0 <= k < |ms| ensures es[k] == handle(ms[k]) {}
    }
    forall i | 0 <= i < |t| && forall k :: 0 <= k < |ms| ==> handle(ms[k]).id != t[i].id
      ensures AfterUpdates(t, es)[i] == t[i]
    {
      forall k | 0 <= k < |es| ensures es[k].id != t[i].id {
        assert es[k] == handle(ms[k]);
      }
      UntouchedRow(t, es, i);
    }
  }

  /** `Update(where, handle)` with `autoSave` on a repository with nothing
      pending is `Save` of one update per handled matching row, when the
      handled rows' keys are distinct. */
  lemma UpdateWhereSaves<K, D>(r: Repo<K, D>, where: Entity<K, D> -> bool,
                               handle: Entity<K, D> -> Entity<K, D>)
    requires r.staged == []
    ensures var changed := Select(Where(r.table, where), handle);
      UniqueIds(changed) ==>
        UpdateWhere(r, Some(where), Some(handle), true) == Save(Repo(r.table, Updates(changed)))
  {
    var changed := Select(Where(r.table, where), handle);
    assert r.staged + Updates(changed) == Updates(changed);
  }

  /** `Update(where, handle)` with `autoSave` on a repository with nothing
      pending: it succeeds exactly when the handled rows' keys are distinct
      and each is keyed like some row of the table. Two handled rows with
      one key make the change tracker throw; otherwise a missing key fails
      the flush with a concurrency error.
      On success each row takes the last handled value keyed like it, so a
      row that no handled value is keyed like stays as it was, even when it
      matched and `handle` gave it another key. */
  lemma UpdateWhereLands<K, D>(r: Repo<K, D>, where: Entity<K, D> -> bool,
                               handle: Entity<K, D> -> Entity<K, D>)
    requires r.staged == []
    ensures var res := UpdateWhere(r, Some(where), Some(handle), true);
      var ms := Where(r.table, where);
      && (res.Ok? <==> UniqueIds(Select(ms, handle)) &&
                       forall k :: 0 <= k < |ms| ==> HasId(r.table, handle(ms[k]).id))
      && (!res.Ok? ==> res == Throw(if UniqueIds(Select(ms, handle)) then DbUpdateConcurrency
                                    else InvalidOperation))
      && (res.Ok? ==> res.value == Repo(AfterUpdates(r.table, Select(ms, handle)), []))
      && (res.Ok? ==> forall i :: (0 <= i < |r.table| &&
                                   forall k :: 0 <= k < |ms| ==> handle(ms[k]).id != r.table[i].id) ==>
                                  res.value.table[i] == r.table[i])
  {
    UpdateWhereSaves(r, where, handle);
    HandledLand(r.table, Where(r.table, where), handle);
  }

  /** With unique keys and a `handle` that keeps every row's key, a flushed
      `Update(where, handle)` replaces each matching row by `handle` of it,
      in place, and leaves every other row as it was. */
  lemma UpdateWhereInPlace<K, D>(r: Repo<K, D>, where: Entity<K, D> -> bool,
                                 handle: Entity<K, D> -> Entity<K, D>)
    requires r.staged == [] && UniqueIds(r.table)
    requires forall j :: 0 <= j < |r.table| ==> handle(r.table[j]).id == r.table[j].id
    ensures var res := UpdateWhere(r, Some(where), Some(handle), true);
      && res.Ok? && res.value.staged == []
      && |res.value.table| == |r.table|
      && forall i :: 0 <= i < |r.table| ==>
           res.value.table[i] == (if where(r.table[i]) then handle(r.table[i]) else r.table[i])
  {
    var ms := Where(r.table, where);
    var es := Select(ms, handle);
    WhereSubsequenceUnique(r.table, where);
    assert UniqueIds(es) by {
      forall k | 0 <= k < |ms| ensures es[k].id == ms[k].id {
        WhereMembers(r.table, where, ms[k]);
      }
    }
    forall k | 0 <= k < |es| ensures HasId(r.table, es[k].id) {
      WhereMembers(r.table, where, ms[k]);
      var j :| 0 <= j < |r.table| && r.table[j] == ms[k];
      assert r.table[j].id == es[k].id;
    }
    UpdateWhereLands(r, where, handle);
    forall i | 0 <= i < |r.table|
      ensures AfterUpdates(r.table, es)[i] == (if where(r.table[i]) then handle(r.table[i]) else r.table[i])
    {
      MatchedRow(r.table, where, handle, es, i);
    }
  }

  // ---------------------------------------------------------------------
  // Flushing inserts

  /** Appending a row keeps the keys unique exactly when its key is new. */
  lemma UniqueSnoc<K, D>(u: seq<Entity<K, D>>, e: Entity<K, D>)
    ensures UniqueIds(u + [e]) <==> UniqueIds(u) && !HasId(u, e.id)
  {
    var v := u + [e];
    if UniqueIds(v) {
      assert forall i, j :: 0 <= i < j < |u| ==> u[i] == v[i] && u[j] == v[j];
      forall i | 0 <= i < |u| ensures u[i].id != e.id {
        assert v[i] == u[i] && v[|u|] == e;
      }
    }
    if UniqueIds(u) && !HasId(u, e.id) {
      forall i, j | 0 <= i < j < |v| ensures v[i].id != v[j].id {
        assert v[i] == u[i];
        if j < |u| { assert v[j] == u[j]; }
      }
    }
  }

  /** Flushing one insert per entity of `es` on top of a table with unique
      keys appends them all, in order, exactly when the keys stay unique;
      otherwise the first clashing insert raises `DbUpdateException`. */
  lemma {:induction false} AddsLand<K, D>(t: seq<Entity<K, D>>, es: seq<Entity<K, D>>)
    requires UniqueIds(t)
    ensures ApplyAll(t, Adds(es)).Ok? <==> UniqueIds(t + es)
    ensures ApplyAll(t, Adds(es)).Ok? ==> ApplyAll(t, Adds(es)).value == t + es
    ensures !ApplyAll(t, Adds(es)).Ok? ==> ApplyAll(t, Adds(es)) == Throw(DbUpdate)
    decreases |es|
  {
    if |es| == 0 {
      assert t + es == t;
    } else {
      var n := |es| - 1;
      var front := es[..n];
      AddsLand(t, front);
      assert Adds(es) == Adds(front) + [Added(es[n])];
      ApplyAllSnoc(t, Adds(front), Added(es[n]));
      assert t + es == (t + front) + [es[n]];
      UniqueSnoc(t + front, es[n]);
      if !UniqueIds(t + front) {
        assert !UniqueIds(t + es) by {
          var i, j :| 0 <= i < j < |t + front| && (t + front)[i].id == (t + front)[j].id;
          assert (t + es)[i] == (t + front)[i] && (t + es)[j] == (t + front)[j];
        }
      }
    }
  }

  /** Keys of a concatenation are unique when each part's are and no key of
      the second part is already in the first. */
  lemma UniqueConcat<K, D>(t: seq<Entity<K, D>>, es: seq<Entity<K, D>>)
    requires UniqueIds(t)
    ensures UniqueIds(t + es) <==>
      UniqueIds(es) && forall k :: 0 <= k < |es| ==> !HasId(t, es[k].id)
  {
    var v := t + es;
    if UniqueIds(v) {
      forall i, j | 0 <= i < j < |es| ensures es[i].id != es[j].id {
        assert v[|t| + i] == es[i] && v[|t| + j] == es[j];
      }
      forall k, i | 0 <= k < |es| && 0 <= i < |t| ensures t[i].id != es[k].id {
        assert v[i] == t[i] && v[|t| + k] == es[k];
      }
    }
    if UniqueIds(es) && forall k :: 0 <= k < |es| ==> !HasId(t, es[k].id) {
      forall i, j | 0 <= i < j < |v| ensures v[i].id != v[j].id {
        if j < |t| {
          assert v[i] == t[i] && v[j] == t[j];
        } else if i < |t| {
          assert v[i] == t[i] && v[j] == es[j - |t|];
        } else {
          assert v[i] == es[i - |t|] && v[j] == es[j - |t|];
        }
      }
    }
  }

  /** `AddRange` with `autoSave` on a repository with nothing pending and
      unique keys: the entities are appended in order exactly when their
      keys are pairwise distinct and new to the table. Two entities with one
      key make the change tracker throw before anything is sent; a key
      already in the table makes the flush raise `DbUpdateException`.
      Either way nothing changes. */
  lemma AddRangeLands<K, D>(r: Repo<K, D>, es: seq<Entity<K, D>>)
    requires r.staged == [] && UniqueIds(r.table)
    ensures var res := AddRange(r, Some(es), true);
      && (res.Ok? <==> UniqueIds(es) && forall k :: 0 <= k < |es| ==> !HasId(r.table, es[k].id))
      && (res.Ok? ==> res.value == Repo(r.table + es, []))
      && (!res.Ok? ==> res == Throw(if UniqueIds(es) then DbUpdate else InvalidOperation))
  {
    var res := AddRange(r, Some(es), true);
    assert r.staged + Adds(es) == Adds(es);
    assert UniqueIds(es) ==> res == Save(Repo(r.table, Adds(es)));
    AddsLand(r.table, es);
    UniqueConcat(r.table, es);
  }

  // ---------------------------------------------------------------------
  // Round trips through a flush

  /** Reading a key back after a flushed `Add` gives the added entity. */
  lemma AddThenGetById<K, D>(r: Repo<K, D>, e: Entity<K, D>)
    requires r.staged == [] && Add(r, Some(e), true).Ok?
    ensures GetById<K, D, bool>(Add(r, Some(e), true).value.0, e.id, None, false) == Some(e)
  {
    FindAtEnd(r.table, e);
  }

  lemma {:induction false} FindAtEnd<K, D>(t: seq<Entity<K, D>>, e: Entity<K, D>)
    requires !HasId(t, e.id)
    ensures Find(t + [e], e.id) == Some(e)
    decreases |t|
  {
    if |t| > 0 {
      FindAtEnd(t[1..], e);
      assert (t + [e])[1..] == t[1..] + [e];
    }
  }

  /** Reading a key back after a flushed `Update` gives the refreshed
      entity; other keys read as before. */
  lemma UpdateThenGetById<K, D>(r: Repo<K, D>, e: Entity<K, D>, now: int, other: K)
    requires r.staged == [] && Update(r, Some(e), true, now).Ok?
    ensures GetById<K, D, bool>(Update(r, Some(e), true, now).value.0, e.id, None, false)
         == Some(e.(updateTime := now))
    ensures other != e.id ==>
      GetById<K, D, bool>(Update(r, Some(e), true, now).value.0, other, None, false)
      == GetById<K, D, bool>(r, other, None, false)
  {
    var e' := Touch(e, now);
    ApplyAllSnoc(r.table, r.staged, Updated(e'));
    FindAfterReplace(r.table, e', other);
  }

  /** Commands staged with `autoSave` false are invisible to queries until
      the next `Save`. */
  lemma StagingIsInvisible<K, D>(r: Repo<K, D>, e: Entity<K, D>, id: K, now: int)
    ensures Add(r, Some(e), false).Ok?
    ensures GetById<K, D, bool>(Add(r, Some(e), false).value.0, id, None, false) == GetById<K, D, bool>(r, id, None, false)
    ensures GetById<K, D, bool>(Update(r, Some(e), false, now).value.0, id, None, false) == GetById<K, D, bool>(r, id, None, false)
  {
  }

  // ---------------------------------------------------------------------
  // Paging

  /** At the intended offset, page `p + 1` continues exactly where page `p`
      stops. */
  lemma PagesTile<T>(s: seq<T>, page: int, size: nat)
    requires page >= 1
    ensures Window(s, SkipCount(page, size), size) + Window(s, SkipCount(page + 1, size), size)
         == Window(s, SkipCount(page, size), 2 * size)
  {
    NextOffset(page, size);
    AdjacentWindows(s, SkipCount(page, size), size);
  }

  lemma NextOffset(page: int, size: nat)
    requires page >= 1
    ensures SkipCount(page + 1, size) == SkipCount(page, size) + size
  {
    assert (page + 1 - 1) * size == (page - 1) * size + size;
  }

  /** Two windows of `size` rows side by side make one of `2 * size`. */
  lemma AdjacentWindows<T>(s: seq<T>, a: nat, size: nat)
    ensures Window(s, a, size) + Window(s, a + size, size) == Window(s, a, 2 * size)
  {
    var w1, w2, w := Window(s, a, size), Window(s, a + size, size), Window(s, a, 2 * size);
    assert |w1 + w2| == |w|;
    forall i | 0 <= i < |w| ensures (w1 + w2)[i] == w[i] {
      if i >= |w1| { assert w[i] == s[a + i]; assert (w1 + w2)[i] == w2[i - |w1|]; }
    }
  }

  /** Page 65537 of size 65536 wraps to offset 0: as written `GetPageList`
      returns the first page again, where the intended offset 2^32 is past
      every table `Count()` accepts and the page is empty. */
  lemma WrappedPageRepeatsFirst<K, D, X>(r: Repo<K, D>, inclusion: Option<Inclusion<X>>,
                                         orderBy: Option<string>, isTrack: bool,
                                         dynamic: Ordering<K, D>)
    requires 0 < |r.table| < 0x8000_0000 && IsNullOrWhiteSpace(orderBy)
    ensures SkipCountAsWritten(65537, 65536) == 0
    ensures GetPageList(r, 65537, 65536, None, inclusion, orderBy, None, isTrack, dynamic)
         == Ok(Page(Take(r.table, 65536), |r.table|))
    ensures GetPageListIntended(r, 65537, 65536, None, inclusion, orderBy, None, isTrack, dynamic)
         == Ok(Page([], |r.table|))
  {
    AllPass(r.table);
    GetListDefaults(r, inclusion, orderBy, isTrack, dynamic);
    WrappedOffset();
    var asWritten := GetPageList(r, 65537, 65536, None, inclusion, orderBy, None, isTrack, dynamic);
    assert asWritten.Ok? && asWritten.value.rows == Window(r.table, 0, 65536);
    var intended := GetPageListIntended(r, 65537, 65536, None, inclusion, orderBy, None, isTrack, dynamic);
    assert intended.Ok? && intended.value.rows == Window(r.table, 0x1_0000_0000, 65536);
  }

  lemma WrappedOffset()
    ensures SkipCount(65537, 65536) == 0x1_0000_0000
    ensures SkipCountAsWritten(65537, 65536) == 0
  {
    assert SkipCount(65537, 65536) == 0x1_0000_0000;
    assert Wrap32(0x1_0000_0000) == 0;
  }
}

=== FILE: string_extension.dfy ===
/** The string helpers of `StringExtension`: capitalisation, the BKDR hash,
    the ID-card, IPv4 and CIDR validators, subnet prefix matching and CJK
    detection. The validators' regular expressions are modelled over ASCII
    digits and whole-string matching. */
module StringExtension {
  import opened Clr

  // ---------------------------------------------------------------------
  // ToCapitalize

  predicate IsLowerAscii(c: char) { 'a' <= c <= 'z' }

  /** `char.ToUpper` restricted to ASCII letters; other characters are kept. */
  function ToUpper(c: char): (u: char)
    ensures IsLowerAscii(c) ==> u as int == c as int - 32 && 'A' <= u <= 'Z'
    ensures !IsLowerAscii(c) ==> u == c
  {
    if IsLowerAscii(c) then (c as int - 32) as char else c
  }

  /** `ToCapitalize`: null stays null, "" stays "", otherwise the first
      character is upper-cased and the rest kept. */
  function ToCapitalize(str: Option<string>): (r: Option<string>)
    ensures str.None? <==> r.None?
    ensures str.Some? ==> |r.value| == |str.value|
    ensures str.Some? && |str.value| > 0 ==>
      r.value[0] == ToUpper(str.value[0]) && r.value[1..] == str.value[1..]
  {
    if str.None? then None
    else if |str.value| == 0 then Some("")
    else Some([ToUpper(str.value[0])] + str.value[1..])
  }

  /** Capitalising twice is capitalising once. */
  lemma CapitalizeIdempotent(str: Option<string>)
    ensures ToCapitalize(ToCapitalize(str)) == ToCapitalize(str)
  {
    if str.Some? && |str.value| > 0 {
      var r := ToCapitalize(str).value;
      assert r == [ToUpper(str.value[0])] + str.value[1..];
      assert ToCapitalize(Some(r)).value == [ToUpper(r[0])] + r[1..];
    }
  }

  // ---------------------------------------------------------------------
  // ToBKDRHash

  const Seed: int := 131

  /** The hash as an unbounded polynomial: each UTF-16 unit weighted by a
      power of the seed, the last unit with weight 1. C# strings are
      sequences of UTF-16 units, so a supplementary character contributes
      its two surrogates. */
  function Poly(u: seq<Utf16Unit>): int
    decreases |u|
  {
    if |u| == 0 then 0 else Poly(u[..|u| - 1]) * Seed + u[|u| - 1] as int
  }

  /** `hash & 0x7FFFFFFF` on a C# `int`: reinterpret the two's-complement
      bits as unsigned and keep the low 31 of them. */
  function MaskLow31(h: int32): (m: int)
    ensures 0 <= m < 0x8000_0000
    ensures m == h % 0x8000_0000
  {
    var unsigned := if h < 0 then h + 0x1_0000_0000 else h;
    unsigned % 0x8000_0000
  }

  /** `ToBKDRHash`: 0 for a null or blank string; otherwise the hash folded
      in 32-bit wrap-around arithmetic and masked to 31 bits. */
  method ToBKDRHash(str: Option<string>) returns (r: int)
    ensures IsNullOrWhiteSpace(str) ==> r == 0
    ensures !IsNullOrWhiteSpace(str) ==> r == Poly(Utf16(str.value)) % 0x8000_0000
    ensures 0 <= r < 0x8000_0000
  {
    if IsNullOrWhiteSpace(str) {
      return 0;
    }
    var s := Utf16(str.value);
    var hash: int32 := 0;
    var i := 0;
    while i < |s|
      invariant 0 <= i <= |s|
      invariant (hash - Poly(s[..i])) % 0x1_0000_0000 == 0
    {
      assert s[..i + 1][..i] == s[..i];
      WrapStep(hash, Poly(s[..i]), s[i] as int);
      hash := Wrap32(hash * Seed + s[i] as int);
      i := i + 1;
    }
    assert s[..|s|] == s;
    CongruentMod31(hash, Poly(s));
    r := MaskLow31(hash);
  }

  /** U+1F600 is the surrogate pair D83D DE00, so its hash is
      0xD83D * 131 + 0xDE00, not the code point itself. */
  lemma SupplementaryHash()
    ensures Poly(Utf16("\U{1F600}")) % 0x8000_0000 == 7308599
  {
    var u := Utf16("\U{1F600}");
    assert u == [0xD83D, 0xDE00];
    assert u[..1] == [0xD83D];
    assert u[..1][..0] == [];
  }

  /** Reducing after each step agrees modulo 2^32 with reducing at the end. */
  lemma WrapStep(h: int, p: int, c: int)
    requires (h - p) % 0x1_0000_0000 == 0
    ensures (Wrap32(h * Seed + c) - (p * Seed + c)) % 0x1_0000_0000 == 0
  {
    var k := (h - p) / 0x1_0000_0000;
    assert h == p + k * 0x1_0000_0000;
    assert h * Seed + c == p * Seed + c + (k * Seed) * 0x1_0000_0000;
  }

  lemma CongruentMod31(h: int, p: int)
    requires (h - p) % 0x1_0000_0000 == 0
    ensures h % 0x8000_0000 == p % 0x8000_0000
  {
    var k := (h - p) / 0x1_0000_0000;
    assert h == p + (2 * k) * 0x8000_0000;
  }

  // ---------------------------------------------------------------------
  // IsIdCardNo

  /** `^(^\d{15}$|^\d{18}$|^\d{17}(\d|X|x))$` with `IgnoreCase`: fifteen
      digits, or seventeen digits followed by a digit or an X. */
  function IsIdCardNo(num: Option<string>): (b: bool)
    ensures b ==> num.Some? && (|num.value| == 15 || |num.value| == 18)
    ensures b ==> forall i :: 0 <= i < |num.value| - 1 ==> IsDigit(num.value[i])
  {
    && !IsNullOrWhiteSpace(num)
    && var s := num.value;
       || (|s| == 15 && AllDigits(s))
       || (|s| == 18 && AllDigits(s))
       || (|s| == 18 && AllDigits(s[..17]) && (IsDigit(s[17]) || s[17] == 'X' || s[17] == 'x'))
  }

  /** The eighteen-digit alternative adds nothing: an ID number is fifteen
      characters, or eighteen whose last may be a check letter. */
  lemma IdCardShape(num: Option<string>)
    ensures IsIdCardNo(num) <==>
      num.Some? && (
        || (|num.value| == 15 && AllDigits(num.value))
        || (|num.value| == 18 && AllDigits(num.value[..17])
            && (IsDigit(num.value[17]) || num.value[17] in "Xx")))
  {
    if num.Some? && |num.value| > 0 && AllDigits(num.value) {
      assert !IsWhiteSpace(num.value[0]);
    }
    if num.Some? && |num.value| == 18 && AllDigits(num.value[..17]) {
      assert num.value[..17][0] == num.value[0];
      assert !IsWhiteSpace(num.value[0]);
    }
  }

  // ---------------------------------------------------------------------
  // IsIP and IsSubnetMask

  /** One octet of the IPv4 pattern: `2[0-4]\d | 25[0-5] | [01]?\d\d?`,
      alternative by alternative. */
  predicate OctetPattern(f: string) {
    || (|f| == 3 && f[0] == '2' && '0' <= f[1] <= '4' && IsDigit(f[2]))
    || (|f| == 3 && f[0] == '2' && f[1] == '5' && '0' <= f[2] <= '5')
    || (|f| == 3 && (f[0] == '0' || f[0] == '1') && IsDigit(f[1]) && IsDigit(f[2]))
    || (|f| == 2 && IsDigit(f[0]) && IsDigit(f[1]))
    || (|f| == 1 && IsDigit(f[0]))
  }

  /** The octet pattern accepts exactly the one- to three-digit numbers up
      to 255, leading zeros allowed. */
  lemma OctetPatternIsByte(f: string)
    ensures OctetPattern(f) <==> 1 <= |f| <= 3 && AllDigits(f) && DecimalValue(f) <= 255
  {
    if |f| == 3 && AllDigits(f) {
      Decimal3(f);
    } else if |f| == 2 && AllDigits(f) {
      Decimal2(f);
    } else if |f| == 1 && AllDigits(f) {
      Decimal1(f);
    }
  }

  lemma Decimal1(f: string)
    requires |f| == 1 && AllDigits(f)
    ensures DecimalValue(f) == DigitValue(f[0])
  {
    assert f[..0] == [];
  }

  lemma Decimal2(f: string)
    requires |f| == 2 && AllDigits(f)
    ensures DecimalValue(f) == 10 * DigitValue(f[0]) + DigitValue(f[1])
  {
    var front := f[..1];
    Decimal1(front);
  }

  lemma Decimal3(f: string)
    requires |f| == 3 && AllDigits(f)
    ensures DecimalValue(f) == 100 * DigitValue(f[0]) + 10 * DigitValue(f[1]) + DigitValue(f[2])
  {
    var front := f[..2];
    Decimal2(front);
  }

  /** The four-octet pattern, anchored at both ends. The octets contain no
      dot, so matching it is splitting on '.' into four matching octets. */
  predicate IpPattern(s: string) {
    var fields := Split(s, '.');
    |fields| == 4 && forall i :: 0 <= i < 4 ==> OctetPattern(fields[i])
  }

  /** `IsIP`. */
  function IsIP(ip: Option<string>): (b: bool)
    ensures b <==> ip.Some? && IpPattern(ip.value)
  {
    PatternNotBlank(ip);
    !IsNullOrWhiteSpace(ip) && IpPattern(ip.value)
  }

  /** The null-or-blank test in front of the address pattern adds nothing:
      an accepted address starts with a digit. */
  lemma PatternNotBlank(ip: Option<string>)
    ensures ip.Some? && IpPattern(ip.value) ==> |ip.value| > 0 && IsDigit(ip.value[0])
    ensures ip.Some? && IpPattern(ip.value) ==> !IsNullOrWhiteSpace(ip)
  {
    if ip.Some? && IpPattern(ip.value) {
      var s := ip.value;
      SplitHeadPrefix(s, '.');
      var f := Split(s, '.')[0];
      assert OctetPattern(f);
      assert f[0] == s[0];
    }
  }

  /** The prefix-length pattern `\d | [12]\d | 3[0-2]`. */
  predicate PrefixPattern(p: string) {
    || (|p| == 1 && IsDigit(p[0]))
    || (|p| == 2 && (p[0] == '1' || p[0] == '2') && IsDigit(p[1]))
    || (|p| == 2 && p[0] == '3' && '0' <= p[1] <= '2')
  }

  /** The prefix pattern accepts exactly the canonical decimal forms of 0..32. */
  lemma PrefixPatternIsCanonical(p: string)
    ensures PrefixPattern(p) ==> AllDigits(p) && DecimalValue(p) <= 32 && Decimal(DecimalValue(p)) == p
  {
    if PrefixPattern(p) {
      if |p| == 1 {
        Decimal1(p);
      } else if |p| == 2 {
        Decimal2(p);
        assert Decimal(DecimalValue(p)) == Decimal(DecimalValue(p) / 10) + [DigitChar(DecimalValue(p) % 10)];
      }
    }
  }

  lemma CanonicalPrefixMatches(n: nat)
    requires n <= 32
    ensures PrefixPattern(Decimal(n))
  {
  }

  /** `IsSubnetMask`: an address, a '/', and a prefix length. */
  function IsSubnetMask(subnetMask: Option<string>): (b: bool)
    ensures b <==> (subnetMask.Some? &&
                    var parts := Split(subnetMask.value, '/');
                    |parts| == 2 && IsIP(Some(parts[0])) && PrefixPattern(parts[1]))
  {
    MaskNotBlank(subnetMask);
    && !IsNullOrWhiteSpace(subnetMask)
    && var parts := Split(subnetMask.value, '/');
       |parts| == 2 && IpPattern(parts[0]) && PrefixPattern(parts[1])
  }

  lemma MaskNotBlank(m: Option<string>)
    ensures m.Some? && IpPattern(Split(m.value, '/')[0]) ==> !IsNullOrWhiteSpace(m)
  {
    if m.Some? && IpPattern(Split(m.value, '/')[0]) {
      var a := Split(m.value, '/')[0];
      SplitHeadPrefix(m.value, '/');
      PatternNotBlank(Some(a));
      assert a[0] == m.value[0];
    }
  }

  /** The numeric octets of an address the pattern accepted. */
  function Octets(ip: string): (os: seq<nat>)
    requires IpPattern(ip)
    ensures |os| == 4 && forall i :: 0 <= i < 4 ==> os[i] <= 255
  {
    var fields := Split(ip, '.');
    [OctetValue(fields[0]), OctetValue(fields[1]), OctetValue(fields[2]), OctetValue(fields[3])]
  }

  function OctetValue(f: string): (v: nat)
    requires OctetPattern(f)
    ensures v <= 255
  {
    OctetPatternIsByte(f);
    DecimalValue(f)
  }

  /** The usual dotted-decimal text of four octets. */
  function FormatIp(os: seq<nat>): (s: string)
    requires |os| == 4 && forall i :: 0 <= i < 4 ==> os[i] <= 255
  {
    Join(DecimalParts(os), '.')
  }

  function DecimalParts(os: seq<nat>): (parts: seq<string>)
    requires |os| == 4
    ensures |parts| == 4
  {
    [Decimal(os[0]), Decimal(os[1]), Decimal(os[2]), Decimal(os[3])]
  }

  lemma DecimalOctet(n: nat)
    requires n <= 255
    ensures OctetPattern(Decimal(n)) && '.' !in Decimal(n)
    ensures DecimalValue(Decimal(n)) == n
  {
    DecimalRoundTrip(n);
    var d := Decimal(n);
    if n >= 100 {
      assert |Decimal(n / 10)| == 2;
    }
    OctetPatternIsByte(d);
  }

  lemma DecimalPartsAreOctets(os: seq<nat>)
    requires |os| == 4 && forall i :: 0 <= i < 4 ==> os[i] <= 255
    ensures forall i :: 0 <= i < 4 ==>
      '.' !in DecimalParts(os)[i] && OctetPattern(DecimalParts(os)[i]) && DecimalValue(DecimalParts(os)[i]) == os[i]
  {
    forall i | 0 <= i < 4
      ensures '.' !in DecimalParts(os)[i] && OctetPattern(DecimalParts(os)[i]) && DecimalValue(DecimalParts(os)[i]) == os[i]
    {
      DecimalOctet(os[i]);
    }
  }

  lemma FormatIpNotBlank(os: seq<nat>)
    requires |os| == 4 && forall i :: 0 <= i < 4 ==> os[i] <= 255
    ensures !IsNullOrWhiteSpace(Some(FormatIp(os)))
  {
    var parts := DecimalParts(os);
    JoinCons(parts[0], parts[1..], '.');
    assert parts == [parts[0]] + parts[1..];
    var s := FormatIp(os);
    assert s[0] == parts[0][0];
    assert IsDigit(s[0]);
  }

  /** Dotted-decimal text of any four octets is an IP address, and reading
      it back gives the octets. */
  lemma FormatIpRoundTrip(os: seq<nat>)
    requires |os| == 4 && forall i :: 0 <= i < 4 ==> os[i] <= 255
    ensures IsIP(Some(FormatIp(os)))
    ensures Octets(FormatIp(os)) == os
  {
    var parts := DecimalParts(os);
    DecimalPartsAreOctets(os);
    SplitJoin(parts, '.');
    FormatIpNotBlank(os);
  }

  // ---------------------------------------------------------------------
  // ConvertIp2Binary and IsMatchSubnetMask

  function Pow2(n: nat): (p: nat)
    ensures p >= 1
  {
    if n == 0 then 1 else 2 * Pow2(n - 1)
  }

  predicate IsBit(c: char) { c == '0' || c == '1' }

  predicate AllBits(s: string) {
    forall i :: 0 <= i < |s| ==> IsBit(s[i])
  }

  /** The value of a binary string, most significant bit first. */
  function BinValue(s: string): (v: nat)
    requires AllBits(s)
    ensures v < Pow2(|s|)
    decreases |s|
  {
    if |s| == 0 then 0
    else 2 * BinValue(s[..|s| - 1]) + (if s[|s| - 1] == '1' then 1 else 0)
  }

  /** `Convert.ToString(n, 2)`: the shortest binary form, "0" for zero. */
  function ToBinary(n: nat): (s: string)
    ensures 1 <= |s| && AllBits(s)
    ensures n > 0 ==> s[0] == '1'
    decreases n
  {
    if n < 2 then [if n == 0 then '0' else '1'] else ToBinary(n / 2) + [if n % 2 == 0 then '0' else '1']
  }

  /** `PadLeft(width, c)`: left-pads to `width`, never truncates. */
  function PadLeft(s: string, width: nat, c: char): (r: string)
    ensures |r| == if |s| >= width then |s| else width
    ensures |s| >= width ==> r == s
    ensures |s| < width ==> r[width - |s|..] == s && forall i :: 0 <= i < width - |s| ==> r[i] == c
  {
    if |s| >= width then s else seq(width - |s|, _ => c) + s
  }

  lemma {:induction false} ToBinaryValue(n: nat)
    ensures BinValue(ToBinary(n)) == n
    decreases n
  {
    var s := ToBinary(n);
    if n >= 2 {
      ToBinaryValue(n / 2);
      assert s[..|s| - 1] == ToBinary(n / 2);
    } else {
      assert s[..0] == [];
    }
  }

  /** Leading zeros do not change a binary value. */
  lemma {:induction false} ZerosThenValue(z: nat, s: string)
    requires AllBits(s)
    ensures AllBits(seq(z, _ => '0') + s)
    ensures BinValue(seq(z, _ => '0') + s) == BinValue(s)
  {
    var zs: string := seq(z, _ => '0');
    PrefixValue(zs, s);
    ZerosValue(z);
  }

  lemma {:induction false} ZerosValue(z: nat)
    ensures AllBits(seq(z, _ => '0')) && BinValue(seq(z, _ => '0')) == 0
  {
    if z > 0 {
      var zs: string := seq(z, _ => '0');
      assert zs[..z - 1] == seq(z - 1, _ => '0');
      ZerosValue(z - 1);
    }
  }

  /** The value of a concatenation. */
  lemma {:induction false} PrefixValue(a: string, b: string)
    requires AllBits(a) && AllBits(b)
    ensures AllBits(a + b)
    ensures BinValue(a + b) == BinValue(a) * Pow2(|b|) + BinValue(b)
    decreases |b|
  {
    if |b| > 0 {
      var n := |b| - 1;
      var front := b[..n];
      var bit := if b[n] == '1' then 1 else 0;
      PrefixValue(a, front);
      assert (a + b)[..|a + b| - 1] == a + front;
      assert BinValue(a + b) == 2 * BinValue(a + front) + bit;
      assert BinValue(b) == 2 * BinValue(front) + bit;
      assert Pow2(|b|) == 2 * Pow2(n);
      DoubleShift(BinValue(a), Pow2(n), BinValue(front), bit);
    } else {
      assert a + b == a;
    }
  }

  lemma DoubleShift(x: int, p: int, y: int, c: int)
    ensures 2 * (x * p + y) + c == x * (2 * p) + (2 * y + c)
  {
  }

  /** `Convert.ToString(n, 2)` of an octet has at most eight digits. */
  lemma {:induction false} ToBinaryLength(n: nat, k: nat)
    requires 1 <= k && n < Pow2(k)
    ensures |ToBinary(n)| <= k
    decreases n
  {
    if n >= 2 {
      ToBinaryLength(n / 2, k - 1);
    }
  }

  lemma Pow2Of8()
    ensures Pow2(8) == 256
  {
    assert Pow2(4) == 16;
  }

  /** One octet as `ConvertIp2Binary` renders it. */
  function Octet8(n: nat): (s: string)
    requires n <= 255
    ensures |s| == 8 && AllBits(s) && BinValue(s) == n
  {
    var b := ToBinary(n);
    ToBinaryValue(n);
    Pow2Of8();
    ToBinaryLength(n, 8);
    var s := PadLeft(b, 8, '0');
    assert s == seq(8 - |b|, _ => '0') + b;
    ZerosThenValue(8 - |b|, b);
    s
  }

  /** `ConvertIp2Binary`: each octet as eight binary digits, joined by '.'. */
  function ConvertIp2Binary(ip: string): (s: string)
    requires IpPattern(ip)
    ensures |s| == 35 && s[8] == '.' && s[17] == '.' && s[26] == '.'
    ensures AllBits(s[..8]) && BinValue(s[..8]) == Octets(ip)[0]
    ensures AllBits(s[9..17]) && BinValue(s[9..17]) == Octets(ip)[1]
    ensures AllBits(s[18..26]) && BinValue(s[18..26]) == Octets(ip)[2]
    ensures AllBits(s[27..]) && BinValue(s[27..]) == Octets(ip)[3]
  {
    var os := Octets(ip);
    var a, b, c, d := Octet8(os[0]), Octet8(os[1]), Octet8(os[2]), Octet8(os[3]);
    JoinOctets(a, b, c, d);
    Join([a, b, c, d], '.')
  }

  /** Four eight-character fields joined by '.' sit at fixed offsets. */
  lemma JoinOctets(a: string, b: string, c: string, d: string)
    requires |a| == 8 && |b| == 8 && |c| == 8 && |d| == 8
    ensures var s := Join([a, b, c, d], '.');
      |s| == 35 && s[8] == '.' && s[17] == '.' && s[26] == '.' &&
      s[..8] == a && s[9..17] == b && s[18..26] == c && s[27..] == d
  {
    Join4(a, b, c, d, '.');
    var cd := c + ['.'] + d;
    var bcd := b + ['.'] + cd;
    var s := a + ['.'] + bcd;
    assert cd[..8] == c && cd[9..] == d;
    assert bcd[..8] == b && bcd[9..] == cd;
    assert s[..8] == a && s[9..] == bcd;
    assert s[9..17] == bcd[..8];
    assert s[18..26] == cd[..8];
    assert s[27..] == cd[9..];
  }

  /** `Replace(".", "")`. */
  function RemoveDots(s: string): (r: string)
    ensures '.' !in r
    ensures '.' !in s ==> r == s
    decreases |s|
  {
    if |s| == 0 then "" else (if s[0] == '.' then "" else [s[0]]) + RemoveDots(s[1..])
  }

  lemma {:induction false} RemoveDotsConcat(a: string, b: string)
    ensures RemoveDots(a + b) == RemoveDots(a) + RemoveDots(b)
    decreases |a|
  {
    if |a| > 0 {
      var ab := a + b;
      assert ab[0] == a[0];
      assert ab[1..] == a[1..] + b;
      var h := if a[0] == '.' then "" else [a[0]];
      assert RemoveDots(ab) == h + RemoveDots(a[1..] + b);
      assert RemoveDots(a) == h + RemoveDots(a[1..]);
      RemoveDotsConcat(a[1..], b);
      Assoc(h, RemoveDots(a[1..]), RemoveDots(b));
    } else {
      assert a + b == b;
    }
  }

  lemma Assoc(x: string, y: string, z: string)
    ensures x + (y + z) == (x + y) + z
  {
  }

  /** The address as a 32-bit number, first octet most significant. */
  function IpValue(os: seq<nat>): nat
    requires |os| == 4
  {
    ((os[0] * 256 + os[1]) * 256 + os[2]) * 256 + os[3]
  }

  lemma Join4(a: string, b: string, c: string, d: string, sep: char)
    ensures Join([a, b, c, d], sep) == a + [sep] + (b + [sep] + (c + [sep] + d))
  {
    JoinCons(c, [d], sep);
    JoinCons(b, [c, d], sep);
    JoinCons(a, [b, c, d], sep);
  }

  lemma RemoveDotsAround(x: string, y: string)
    ensures RemoveDots(x + ['.'] + y) == RemoveDots(x) + RemoveDots(y)
  {
    var xd := x + ['.'];
    RemoveDotsConcat(xd, y);
    RemoveDotsConcat(x, ['.']);
    RemoveDotsOfDot();
  }

  lemma RemoveDotsOfDot()
    ensures RemoveDots(['.']) == ""
  {
    assert ['.'][1..] == "";
  }

  /** Dropping the dots of four dot-free pieces joined by dots concatenates them. */
  lemma RemoveDotsJoin4(a: string, b: string, c: string, d: string)
    requires '.' !in a && '.' !in b && '.' !in c && '.' !in d
    ensures RemoveDots(Join([a, b, c, d], '.')) == a + (b + (c + d))
  {
    Join4(a, b, c, d, '.');
    var cd := c + ['.'] + d;
    var bcd := b + ['.'] + cd;
    RemoveDotsAround(c, d);
    assert RemoveDots(cd) == c + d;
    RemoveDotsAround(b, cd);
    assert RemoveDots(bcd) == b + (c + d);
    RemoveDotsAround(a, bcd);
  }

  lemma Pow2Plus(m: nat, n: nat)
    ensures Pow2(m + n) == Pow2(m) * Pow2(n)
    decreases m
  {
    if m > 0 {
      Pow2Plus(m - 1, n);
    }
  }

  /** The dot-free binary form of an address is its 32-bit value in binary. */
  lemma BinaryForm(ip: string)
    requires IpPattern(ip)
    ensures var bits := RemoveDots(ConvertIp2Binary(ip));
      |bits| == 32 && AllBits(bits) && BinValue(bits) == IpValue(Octets(ip))
  {
    var os := Octets(ip);
    var a, b, c, d := Octet8(os[0]), Octet8(os[1]), Octet8(os[2]), Octet8(os[3]);
    RemoveDotsJoin4(a, b, c, d);
    PrefixValue(c, d);
    PrefixValue(b, c + d);
    PrefixValue(a, b + (c + d));
    Pow2Of8();
    Pow2Plus(8, 8);
    Pow2Plus(16, 8);
    IpValueShifts(os[0], os[1], os[2], os[3]);
  }

  lemma IpValueShifts(a: nat, b: nat, c: nat, d: nat)
    ensures ((a * 256 + b) * 256 + c) * 256 + d == a * (256 * 256 * 256) + (b * (256 * 256) + (c * 256 + d))
  {
  }

  /** `IsMatchSubnetMask`: both arguments are validated first (address
      before mask); then the first `n` binary digits of the address and of
      the subnet address are compared, `n` being the prefix length. */
  function IsMatchSubnetMask(ip: Option<string>, subnetMask: Option<string>): (r: Result<bool>)
    ensures !IsIP(ip) ==> r == Throw(Argument("ip"))
    ensures IsIP(ip) && !IsSubnetMask(subnetMask) ==> r == Throw(Argument("subnetMask"))
    ensures r.Ok? <==> IsIP(ip) && IsSubnetMask(subnetMask)
  {
    if !IsIP(ip) then Throw(Argument("ip"))
    else if !IsSubnetMask(subnetMask) then Throw(Argument("subnetMask"))
    else Ok(SamePrefix(ip.value, subnetMask.value))
  }

  /** The comparison `IsMatchSubnetMask` makes once both arguments are well
      formed: both addresses written as 32 bits, compared on as many leading
      bits as the mask's prefix length. */
  predicate SamePrefix(ip: string, subnetMask: string)
    requires IsIP(Some(ip)) && IsSubnetMask(Some(subnetMask))
  {
    var n := PrefixLength(subnetMask);
    AddressBits(ip)[..n] == AddressBits(Split(subnetMask, '/')[0])[..n]
  }

  /** `ConvertIp2Binary(ip).Replace(".", "")`: the address's 32-bit value in binary. */
  function AddressBits(ip: string): (bits: string)
    requires IpPattern(ip)
    ensures |bits| == 32 && AllBits(bits) && BinValue(bits) == IpValue(Octets(ip))
  {
    BinaryForm(ip);
    RemoveDots(ConvertIp2Binary(ip))
  }

  /** The prefix length and subnet of a well-formed mask. */
  function PrefixLength(subnetMask: string): (n: nat)
    requires IsSubnetMask(Some(subnetMask))
    ensures n <= 32
  {
    var mask := Split(subnetMask, '/')[1];
    PrefixPatternIsCanonical(mask);
    DecimalValue(mask)
  }

  function Subnet(subnetMask: string): (os: seq<nat>)
    requires IsSubnetMask(Some(subnetMask))
    ensures |os| == 4
  {
    Octets(Split(subnetMask, '/')[0])
  }

  /** Equal binary strings of one length are equal exactly when their values are. */
  lemma {:induction false} BinValueInjective(a: string, b: string)
    requires AllBits(a) && AllBits(b) && |a| == |b|
    ensures a == b <==> BinValue(a) == BinValue(b)
    decreases |a|
  {
    if |a| > 0 && BinValue(a) == BinValue(b) {
      var n := |a| - 1;
      BinValueInjective(a[..n], b[..n]);
      assert a == a[..n] + [a[n]] && b == b[..n] + [b[n]];
    }
  }

  /** Dividing by 2^k drops the last k binary digits. */
  lemma PrefixIsQuotient(s: string, n: nat)
    requires AllBits(s) && n <= |s|
    ensures AllBits(s[..n]) && BinValue(s[..n]) == BinValue(s) / Pow2(|s| - n)
  {
    assert s == s[..n] + s[n..];
    assert AllBits(s[n..]);
    PrefixValue(s[..n], s[n..]);
    DivUnique(BinValue(s[..n]), Pow2(|s| - n), BinValue(s[n..]));
  }

  lemma DivUnique(q: nat, d: nat, r: nat)
    requires 0 <= r < d
    ensures (q * d + r) / d == q
  {
    var x := q * d + r;
    var k, m := x / d, x % d;
    assert k * d + m == q * d + r;
    if k > q {
      MulLe(q + 1, k, d);
      assert false;
    } else if k < q {
      MulLe(k + 1, q, d);
      assert false;
    }
  }

  lemma MulLe(a: nat, b: nat, d: nat)
    requires a <= b
    ensures a * d <= b * d
  {
    assert b * d == a * d + (b - a) * d;
  }

  /** `x * d + r` with `r < d` determines `x` and `r`. */
  lemma MulAddInjective(x1: nat, r1: nat, x2: nat, r2: nat, d: nat)
    requires r1 < d && r2 < d && x1 * d + r1 == x2 * d + r2
    ensures x1 == x2 && r1 == r2
  {
    DivUnique(x1, d, r1);
    DivUnique(x2, d, r2);
  }

  /** An address matches a subnet of prefix length n exactly when the two
      32-bit values agree once their last 32 - n bits are dropped. */
  lemma MatchIsPrefixEquality(ip: string, subnetMask: string)
    requires IsIP(Some(ip)) && IsSubnetMask(Some(subnetMask))
    ensures var k := Pow2(32 - PrefixLength(subnetMask));
      IsMatchSubnetMask(Some(ip), Some(subnetMask))
      == Ok(IpValue(Octets(ip)) / k == IpValue(Subnet(subnetMask)) / k)
  {
    var subnet := Split(subnetMask, '/')[0];
    var n := PrefixLength(subnetMask);
    var a, b := AddressBits(ip), AddressBits(subnet);
    assert IsMatchSubnetMask(Some(ip), Some(subnetMask)) == Ok(a[..n] == b[..n]);
    assert Subnet(subnetMask) == Octets(subnet);
    PrefixAgreement(a, b, n);
  }

  /** Two bit strings of one length share their first n bits exactly when
      their values agree after dropping the remaining bits. */
  lemma PrefixAgreement(a: string, b: string, n: nat)
    requires AllBits(a) && AllBits(b) && |a| == |b| && n <= |a|
    ensures (a[..n] == b[..n]) == (BinValue(a) / Pow2(|a| - n) == BinValue(b) / Pow2(|b| - n))
  {
    PrefixIsQuotient(a, n);
    PrefixIsQuotient(b, n);
    BinValueInjective(a[..n], b[..n]);
  }

  /** A /0 mask matches every address. */
  lemma SlashZeroMatchesAll(ip: string, subnetMask: string)
    requires IsIP(Some(ip)) && IsSubnetMask(Some(subnetMask)) && PrefixLength(subnetMask) == 0
    ensures IsMatchSubnetMask(Some(ip), Some(subnetMask)) == Ok(true)
  {
    MatchIsPrefixEquality(ip, subnetMask);
    Pow2Of32();
    BinaryForm(ip);
    BinaryForm(Split(subnetMask, '/')[0]);
  }

  /** A /32 mask matches only the subnet address itself. */
  lemma Slash32IsEquality(ip: string, subnetMask: string)
    requires IsIP(Some(ip)) && IsSubnetMask(Some(subnetMask)) && PrefixLength(subnetMask) == 32
    ensures IsMatchSubnetMask(Some(ip), Some(subnetMask)) == Ok(Octets(ip) == Subnet(subnetMask))
  {
    MatchIsPrefixEquality(ip, subnetMask);
    WholeValueMatch(Octets(ip), Subnet(subnetMask), Pow2(32 - PrefixLength(subnetMask)));
  }

  lemma WholeValueMatch(a: seq<nat>, b: seq<nat>, k: nat)
    requires |a| == 4 && |b| == 4 && forall i :: 0 <= i < 4 ==> a[i] <= 255 && b[i] <= 255
    requires k == Pow2(0)
    ensures (IpValue(a) / k == IpValue(b) / k) == (a == b)
  {
    if IpValue(a) == IpValue(b) {
      IpValueInjective(a, b);
    }
  }

  lemma IpValueInjective(a: seq<nat>, b: seq<nat>)
    requires |a| == 4 && |b| == 4 && forall i :: 0 <= i < 4 ==> a[i] <= 255 && b[i] <= 255
    requires IpValue(a) == IpValue(b)
    ensures a == b
  {
    MulAddInjective((a[0] * 256 + a[1]) * 256 + a[2], a[3], (b[0] * 256 + b[1]) * 256 + b[2], b[3], 256);
    MulAddInjective(a[0] * 256 + a[1], a[2], b[0] * 256 + b[1], b[2], 256);
    MulAddInjective(a[0], a[1], b[0], b[1], 256);
  }

  /** 2^32, the number of addresses. */
  lemma Pow2Of32()
    ensures Pow2(32) == 0x1_0000_0000
  {
    Pow2Of8();
    Pow2Plus(8, 8);
    Pow2Plus(16, 16);
  }

  // ---------------------------------------------------------------------
  // ContainsChinese

  /** The CJK Unified Ideographs block U+4E00..U+9FA5 of the pattern. */
  predicate IsChinese(c: char) { '\U{4E00}' <= c <= '\U{9FA5}' }

  /** `ContainsChinese`: false for a null or blank string, otherwise whether
      some character lies in the block. */
  method ContainsChinese(str: Option<string>) returns (r: bool)
    ensures r <==> str.Some? && exists i :: 0 <= i < |str.value| && IsChinese(str.value[i])
  {
    if IsNullOrWhiteSpace(str) {
      return false;
    }
    var s := str.value;
    var i := 0;
    while i < |s|
      invariant 0 <= i <= |s|
      invariant forall j :: 0 <= j < i ==> !IsChinese(s[j])
    {
      if IsChinese(s[i]) {
        return true;
      }
      i := i + 1;
    }
    return false;
  }
}

=== FILE: time_helper.dfy ===
/** `TimeHelper`: turning Unix timestamps written as decimal text into
    `DateTime` values. The text is padded with zeros and read by `long.Parse`
    as a count of 100-nanosecond ticks after the local-time epoch. */
module TimeHelper {
  import opened Clr

  const TicksPerSecond: int := 10_000_000

  /** Appended by the second-based conversions: ×10^7 ticks. */
  const SecondsSuffix: string := "0000000"

  /** Appended by the millisecond-based conversion: ×10^4 ticks. */
  const MillisecondsSuffix: string := "0000"

  /** The white space `NumberStyles.Integer` allows around a number. */
  predicate IsNumberWhite(c: char) {
    c == ' ' || '\t' <= c <= '\r'
  }

  /** Characters `long.Parse` never accepts anywhere in its input. */
  predicate IsForeign(c: char) {
    !IsDigit(c) && !IsNumberWhite(c) && c != '-' && c != '+'
  }

  function LeadingWhite(s: string): (n: nat)
    ensures n <= |s|
    ensures forall i :: 0 <= i < n ==> IsNumberWhite(s[i])
    ensures n < |s| ==> !IsNumberWhite(s[n])
  {
    if |s| > 0 && IsNumberWhite(s[0]) then 1 + LeadingWhite(s[1..]) else 0
  }

  function TrailingWhite(s: string): (n: nat)
    ensures n <= |s|
    ensures forall i :: |s| - n <= i < |s| ==> IsNumberWhite(s[i])
    ensures n < |s| ==> !IsNumberWhite(s[|s| - n - 1])
  {
    if |s| > 0 && IsNumberWhite(s[|s| - 1]) then 1 + TrailingWhite(s[..|s| - 1]) else 0
  }

  function Pow10(k: nat): (p: nat)
    ensures p >= 1
  {
    if k == 0 then 1 else 10 * Pow10(k - 1)
  }

  /** `long.Parse` with `NumberStyles.Integer` and invariant signs: optional
      white space, an optional sign, at least one digit, optional white
      space; a value outside the `long` range overflows. */
  function ParseLong(s: string): (r: Result<int>)
    ensures r.Ok? ==> LongMin <= r.value <= LongMax
    ensures r.Throw? ==> r.error == Format || r.error == Overflow
    ensures |s| > 0 && AllDigits(s) ==>
      r == (if DecimalValue(s) <= LongMax then Ok(DecimalValue(s)) else Throw(Overflow))
  {
    var a := LeadingWhite(s);
    var b := |s| - TrailingWhite(s[a..]);
    var body := s[a..b];
    var digits := if |body| > 0 && (body[0] == '-' || body[0] == '+') then body[1..] else body;
    assert |s| > 0 && AllDigits(s) ==> digits == s by {
      if |s| > 0 && AllDigits(s) {
        assert a == 0;
        assert s[a..] == s;
        assert !IsNumberWhite(s[|s| - 1]);
      }
    }
    if |digits| == 0 || !AllDigits(digits) then Throw(Format)
    else
      var v: int := if |body| > 0 && body[0] == '-' then -(DecimalValue(digits) as int) else DecimalValue(digits);
      if v < LongMin || v > LongMax then Throw(Overflow) else Ok(v)
  }

  /** A character that can be no part of a number makes the padded text
      unreadable, wherever it stands in the timestamp. */
  lemma ForeignIsFormatError(s: string, i: int)
    requires 0 <= i < |s| && IsForeign(s[i])
    ensures ParseLong(s + SecondsSuffix) == Throw(Format)
    ensures ParseLong(s + MillisecondsSuffix) == Throw(Format)
  {
    ForeignInPadded(s, SecondsSuffix, i);
    ForeignInPadded(s, MillisecondsSuffix, i);
  }

  lemma ForeignInPadded(s: string, suffix: string, i: int)
    requires 0 <= i < |s| && IsForeign(s[i])
    requires |suffix| > 0 && AllDigits(suffix)
    ensures ParseLong(s + suffix) == Throw(Format)
  {
    var text := s + suffix;
    var a := PaddedBody(s, suffix, i);
    var body := text[a..|text| - TrailingWhite(text[a..])];
    assert body == text[a..];
    assert body[i - a] == s[i];
    ForeignNotDigits(body, i - a);
  }

  /** Leading white space stops before the foreign character, and the digit
      suffix leaves no trailing white space. */
  lemma PaddedBody(s: string, suffix: string, i: int) returns (a: nat)
    requires 0 <= i < |s| && IsForeign(s[i])
    requires |suffix| > 0 && AllDigits(suffix)
    ensures a == LeadingWhite(s + suffix) && a <= i
    ensures TrailingWhite((s + suffix)[a..]) == 0
  {
    var text := s + suffix;
    assert text[i] == s[i];
    a := LeadingWhite(text);
    var t := text[a..];
    assert t[|t| - 1] == suffix[|suffix| - 1];
  }

  /** Whatever sign is stripped, a foreign character stays among the digits. */
  lemma ForeignNotDigits(body: string, k: int)
    requires 0 <= k < |body| && IsForeign(body[k])
    ensures var digits := if |body| > 0 && (body[0] == '-' || body[0] == '+') then body[1..] else body;
      !AllDigits(digits)
  {
    var digits := if |body| > 0 && (body[0] == '-' || body[0] == '+') then body[1..] else body;
    if digits == body {
      assert !IsDigit(digits[k]);
    } else {
      assert k > 0;
      assert !IsDigit(digits[k - 1]);
    }
  }

  /** Appending zeros multiplies the value by a power of ten. */
  lemma {:induction false} AppendZeros(s: string, z: string)
    requires AllDigits(s) && forall i :: 0 <= i < |z| ==> z[i] == '0'
    ensures AllDigits(s + z) && DecimalValue(s + z) == DecimalValue(s) * Pow10(|z|)
    decreases |z|
  {
    if |z| > 0 {
      var y := z[..|z| - 1];
      AppendZeros(s, y);
      assert s + z == (s + y) + ['0'];
      AppendDigit(s + y, '0');
      TenTimes(DecimalValue(s), Pow10(|y|));
    } else {
      assert s + z == s;
    }
  }

  lemma AppendDigit(s: string, c: char)
    requires AllDigits(s) && IsDigit(c)
    ensures AllDigits(s + [c]) && DecimalValue(s + [c]) == 10 * DecimalValue(s) + DigitValue(c)
  {
    assert (s + [c])[..|s|] == s;
  }

  lemma TenTimes(a: int, b: int)
    ensures a * (10 * b) == 10 * (a * b)
  {
  }

  /** The conversion shared by the three `…2DateTime` methods; a null
      timestamp concatenates as the empty string. */
  function FromTimeStamp(localEpoch: DateTime, timeStamp: Option<string>, suffix: string): (r: Result<DateTime>)
  {
    var text := (if timeStamp.Some? then timeStamp.value else "") + suffix;
    var ticks :- ParseLong(text);
    AddTicks(localEpoch, ticks)
  }

  /** `TimeStamp2DateTime`: seconds after the epoch. `localEpoch` is
      1970-01-01 converted to local time, which depends on the machine's
      time zone. */
  function TimeStamp2DateTime(localEpoch: DateTime, timeStamp: Option<string>): (r: Result<DateTime>)
    ensures timeStamp.None? ==> r == Ok(localEpoch)
    ensures timeStamp.Some? && |timeStamp.value| > 0 && AllDigits(timeStamp.value) ==>
      var n := DecimalValue(timeStamp.value) * TicksPerSecond;
      r == (if n > LongMax then Throw(Overflow) else AddTicks(localEpoch, n))
    ensures timeStamp.Some? && (exists i :: 0 <= i < |timeStamp.value| && IsForeign(timeStamp.value[i])) ==>
      r == Throw(Format)
  {
    Padded(timeStamp, SecondsSuffix);
    FromTimeStamp(localEpoch, timeStamp, SecondsSuffix)
  }

  /** `UnixTimeStamp2DateTime`: the same conversion as `TimeStamp2DateTime`. */
  function UnixTimeStamp2DateTime(localEpoch: DateTime, timeStamp: Option<string>): (r: Result<DateTime>)
    ensures r == TimeStamp2DateTime(localEpoch, timeStamp)
  {
    FromTimeStamp(localEpoch, timeStamp, SecondsSuffix)
  }

  /** `MilliTimeStamp2DateTime`: milliseconds after the epoch. */
  function MilliTimeStamp2DateTime(localEpoch: DateTime, timeStamp: Option<string>): (r: Result<DateTime>)
    ensures timeStamp.None? ==> r == Ok(localEpoch)
    ensures timeStamp.Some? && |timeStamp.value| > 0 && AllDigits(timeStamp.value) ==>
      var n := DecimalValue(timeStamp.value) * 10_000;
      r == (if n > LongMax then Throw(Overflow) else AddTicks(localEpoch, n))
    ensures timeStamp.Some? && (exists i :: 0 <= i < |timeStamp.value| && IsForeign(timeStamp.value[i])) ==>
      r == Throw(Format)
  {
    Padded(timeStamp, MillisecondsSuffix);
    FromTimeStamp(localEpoch, timeStamp, MillisecondsSuffix)
  }

  /** What padding does to the parse, for the two suffixes in use. */
  lemma Padded(timeStamp: Option<string>, suffix: string)
    requires suffix == SecondsSuffix || suffix == MillisecondsSuffix
    ensures timeStamp.Some? && |timeStamp.value| > 0 && AllDigits(timeStamp.value) ==>
      AllDigits(timeStamp.value + suffix) &&
      DecimalValue(timeStamp.value + suffix) == DecimalValue(timeStamp.value) * Pow10(|suffix|)
    ensures timeStamp.Some? && (exists i :: 0 <= i < |timeStamp.value| && IsForeign(timeStamp.value[i])) ==>
      ParseLong(timeStamp.value + suffix) == Throw(Format)
    ensures ("" + suffix) == suffix && AllDigits(suffix) && DecimalValue(suffix) == 0
    ensures Pow10(|SecondsSuffix|) == TicksPerSecond && Pow10(|MillisecondsSuffix|) == 10_000
  {
    SuffixFacts(suffix);
    if timeStamp.Some? {
      var s := timeStamp.value;
      if AllDigits(s) {
        AppendZeros(s, suffix);
      }
      if exists i :: 0 <= i < |s| && IsForeign(s[i]) {
        var i :| 0 <= i < |s| && IsForeign(s[i]);
        ForeignInPadded(s, suffix, i);
      }
    }
  }

  lemma SuffixFacts(suffix: string)
    requires suffix == SecondsSuffix || suffix == MillisecondsSuffix
    ensures ("" + suffix) == suffix && AllDigits(suffix) && DecimalValue(suffix) == 0
    ensures Pow10(|SecondsSuffix|) == TicksPerSecond && Pow10(|MillisecondsSuffix|) == 10_000
  {
    assert "" + suffix == suffix;
    AppendZeros("", suffix);
    assert Pow10(4) == 10_000 by {
      assert Pow10(1) == 10 && Pow10(2) == 100 && Pow10(3) == 1000;
    }
    assert Pow10(7) == 10_000_000 by {
      assert Pow10(5) == 100_000 && Pow10(6) == 1_000_000;
    }
  }

  /** A seconds timestamp and the same instant written in milliseconds give
      the same `DateTime`. */
  lemma MillisecondsAgree(localEpoch: DateTime, s: string)
    ensures MilliTimeStamp2DateTime(localEpoch, Some(s + "000")) == TimeStamp2DateTime(localEpoch, Some(s))
  {
    assert (s + "000") + MillisecondsSuffix == s + SecondsSuffix;
  }

  /** The rendering of a whole number of seconds converts back to that many
      seconds after the epoch. */
  lemma SecondsRoundTrip(localEpoch: DateTime, n: nat)
    requires 0 <= localEpoch.ticks + n * TicksPerSecond <= MaxTicks
    ensures TimeStamp2DateTime(localEpoch, Some(Decimal(n))) == Ok(DateTime(localEpoch.ticks + n * TicksPerSecond))
  {
    DecimalRoundTrip(n);
  }
}

=== FILE: where_builder.dfy ===
/** The `WhereBuilder`: a predicate tree grown left to right by conditional
    AND/OR steps. The C# class mutates one `Expression` field and returns
    `this`; here a builder is a value and every step returns the next value,
    so the returned builder and the receiver are the same state. */
module WhereBuilders {

  /** The accumulated expression. `True` is the literal `e => true` base. */
  datatype Pred<!E> =
    | True
    | Leaf(f: E -> bool)
    | And(left: Pred<E>, right: Pred<E>)
    | Or(left: Pred<E>, right: Pred<E>)

  /** What the expression means for one entity. */
  function Eval<E(!new)>(p: Pred<E>, e: E): bool {
    match p
    case True => true
    case Leaf(f) => f(e)
    case And(l, r) => Eval(l, e) && Eval(r, e)
    case Or(l, r) => Eval(l, e) || Eval(r, e)
  }

  datatype WhereBuilder<!E> = WhereBuilder(linked: Pred<E>)

  /** `WhereBuilder<T>.Base` and `new WhereBuilder<T>()`: start from `e => true`.
      Each access builds a new value. */
  function Base<E(!new)>(): (b: WhereBuilder<E>)
    ensures b.linked == True
    ensures forall e :: Eval(b.linked, e)
  {
    WhereBuilder(True)
  }

  /** `new WhereBuilder<T>(baseExp)` and `CreateBase(baseExp)`. */
  function CreateBase<E(!new)>(baseExp: E -> bool): (b: WhereBuilder<E>)
    ensures forall e :: Eval(b.linked, e) == baseExp(e)
  {
    WhereBuilder(Leaf(baseExp))
  }

  /** `IfAnd(condition, exp)`: conjoin `exp` when the condition holds. */
  function IfAnd<E(!new)>(b: WhereBuilder<E>, condition: bool, exp: E -> bool): (r: WhereBuilder<E>)
    ensures !condition ==> r == b
    ensures condition ==> r.linked == And(b.linked, Leaf(exp))
    ensures forall e :: Eval(r.linked, e) == (Eval(b.linked, e) && (condition ==> exp(e)))
  {
    if condition then WhereBuilder(And(b.linked, Leaf(exp))) else b
  }

  /** `IfOr(condition, exp)`: disjoin `exp` when the condition holds. */
  function IfOr<E(!new)>(b: WhereBuilder<E>, condition: bool, exp: E -> bool): (r: WhereBuilder<E>)
    ensures !condition ==> r == b
    ensures condition ==> r.linked == Or(b.linked, Leaf(exp))
    ensures forall e :: Eval(r.linked, e) == (Eval(b.linked, e) || (condition && exp(e)))
  {
    if condition then WhereBuilder(Or(b.linked, Leaf(exp))) else b
  }

  /** `IfElseAnd(condition, ifTrue, ifFalse)`: always conjoins one branch. */
  function IfElseAnd<E(!new)>(b: WhereBuilder<E>, condition: bool, ifTrue: E -> bool, ifFalse: E -> bool)
    : (r: WhereBuilder<E>)
    ensures r.linked == And(b.linked, Leaf(if condition then ifTrue else ifFalse))
    ensures forall e ::
      (Eval(r.linked, e) == (Eval(b.linked, e) && (if condition then ifTrue(e) else ifFalse(e))))
  {
    WhereBuilder(And(b.linked, Leaf(if condition then ifTrue else ifFalse)))
  }

  /** `IfElseOr(condition, ifTrue, ifFalse)`: always disjoins one branch. */
  function IfElseOr<E(!new)>(b: WhereBuilder<E>, condition: bool, ifTrue: E -> bool, ifFalse: E -> bool)
    : (r: WhereBuilder<E>)
    ensures r.linked == Or(b.linked, Leaf(if condition then ifTrue else ifFalse))
    ensures forall e ::
      (Eval(r.linked, e) == (Eval(b.linked, e) || (if condition then ifTrue(e) else ifFalse(e))))
  {
    WhereBuilder(Or(b.linked, Leaf(if condition then ifTrue else ifFalse)))
  }

  /** `Build()`: the accumulated predicate as a function. The builder itself
      is not changed, so it can keep being chained, and the function is a
      snapshot that later steps cannot affect. */
  function Build<E(!new)>(b: WhereBuilder<E>): (pred: E -> bool)
    ensures forall e :: pred(e) == Eval(b.linked, e)
  {
    e => Eval(b.linked, e)
  }

  /** One chaining call, for describing a whole chain. */
  datatype Step<!E> =
    | IfAndStep(condition: bool, exp: E -> bool)
    | IfOrStep(condition: bool, exp: E -> bool)
    | IfElseAndStep(condition: bool, ifTrue: E -> bool, ifFalse: E -> bool)
    | IfElseOrStep(condition: bool, ifTrue: E -> bool, ifFalse: E -> bool)

  function Apply<E(!new)>(b: WhereBuilder<E>, s: Step<E>): WhereBuilder<E> {
    match s
    case IfAndStep(c, p) => IfAnd(b, c, p)
    case IfOrStep(c, p) => IfOr(b, c, p)
    case IfElseAndStep(c, t, f) => IfElseAnd(b, c, t, f)
    case IfElseOrStep(c, t, f) => IfElseOr(b, c, t, f)
  }

  /** `b.Step0(...).Step1(...)...`: the steps in call order. */
  function Chain<E(!new)>(b: WhereBuilder<E>, steps: seq<Step<E>>): WhereBuilder<E>
    decreases |steps|
  {
    if |steps| == 0 then b else Chain(Apply(b, steps[0]), steps[1..])
  }

  /** Reference semantics of a chain: a left-to-right fold of boolean
      connectives over the value accumulated so far, with no tree at all. */
  function Fold<E(!new)>(acc: bool, steps: seq<Step<E>>, e: E): bool
    decreases |steps|
  {
    if |steps| == 0 then acc
    else
      var next := match steps[0]
        case IfAndStep(c, p) => if c then acc && p(e) else acc
        case IfOrStep(c, p) => if c then acc || p(e) else acc
        case IfElseAndStep(c, t, f) => acc && (if c then t(e) else f(e))
        case IfElseOrStep(c, t, f) => acc || (if c then t(e) else f(e));
      Fold(next, steps[1..], e)
  }

  /** The built predicate of any chain evaluates, on every entity, exactly as
      the left-nested fold of its steps in call order. */
  lemma {:induction false} ChainMeansFold<E(!new)>(b: WhereBuilder<E>, steps: seq<Step<E>>, e: E)
    ensures Build(Chain(b, steps))(e) == Fold(Eval(b.linked, e), steps, e)
    decreases |steps|
  {
    if |steps| > 0 {
      ChainMeansFold(Apply(b, steps[0]), steps[1..], e);
    }
  }

  /** Steps whose condition is false and that are conditional leave the
      predicate as it was, whatever the branch. */
  lemma {:induction false} FalseStepsAreInert<E(!new)>(b: WhereBuilder<E>, steps: seq<Step<E>>)
    requires forall i :: 0 <= i < |steps| ==>
      (steps[i].IfAndStep? || steps[i].IfOrStep?) && !steps[i].condition
    ensures Chain(b, steps) == b
    decreases |steps|
  {
    if |steps| > 0 {
      assert Apply(b, steps[0]) == b;
      FalseStepsAreInert(b, steps[1..]);
    }
  }

  /** Starting from `Base`, one enabled `IfAnd(true, p)` builds a predicate
      that agrees with `p` everywhere. */
  lemma BaseIfAndIsBranch<E(!new)>(p: E -> bool)
    ensures forall e :: Build(IfAnd(Base(), true, p))(e) == p(e)
  {
  }

  /** Combination is left-nested in call order. */
  lemma LeftNested<E(!new)>(p: E -> bool, q: E -> bool)
    ensures Chain(Base(), [IfAndStep(true, p), IfOrStep(true, q)]).linked
         == Or(And(True, Leaf(p)), Leaf(q))
  {
    var steps := [IfAndStep(true, p), IfOrStep(true, q)];
    var b1 := Apply(Base(), steps[0]);
    assert b1.linked == And(True, Leaf(p));
    assert steps[1..] == [IfOrStep(true, q)];
    assert Chain(b1, steps[1..]) == Chain(Apply(b1, steps[1]), steps[2..]);
  }
}
